=== FILE: README.md ===
# PS-WebApi command-line assembly, in Dafny

DataBooster PS-WebApi exposes executables and PowerShell scripts over HTTP.
For an executable it turns the request into a command line. The arguments come
from the JSON body (an array, an object or a single value) and from the query
string. `CmdArgumentsBuilder` collects them in order. Key/value pairs become a
key token followed by a value token. When the command line is rendered, each
argument goes through an escape function and the results are joined by single
spaces.

There are two escape functions, one per quoting dialect:

- **EXE** (`QuoteExeArgument`) follows the argv parsing rules of the Microsoft
  C/C++ runtime.
- **BAT** (`QuoteBatArgument`) follows cmd.exe.

Each dialect has a regular expression that says when an argument can be passed
through without quotes. The EXE dialect also has a rewrite that doubles
backslash runs.

This project models that core, plus the pieces around it:

- the sample's `CmdArgumentResolver`, which picks a dialect from a file
  extension;
- the older escaper in `ConsoleProcess`;
- the three historical `GatherCmdArguments`/`TransformDictionaryToCmdArguments`
  variants, and `BuildCmdArguments`;
- the exit-code to HTTP-status rule of `InvokeCmd`;
- the PowerShell-side helpers of `PSControllerExtensions`: parameter gathering
  and binding, joining results, escaping line breaks in headers, turning error
  streams into exceptions, and the user name;
- the converter registry and its lookup in `PSConfiguration` and
  `PSConverterRegistry`.

Modules, leaves first:

- `DotNet`: nullable references, exceptions, `Result`, and the string
  primitives the code relies on.
  - `char.IsWhiteSpace`, `Trim`, `ToUpperInvariant`.
  - `string.Join`, `string.Replace`, `Int32.ToString`.
- `JTokens`: the JSON tokens a body deserialises to, their `ToString()`, and
  the `object` values that pairs carry.
- `Argv`: a decoder for the Microsoft C runtime rules (`Decode`).
  - 2n backslashes before a quote give n backslashes, and the quote toggles
    quoting.
  - 2n+1 backslashes before a quote give n backslashes and a literal quote.
  - Any other backslash is literal.
  - Space or tab outside quotes separates arguments.
  - The decoder is the reference the EXE dialect is proved against.
- `ExeQuoting` and `BatQuoting`: the two dialects.
  - The recognisers are hand-written, mutually recursive predicates.
  - The backslash rewrite is hand-written.
  - The EXE quoter is modelled twice. `QuoteExeArgumentAsWritten` is the code
    as written; the builder, the resolver and `BuildCmdArguments` use it.
    `QuoteExeArgumentCorrected` has the corrected backslash rewrite (see "## Findings").
  - `ExeQuoting.ExeReadBackAsWritten` states exactly what the code as written
    reads back: the argument, except that a backslash run before a final line
    feed comes back doubled. `ExeQuoting.ExeRoundTrip` states that the
    corrected quoter reads back every argument unchanged.
- `ArgumentsBuilder`: every `Add` overload, `IsNullValue`,
  `AddFromQueryString`, `ToString(escape)` and `ToString()`.
- `ArgumentResolver`, `ConsoleProcess`.
- `CmdGather`: `PSControllerExtensions-cmd.cs`. It also stands for
  `PSControllerExtensions.Cmd.cs`, which has the same
  `TransformDictionaryToCmdArguments` and `GatherCmdArguments`
  (`PSControllerExtensions.Cmd.cs:12-36`) plus a stub `InvokeCmd`.
- `CmdBuild`: `PSControllerExtensions.cmd.cs`. Its `CmdResponse` is also the
  status rule of `PSControllerExtensions-cmd.cs:91-100`.
- `PSExtensions`, `ConverterRegistry`, `PSConfiguration`.

Four behaviours of the code that are easy to misread:

- **The extension needs its leading dot.** A dialect is chosen only by the
  literal extensions `.EXE` and `.BAT`, compared case-insensitively; `exe`
  without the dot gets no quoting (`ArgumentResolver.DotRequired`).
- **EXE pass-through is one argument, not necessarily the same argument.** The
  pass-through grammar accepts strings that read as one argument but not as
  the same text. For example, `a"b c"` reads as `ab c`. The model proves that
  every passed-through string reads as exactly one argument. It proves that
  the argument is the string itself only for strings with no blank, quote or
  backslash (`ExeQuoting.PlainPassesThrough`).
- **`$` also matches before a final line feed.** A .NET `$` matches at the end
  and just before a final line feed. Both recognisers and the backslash
  rewrite of `QuoteExeArgumentAsWritten` are modelled that way; see
  "## Findings". Only the separately named corrected quoter,
  `QuoteExeArgumentCorrected`, anchors the rewrite at the very end.
- **Escape functions take one argument.** `ToString(bool)` and
  `EscapeExeArgument` come from other revisions of the builder. Here they are
  bound to `ToString(escape)` with the code as written,
  `QuoteExeArgumentAsWritten(·, forceQuote)` (`ArgumentsBuilder.ExeEscape`,
  `CmdBuild.RenderQuoted`, the EXE case of `ArgumentResolver.Quote`). The
  corrected quoter is bound only in `ArgumentsBuilder.CorrectedExeEscape`.

## Model

| member | source | states |
|---|---|---|
| ExeQuoting.QuoteExeArgumentCorrected | src/DataBooster.PSWebApi/CmdArgumentsBuilder.cs:174-185 | the corrected quoter: a null or blank argument gives `"` + argument + `"` whatever forceQuote is; on the quoting path the result starts and ends with a quote; otherwise the argument is returned unchanged |
| ExeQuoting.QuoteExeArgumentAsWritten | src/DataBooster.PSWebApi/CmdArgumentsBuilder.cs:174-185 | the same three cases for the code as written, with the .NET reading of `$` in the rewrite |
| ExeQuoting.NeedsNoQuotes | src/DataBooster.PSWebApi/CmdArgumentsBuilder.cs:20 | the no-quotes pattern, with one final line feed left to `$`; it has no contract of its own, and what it accepts is stated by `ExeQuoting.NeedsNoQuotesSingle` |
| ExeQuoting.EscapeBackslashesAsWritten | src/DataBooster.PSWebApi/CmdArgumentsBuilder.cs:21 | the backslash rewrite as .NET evaluates it; it has no contract of its own, and what it does is stated by `ExeQuoting.AsWrittenAgrees` and `ExeQuoting.AsWrittenQuotedReadsBack` |
| ExeQuoting.EscapeBackslashesForward | src/DataBooster.PSWebApi/CmdArgumentsBuilder.cs:21 | the rewrite equals a left-to-right reference: each maximal backslash run followed by a quote or by the end is doubled, and every other character is kept |
| ExeQuoting.DoubleRunsAppend | src/DataBooster.PSWebApi/CmdArgumentsBuilder.cs:21 | the rewrite of a concatenation is the rewrite of each part, the first part anchored by what the second begins with |
| ExeQuoting.DoubleRunsOfRun | src/DataBooster.PSWebApi/CmdArgumentsBuilder.cs:21 | a run of k backslashes becomes 2k when it is anchored and stays k when it is not |
| ExeQuoting.EscapedBodyReads | src/DataBooster.PSWebApi/CmdArgumentsBuilder.cs:182-184 | inside quotes the escaped body reads back as the original, except its trailing run, which is still pending and doubled when anchored |
| ExeQuoting.QuotedReadsBack | src/DataBooster.PSWebApi/CmdArgumentsBuilder.cs:182-184 | the corrected quoting path's output reads as exactly one argument, equal to the input, and ends outside quotes; for the code as written see `ExeQuoting.AsWrittenQuotedReadsBack` |
| ExeQuoting.PlainBodyUnchanged | src/DataBooster.PSWebApi/CmdArgumentsBuilder.cs:182-184 | text with no backslash and no quote comes through both rewrites unchanged |
| ExeQuoting.ItemsRead | src/DataBooster.PSWebApi/CmdArgumentsBuilder.cs:20 | text the no-quotes grammar accepts, read from outside quotes, continues one argument and ends outside quotes |
| ExeQuoting.GroupRead | src/DataBooster.PSWebApi/CmdArgumentsBuilder.cs:20 | the rest of a quoted group the grammar accepts closes the quotes and stays in one argument |
| ExeQuoting.NeedsNoQuotesSingle | src/DataBooster.PSWebApi/CmdArgumentsBuilder.cs:179-180 | every string the recogniser passes through reads as exactly one argument |
| ExeQuoting.QuoteExeArgumentReads | src/DataBooster.PSWebApi/CmdArgumentsBuilder.cs:174-185 | every output of the corrected quoter reads as one argument; on the quoting path that argument is the input, with null read as empty |
| ExeQuoting.ExeRoundTrip | src/DataBooster.PSWebApi/CmdArgumentsBuilder.cs:165-185 | decoding the corrected quoter's force-quoted form of any argument gives exactly that one argument, with null read as empty |
| ExeQuoting.AsWrittenAgrees | src/DataBooster.PSWebApi/CmdArgumentsBuilder.cs:182 | the rewrite as written and the intended one agree on every string that does not end in a backslash followed by a line feed |
| ExeQuoting.ExeRoundTripAsWritten | src/DataBooster.PSWebApi/CmdArgumentsBuilder.cs:165-185 | the round trip of the code as written holds for every argument that does not end in a backslash followed by a line feed |
| ExeQuoting.AsWrittenReadingExact | src/DataBooster.PSWebApi/CmdArgumentsBuilder.cs:21 | what the code as written reads back is the argument itself exactly when the argument does not end in a backslash followed by a line feed |
| ExeQuoting.AsWrittenQuotedReadsBack | src/DataBooster.PSWebApi/CmdArgumentsBuilder.cs:182-184 | the quoting path as written gives one argument, equal to the input except that a backslash run before a final line feed is read back doubled |
| ExeQuoting.QuoteExeArgumentAsWrittenReads | src/DataBooster.PSWebApi/CmdArgumentsBuilder.cs:174-185 | every output of the code as written reads as one argument; on the quoting path that argument is the input, with null read as empty and a backslash run before a final line feed doubled |
| ExeQuoting.ExeReadBackAsWritten | src/DataBooster.PSWebApi/CmdArgumentsBuilder.cs:165-185 | decoding the force-quoted form given by the code as written yields one argument: the input, or, for an input ending in backslashes and a line feed, the input with that run doubled |
| ExeQuoting.AsWrittenLosesTrailingBackslash | src/DataBooster.PSWebApi/CmdArgumentsBuilder.cs:21 | the code as written quotes backslash + line feed with a doubled run, which decodes to two backslashes and not one |
| ExeQuoting.PlainItems | src/DataBooster.PSWebApi/CmdArgumentsBuilder.cs:20 | a string with no blank, quote or backslash is accepted by the no-quotes grammar |
| ExeQuoting.PlainReads | src/DataBooster.PSWebApi/CmdArgumentsBuilder.cs:20 | such a string, when not empty, reads as exactly itself |
| ExeQuoting.PlainPassesThrough | src/DataBooster.PSWebApi/CmdArgumentsBuilder.cs:179-180 | such a string is passed through unchanged when not forced, by the code as written and by the corrected quoter, and decodes to itself alone |
| BatQuoting.BatNeedsNoQuotes | src/DataBooster.PSWebApi/CmdArgumentsBuilder.cs:22 | the BAT no-quotes pattern, with one final line feed left to `$`; it has no contract of its own, and what it accepts is stated by `BatQuoting.ItemsSafe` and `BatQuoting.QuoteBatArgumentSafe` |
| BatQuoting.QuoteBatArgument | src/DataBooster.PSWebApi/CmdArgumentsBuilder.cs:193-202 | a null or blank argument gives `"` + argument + `"`; on the quoting path the result starts and ends with a quote; otherwise the argument is returned unchanged |
| BatQuoting.ItemsSafe | src/DataBooster.PSWebApi/CmdArgumentsBuilder.cs:22 | the BAT no-quotes grammar accepts exactly what a quote-toggling cmd.exe scanner finds safe: no blank and no unescaped special character outside quotes, and no open quote at the end |
| BatQuoting.GroupSafe | src/DataBooster.PSWebApi/CmdArgumentsBuilder.cs:22 | inside a quoted group, the grammar and the scanner agree in the same way |
| BatQuoting.DoubledBodySafe | src/DataBooster.PSWebApi/CmdArgumentsBuilder.cs:201 | a body with its quotes doubled, followed by a closing quote, is safe when read from inside quotes |
| BatQuoting.QuotedSafe | src/DataBooster.PSWebApi/CmdArgumentsBuilder.cs:201 | the quoted form of any string leaves nothing outside quotes for cmd.exe to act on |
| BatQuoting.QuoteBatArgumentSafe | src/DataBooster.PSWebApi/CmdArgumentsBuilder.cs:193-202 | every output is scanner-safe, or is a pass-through whose only unsafe part is a final line feed |
| BatQuoting.LineFeedPassesThrough | src/DataBooster.PSWebApi/CmdArgumentsBuilder.cs:198-199 | `a` + line feed is passed through unquoted, although the line feed is not safe for the scanner |
| BatQuoting.UndoubleDoubled | src/DataBooster.PSWebApi/CmdArgumentsBuilder.cs:201 | collapsing doubled quotes undoes the doubling |
| BatQuoting.BatRoundTrip | src/DataBooster.PSWebApi/CmdArgumentsBuilder.cs:193-202 | stripping the outer quotes of a force-quoted argument and collapsing doubled quotes gives the argument back |
| BatQuoting.QuotedBatLength | src/DataBooster.PSWebApi/CmdArgumentsBuilder.cs:193-202 | the force-quoted form is 2 + the input's length + its number of quotes long |
| BatQuoting.BatExamples | src/DataBooster.PSWebApi/CmdArgumentsBuilder.cs:198-201 | `1 & 2` is quoted, `a^&b` is passed through, `a^b` is quoted |
| ArgumentsBuilder.Add | src/DataBooster.PSWebApi/CmdArgumentsBuilder.cs:43-47 | one argument, possibly null, is appended at the end and nothing before it changes |
| ArgumentsBuilder.AddRange | src/DataBooster.PSWebApi/CmdArgumentsBuilder.cs:54-60 | a null collection adds nothing; otherwise its elements are appended in order after the unchanged arguments |
| ArgumentsBuilder.PairArgs | src/DataBooster.PSWebApi/CmdArgumentsBuilder.cs:77-83 | a pair whose trimmed key is not empty gives the trimmed key, then the value's text (null read as empty); a blank key gives only the value's text, and nothing when the value is null or JSON null |
| ArgumentsBuilder.IsNullValue | src/DataBooster.PSWebApi/CmdArgumentsBuilder.cs:129-138 | a null reference or a JSON null; it has no contract of its own, and its use is stated by `ArgumentsBuilder.PairArgs` and `ArgumentsBuilder.FlattenPairsLength` |
| ArgumentsBuilder.KeyOf | src/DataBooster.PSWebApi/CmdArgumentsBuilder.cs:77 | the key is empty exactly when it is null or blank, and otherwise it starts and ends with a non-blank character |
| ArgumentsBuilder.AddPairs | src/DataBooster.PSWebApi/CmdArgumentsBuilder.cs:68-87 | a null sequence adds nothing; otherwise the pairs' arguments are appended in order after the unchanged arguments |
| ArgumentsBuilder.AddEachPairAppends | src/DataBooster.PSWebApi/CmdArgumentsBuilder.cs:68-87 | adding pairs one after another appends their arguments in order and changes nothing before them |
| ArgumentsBuilder.FlattenPairsNotNull | src/DataBooster.PSWebApi/CmdArgumentsBuilder.cs:83 | key/value handling never adds a null argument |
| ArgumentsBuilder.FlattenPairsLength | src/DataBooster.PSWebApi/CmdArgumentsBuilder.cs:77-83 | pairs give two arguments per non-blank key plus one per blank key with a non-null value |
| ArgumentsBuilder.KeysTrimmed | src/DataBooster.PSWebApi/CmdArgumentsBuilder.cs:77 | an added key neither starts nor ends with white space |
| ArgumentsBuilder.AddBody | src/DataBooster.PSWebApi/CmdArgumentsBuilder.cs:94-121 | a null token adds nothing; it throws exactly for a token that is neither array, object nor value, as InvalidCastException with the token's type name; otherwise the earlier arguments are kept |
| ArgumentsBuilder.AddBodyAdds | src/DataBooster.PSWebApi/CmdArgumentsBuilder.cs:98-113 | an array appends each element's text, an object goes through key/value handling, a value appends its single text |
| ArgumentsBuilder.AddFromQueryString | src/DataBooster.PSWebApi/CmdArgumentsBuilder.cs:145-148 | the query pairs' arguments are appended after the unchanged arguments; a null request adds nothing |
| ArgumentsBuilder.Render | src/DataBooster.PSWebApi/CmdArgumentsBuilder.cs:155-162 | no arguments render as the empty string, and a single argument renders as its escaped form alone, with no separator |
| ArgumentsBuilder.ToString | src/DataBooster.PSWebApi/CmdArgumentsBuilder.cs:211-214 | no arguments give the empty string, and one argument gives itself, null read as empty |
| ArgumentsBuilder.RenderReads | src/DataBooster.PSWebApi/CmdArgumentsBuilder.cs:155-162 | for an escape that turns each raw argument into one token reading as g of it, the joined line decodes to g of each raw argument, in order |
| ArgumentsBuilder.ExeEscape | src/DataBooster.PSWebApi/CmdArgumentsBuilder.cs:174-185 | the code as written as an escape function: each raw argument becomes one token, and on the quoting path it reads back as `ReadBack` of the argument |
| ArgumentsBuilder.CorrectedExeEscape | src/DataBooster.PSWebApi/CmdArgumentsBuilder.cs:174-185 | the corrected quoter as an escape function: each raw argument becomes one token, and on the quoting path it reads back as the argument itself, null read as empty |
| ArgumentsBuilder.ReadBackExact | src/DataBooster.PSWebApi/CmdArgumentsBuilder.cs:21 | the arguments read back equal the raw ones, null read as empty, exactly when none ends in a backslash followed by a line feed |
| ArgumentsBuilder.RenderExeRoundTrip | src/DataBooster.PSWebApi/CmdArgumentsBuilder.cs:155-162 | rendered with the source's force-quoting EXE escape, the command line decodes to one argument per collected one, in order, each read back as `ReadBack`; that is exactly the collected arguments, null read as empty, when none ends in a backslash followed by a line feed, and only then |
| ArgumentsBuilder.RenderCorrectedRoundTrip | src/DataBooster.PSWebApi/CmdArgumentsBuilder.cs:155-162 | rendered with the corrected force-quoting escape, the command line decodes to exactly the collected arguments, null read as empty |
| ArgumentsBuilder.RenderExeCount | src/DataBooster.PSWebApi/CmdArgumentsBuilder.cs:155-162 | with the source's EXE escape, quoted or not, the command line decodes to as many arguments as were collected |
| ArgumentsBuilder.ToStringLength | src/DataBooster.PSWebApi/CmdArgumentsBuilder.cs:211-214 | `ToString()` is exactly as long as the arguments, null read as empty, plus one space between each two |
| ArgumentResolver.NewResolver | sample/PSWebApi.OwinSample/CmdArgumentResolver.cs:9-12 | the extension is empty for null; otherwise it has no lower-case ASCII letter and no white space at either end |
| ArgumentResolver.DialectOf | sample/PSWebApi.OwinSample/CmdArgumentResolver.cs:19-24 | the switch on the stored extension; it has no contract of its own, and which extensions reach each case is stated by `ExeIffExtension` and `BatIffExtension` |
| ArgumentResolver.EscapeBatArgument | sample/PSWebApi.OwinSample/CmdArgumentResolver.cs:27-31 | the BAT escaper stub, which returns its argument; it has no contract of its own, and `QuoteDialects` states what follows from it |
| ArgumentResolver.Quote | sample/PSWebApi.OwinSample/CmdArgumentResolver.cs:14-25 | a null or blank argument is quoted before any dialect is chosen; `.EXE` gives the builder's EXE quoter as written with the caller's forceQuote; any other extension gives the argument unchanged |
| ArgumentResolver.ExeIffExtension | sample/PSWebApi.OwinSample/CmdArgumentResolver.cs:19-21 | the EXE dialect is chosen exactly when the trimmed extension equals `.EXE` ignoring case |
| ArgumentResolver.BatIffExtension | sample/PSWebApi.OwinSample/CmdArgumentResolver.cs:19-22 | the BAT dialect is chosen exactly when the trimmed extension equals `.BAT` ignoring case |
| ArgumentResolver.ExtensionCaseInsensitive | sample/PSWebApi.OwinSample/CmdArgumentResolver.cs:11 | extensions that agree ignoring case and surrounding blanks give the same resolver |
| ArgumentResolver.QuoteDialects | sample/PSWebApi.OwinSample/CmdArgumentResolver.cs:19-31 | outside the EXE dialect forceQuote makes no difference, because the BAT escaper returns its argument; in the EXE dialect a forced quote decodes to one argument, the raw one with a backslash run before a final line feed doubled, and so to the raw one exactly when it does not end in a backslash and a line feed |
| ArgumentResolver.ExeDoublesTrailingBackslash | sample/PSWebApi.OwinSample/CmdArgumentResolver.cs:21 | for `.EXE`, a forced backslash + line feed decodes to two backslashes and a line feed |
| ArgumentResolver.DotRequired | sample/PSWebApi.OwinSample/CmdArgumentResolver.cs:23 | `exe` without the dot picks no dialect and leaves `a b` unquoted even when forced |
| ConsoleProcess.EscapeArgument | src/DataBooster.PSWebApi/ConsoleProcess.cs:80-89 | a null or blank argument is wrapped in quotes; every other argument is returned unchanged |
| ConsoleProcess.NonNulls | src/DataBooster.PSWebApi/ConsoleProcess.cs:77 | dropping nulls keeps every element of a sequence without nulls, in order |
| ConsoleProcess.JoinArguments | src/DataBooster.PSWebApi/ConsoleProcess.cs:72-78 | the result is null exactly when the sequence is null, and an empty sequence gives the empty line; the general join is stated by `ConsoleProcess.JoinArgumentsAppend` and `ConsoleProcess.JoinArgumentsLength` |
| ConsoleProcess.NonNullsKeepOrder | src/DataBooster.PSWebApi/ConsoleProcess.cs:77 | dropping nulls from a longer sequence drops the nulls of the prefix and then keeps or drops the last element |
| ConsoleProcess.JoinArgumentsAppend | src/DataBooster.PSWebApi/ConsoleProcess.cs:77 | appending a null argument leaves the line unchanged; appending any other adds its escaped form after one space, or alone when every earlier argument is null, so nulls are dropped and the rest are escaped and joined in order for every sequence |
| ConsoleProcess.JoinArgumentsLength | src/DataBooster.PSWebApi/ConsoleProcess.cs:77 | for at least one non-null argument, the line is as long as the escaped non-null arguments together plus one space between each two |
| ConsoleProcess.JoinArgumentsReads | src/DataBooster.PSWebApi/ConsoleProcess.cs:72-89 | when every element is blank or free of blanks, quotes and backslashes, the joined line decodes to the non-null elements in order |
| ConsoleProcess.InnerBlankSplits | src/DataBooster.PSWebApi/ConsoleProcess.cs:80-89 | `a b` is passed on unquoted and decodes to two arguments |
| CmdGather.PairTexts | src/DataBooster.PSWebApi/PSControllerExtensions-cmd.cs:70-76 | a pair throws NullReferenceException exactly when its value is null; otherwise a non-blank key is given untrimmed before the value's text, and a blank key gives only the value's text |
| CmdGather.TransformPairs | src/DataBooster.PSWebApi/PSControllerExtensions-cmd.cs:70-76 | the iterator's loop run to the end over a non-null sequence; it has no contract of its own, and its outcome is stated by `CmdGather.TransformPairsOutcome` |
| CmdGather.TransformDictionaryToCmdArguments | src/DataBooster.PSWebApi/PSControllerExtensions-cmd.cs:65-77 | a null sequence gives no arguments; enumeration throws NullReferenceException exactly when some value is null; otherwise one argument per pair plus one per non-blank key |
| CmdGather.TransformPairsOutcome | src/DataBooster.PSWebApi/PSControllerExtensions-cmd.cs:65-77 | flattening throws exactly when some value is null; otherwise it gives one argument per pair plus one per non-blank key |
| CmdGather.PairMatchesBuilder | src/DataBooster.PSWebApi/PSControllerExtensions-cmd.cs:70-76 | for a pair with a trimmed key and a non-null value, this flattening agrees with the builder's |
| CmdGather.TransformMatchesBuilder | src/DataBooster.PSWebApi/PSControllerExtensions-cmd.cs:65-77 | on such pairs the whole flattening agrees with the builder's key/value handling |
| CmdGather.GatherFromStrings | src/DataBooster.PSWebApi/PSControllerExtensions-cmd.cs:25-30 | the body's arguments come first and the query string's follow; a null body gives only the query string's; it fails exactly when the query string's flattening fails |
| CmdGather.GatherFromPairs | src/DataBooster.PSWebApi/PSControllerExtensions-cmd.cs:20-23 | the body's pairs are flattened and then gathered as strings; a failure there fails the whole |
| CmdGather.GatherFromBody | src/DataBooster.PSWebApi/PSControllerExtensions-cmd.cs:32-63 | a null token gives the query arguments only; an array gives its element texts, in order, before them; an object gives its properties through `TransformDictionaryToCmdArguments` before them; a value gives its one text before them; any other token throws InvalidCastException with its type name |
| CmdGather.ObjectBodyNeverFails | src/DataBooster.PSWebApi/PSControllerExtensions-cmd.cs:44-47 | a JSON object body fails only when the query string does; it gives one argument per property plus one per non-blank name, then the query arguments |
| CmdGather.InvokeCmdStub | src/DataBooster.PSWebApi/PSControllerExtensions.Cmd.cs:38-41 | the stub always returns null |
| CmdBuild.RenderQuoted | src/DataBooster.PSWebApi/PSControllerExtensions.cmd.cs:21 | `ToString(forceArgumentQuote)` with the code as written: the line decodes to as many arguments as were collected, and force-quoted, to `ReadBack` of each |
| CmdBuild.BuildFromStrings | src/DataBooster.PSWebApi/PSControllerExtensions.cmd.cs:18-22 | the line is the rendering of the body's strings followed by the query string's arguments |
| CmdBuild.BuildFromPairs | src/DataBooster.PSWebApi/PSControllerExtensions.cmd.cs:24-28 | the line is the rendering of the body's pair arguments followed by the query string's |
| CmdBuild.BuildFromBody | src/DataBooster.PSWebApi/PSControllerExtensions.cmd.cs:30-34 | building from a token throws exactly when the token is neither array, object nor value |
| CmdBuild.CollectedAppends | src/DataBooster.PSWebApi/CmdArgumentsBuilder.cs:145-148 | adding the query string appends its flattened pairs after the arguments already there, none for a null request |
| CmdBuild.BuildFromStringsOrder | src/DataBooster.PSWebApi/PSControllerExtensions.cmd.cs:18-22 | force-quoted, the command line decodes to the body's strings and then the query string's arguments, each as `ReadBack` gives it; that is those arguments unchanged exactly when none ends in a backslash and a line feed |
| CmdBuild.BuildFromPairsOrder | src/DataBooster.PSWebApi/PSControllerExtensions.cmd.cs:24-28 | force-quoted, the command line decodes to the body's flattened pairs and then the query string's, each as `ReadBack` gives it; unchanged exactly when none ends in a backslash and a line feed |
| CmdBuild.BuildFromBodyOrder | src/DataBooster.PSWebApi/PSControllerExtensions.cmd.cs:30-34 | force-quoted, the command line decodes to the body token's arguments and then the query string's, each as `ReadBack` gives it; unchanged exactly when none ends in a backslash and a line feed |
| CmdBuild.BuildFromStringsCount | src/DataBooster.PSWebApi/PSControllerExtensions.cmd.cs:18-22 | quoted or not, the command line decodes to as many arguments as the body and the query string gave |
| CmdBuild.CmdResponse | src/DataBooster.PSWebApi/PSControllerExtensions.cmd.cs:47-56 | 200 exactly for exit code 0, empty stderr and non-empty stdout; 204 exactly for exit code 0 and both empty; 500 exactly otherwise; the body is stderr on 500 and stdout otherwise; the Exit-Code header parses back to the exit code |
| PSExtensions.GatherInputParameters | src/DataBooster.PSWebApi/PSControllerExtensions.cs:33-38 | the body's pairs come first and the query string's after them; a null body gives only the query string's |
| PSExtensions.BindPair | src/DataBooster.PSWebApi/PSControllerExtensions.cs:159-166 | a blank key with a null value binds nothing; a blank key with a non-null value binds a positional argument; any other key binds a named parameter, even with a null value |
| PSExtensions.Bind | src/DataBooster.PSWebApi/PSControllerExtensions.cs:158-167 | the loop body applied to each pair in order; it has no contract of its own, and it is stated by `BindAppend` and `BindLength` |
| PSExtensions.AddParameters | src/DataBooster.PSWebApi/PSControllerExtensions.cs:153-168 | the loop appends each pair's binding in order after the command's existing elements; a null sequence adds nothing |
| PSExtensions.BindAppend | src/DataBooster.PSWebApi/PSControllerExtensions.cs:158-167 | binding a concatenation binds each part in turn |
| PSExtensions.BindGathered | src/DataBooster.PSWebApi/PSControllerExtensions.cs:33-38 | binding the gathered parameters binds the body's first and then the query string's |
| PSExtensions.BindLength | src/DataBooster.PSWebApi/PSControllerExtensions.cs:159-166 | every pair binds exactly one element except the skipped ones |
| PSExtensions.GetPsResult | src/DataBooster.PSWebApi/PSControllerExtensions.cs:67-90 | a null result gives the empty string; otherwise the loop builds exactly the results joined by CR LF, with no line break before the first or after the last |
| PSExtensions.PsResultLength | src/DataBooster.PSWebApi/PSControllerExtensions.cs:75-89 | n results give their lengths plus exactly n - 1 two-character line breaks |
| PSExtensions.EscapeNewLine | src/DataBooster.PSWebApi/PSControllerExtensions.cs:148-151 | null and empty strings stay as they are; the result is null exactly when the input is |
| PSExtensions.ReplacedHasNoNewLine | src/DataBooster.PSWebApi/PSControllerExtensions.cs:150 | after replacing CR LF by `%0d%0a`, no CR LF is left |
| PSExtensions.NoNewLineUnchanged | src/DataBooster.PSWebApi/PSControllerExtensions.cs:150 | text without CR LF is left as it is |
| PSExtensions.EscapeNewLineClears | src/DataBooster.PSWebApi/PSControllerExtensions.cs:148-151 | an escaped value holds no line break, and a value is unchanged exactly when it held none |
| PSExtensions.SetContentHeader | src/DataBooster.PSWebApi/PSControllerExtensions.cs:121-146 | null streams add nothing; it throws exactly when there are errors, rethrowing a single one and aggregating several under their messages joined by line breaks; with no headers object nothing is added; otherwise only Ps-Warning, Ps-Verbose and Ps-Debug headers, each with values |
| PSExtensions.HeadersFollowStreams | src/DataBooster.PSWebApi/PSControllerExtensions.cs:138-145 | each of the three headers, carrying its records with line breaks escaped, is added exactly when its stream has records |
| PSExtensions.GetUserName | src/DataBooster.PSWebApi/PSControllerExtensions.cs:170-179 | a null controller throws ArgumentNullException for `apiController`; a missing user or identity gives null; otherwise the identity's name, itself possibly null |
| PSExtensions.GetUserNameOfAction | src/DataBooster.PSWebApi/PSControllerExtensions.cs:181-189 | a null action context or controller context throws NullReferenceException; a controller that is null or not an ApiController throws ArgumentNullException for `actionContext.ControllerContext.Controller`; otherwise it agrees with the first overload |
| ConverterRegistry.ParseHeader | src/DataBooster.PSWebApi/PSConverterRegistry.cs:69 | `new MediaTypeHeaderValue(s)` throws ArgumentException for `mediaType` exactly when s is null or empty, and otherwise keeps s as the media type |
| ConverterRegistry.ParseHeaders | src/DataBooster.PSWebApi/PSConverterRegistry.cs:69 | the strings are parsed in order: it throws exactly when some string is null or empty, and otherwise gives one header per string, each holding that string |
| ConverterRegistry.NewRegistry | src/DataBooster.PSWebApi/PSConverterRegistry.cs:52-66 | a null or empty media-type sequence throws ArgumentNullException; otherwise the media types are kept in order, the extension is trimmed (empty for null), the cmdlet is kept (empty for null), and the cmdlet parameters are not stored |
| ConverterRegistry.NewRegistryOfStrings | src/DataBooster.PSWebApi/PSConverterRegistry.cs:68-71 | a null sequence fails in `Select`; an empty one throws as above; a null or empty media type throws ArgumentException; otherwise one header per string, in order |
| ConverterRegistry.NewRegistryOfHeader | src/DataBooster.PSWebApi/PSConverterRegistry.cs:73-78 | it throws exactly for a null header, naming `mediaType`; otherwise the registry has that one media type |
| ConverterRegistry.NewRegistryOfString | src/DataBooster.PSWebApi/PSConverterRegistry.cs:80-83 | it throws exactly for a null or empty media type; otherwise the registry has that one media type |
| ConverterRegistry.OverloadsAgree | src/DataBooster.PSWebApi/PSConverterRegistry.cs:68-83 | for a non-empty media type the single-string overload builds what the sequence and header overloads build |
| ConverterRegistry.ConstructorsWellFormed | src/DataBooster.PSWebApi/PSConverterRegistry.cs:52-83 | whatever the overload, a constructed registry has at least one media type, an extension with no white space at either end, and no cmdlet parameters |
| PSConfiguration.ConverterConstructed | src/DataBooster.PSWebApi/PSConfiguration.cs:79-116 | the string constructor accepts each standard converter's constants and builds exactly that converter |
| PSConfiguration.Configure | src/DataBooster.PSWebApi/PSConfiguration.cs:74-117 | the null converter is always present and last; each optional accessor is set exactly when its flag is on; which converters are listed is stated by `PSConfiguration.ConvertersFollowFlags` |
| PSConfiguration.ConvertersInFixedOrder | src/DataBooster.PSWebApi/PSConfiguration.cs:79-113 | whatever is switched off, the converters are the default list with some left out and the order kept |
| PSConfiguration.ConvertersDistinct | src/DataBooster.PSWebApi/PSConfiguration.cs:81-116 | the seven standard converters are pairwise different |
| PSConfiguration.InConfigured | src/DataBooster.PSWebApi/PSConfiguration.cs:79-117 | a converter is listed exactly when it is an optional one whose flag is on, or the null converter |
| PSConfiguration.ConvertersFollowFlags | src/DataBooster.PSWebApi/PSConfiguration.cs:79-117 | for every flag combination, each optional converter is listed exactly when its flag is on, and the null converter always is; with `ConvertersInFixedOrder` this fixes the list |
| PSConfiguration.Supports | src/DataBooster.PSWebApi/PSConfiguration.cs:127 | a converter supports a media type when one of its media types equals it ignoring case; it has no contract of its own, and `FirstSupporting` states the lookup over it |
| PSConfiguration.FirstSupporting | src/DataBooster.PSWebApi/PSConfiguration.cs:127 | the result is null exactly when no converter lists the media type ignoring case; otherwise it is the first one that does |
| PSConfiguration.Lookup | src/DataBooster.PSWebApi/PSConfiguration.cs:120-128 | null or empty finds nothing; otherwise nothing is found exactly when no converter supports the media type, and a converter found is the first in the list that does |
| PSConfiguration.LookupHeader | src/DataBooster.PSWebApi/PSConfiguration.cs:135-138 | a null header finds nothing; any other is looked up by its media type |
| PSConfiguration.NullAlwaysFound | src/DataBooster.PSWebApi/PSConfiguration.cs:115-116 | whatever is switched on, `application/null` in any case finds the null converter |
| PSConfiguration.DefaultLookupJson | src/DataBooster.PSWebApi/PSConfiguration.cs:124-128 | by default `Application/JSON` finds the JSON converter |
| PSConfiguration.DefaultLookupText | src/DataBooster.PSWebApi/PSConfiguration.cs:124-128 | by default `text/plain` passes over four converters and finds the text converter |
| PSConfiguration.DefaultLookupUnknown | src/DataBooster.PSWebApi/PSConfiguration.cs:124-128 | by default an unlisted media type and the empty one find nothing |
| PSConfiguration.Extensions | src/DataBooster.PSWebApi/PSConfiguration.cs:146 | the extensions kept are all non-empty, and there are none exactly when every converter's extension is empty |
| PSConfiguration.ExtensionsAppend | src/DataBooster.PSWebApi/PSConfiguration.cs:146 | the extensions of a concatenation of converter lists are those of each list in turn |
| PSConfiguration.ExtensionsOfOne | src/DataBooster.PSWebApi/PSConfiguration.cs:146 | one converter contributes its extension when it is set and nothing otherwise; with `ExtensionsAppend`, the kept extensions are the set ones in list order |
| PSConfiguration.UriPathExtConstraint | src/DataBooster.PSWebApi/PSConfiguration.cs:144-147 | the constraint is empty exactly when no converter has an extension |
| PSConfiguration.DefaultConstraint | src/DataBooster.PSWebApi/PSConfiguration.cs:144-147 | by default the constraint is the seven extensions json, xml, csv, html, string, str and null, in that order, joined by `\|` |
| Argv.JoinedTokensDecode | src/DataBooster.PSWebApi/CmdArgumentsBuilder.cs:160-161 | fragments that each read as one argument, joined by single spaces, decode to those arguments in order |

## Left out

- `CmdProcess.cs` and `ConsoleProcess.Execute`/`Read*` are left out. Process spawning, asynchronous stream draining, timeouts and killing are OS plumbing. `InvokeCmd` is modelled only by its status rule, over a given exit code, stderr and stdout.
- The PowerShell invocation is left out. It is a call into an engine, and it covers the runspace pool, `PowerShell.Invoke`, cancellation and `GetOneResult`'s `PSObject`/`XmlDocument` handling. `GetPsResult` takes the results already turned into strings.
- The request is taken as its query-string pairs. `GetQueryNameValuePairs` belongs to the framework. A null request counts as no pairs in `AddFromQueryString`. The `GatherCmdArguments` variants are given the pairs directly.
- Lazy enumerables are modelled as whole results. `TransformDictionaryToCmdArguments` is an iterator, so its NullReferenceException would surface only when the arguments are read. The model reports it as the outcome of the whole sequence.
- `JTokens.Show` writes containers as compact JSON text. `JToken.ToString()` indents it and escapes the strings inside. Which text an element gives does not affect any property proved here.
- `IsWhite` is the set of characters `char.IsWhiteSpace` accepts. Case mapping covers ASCII letters only, so `ToUpperInvariant` and `OrdinalIgnoreCase` are not modelled beyond ASCII.
- `Argv.Decode` does not model the runtime's rule that `""` inside a quoted region gives a literal quote. Separators are space and tab. No quoter output puts two quotes inside a quoted region, so the round-trip properties do not depend on that rule.
- `new MediaTypeHeaderValue(string)` is modelled only as refusing a null or empty media type. Its format check, which throws FormatException, is left out.
- `PSConfiguration.Supports` skips a null media type, where the source's `Lookup` throws NullReferenceException on reaching one (`PSConfiguration.cs:127`). Such a registry can be built (`PSConverterRegistry.cs:52-66`) and added through the public `SupportedConverters` collection. `Configure` never adds one, and over registries without a null media type the model's lookup is exact.
- The content-negotiation types, formatter registration, `ScriptPath`, configuration loading, the controllers and authorisation are left out. They are framework glue around the core.
- `ArgumentsBuilder.Render`: its contract states only the empty and single-argument cases. The join with single spaces is stated through `RenderExeRoundTrip`, `RenderExeCount` and `ToStringLength`, because a contract naming the join would only repeat the body.
- `ArgumentsBuilder.Escape` is a total function to a non-null string. The source's `Func<string, string>` may return null, which `string.Join` renders as the empty string. That case is left out because the escapes the code passes never return null.
- `BatQuoting.QuoteBatArgumentSafe`: it states safety for cmd.exe's quote toggling and special characters only. Percent expansion and other cmd.exe rules are not modelled.

## Findings

| source | as written | input that shows it | evidently intended | confidence | as-written member | corrected member |
|---|---|---|---|---|---|---|
| src/DataBooster.PSWebApi/CmdArgumentsBuilder.cs:21 | the rewrite `(\\+)(?="\|$)` also doubles a backslash run just before a final line feed, since .NET `$` matches there | `\` followed by a line feed, force-quoted: the output is `"\\` + line feed + `"`, which decodes to two backslashes and a line feed | double only runs before a quote or at the very end (`\z`), so that the quoted argument decodes to itself | high; not executed | ExeQuoting.AsWrittenLosesTrailingBackslash | ExeQuoting.ExeRoundTrip |

=== FILE: argument_resolver.dfy ===
/**
 The sample host's CmdArgumentResolver: the script's file extension, trimmed
 and upper-cased once, picks how each argument is quoted. ".EXE" uses the EXE
 dialect; ".BAT" goes through a BAT escaper that is still an identity stub;
 any other extension leaves the argument as it is. A blank argument is
 enclosed in quotes before any of that. The EXE dialect is the builder's
 quoter as the source has it.
 */
module ArgumentResolver {
  import opened DotNet
  import Argv
  import ExeQuoting

  datatype Resolver = Resolver(fileExtension: string)

  /** The constructor: null becomes empty, anything else is trimmed and upper-cased. */
  function NewResolver(fileExtension: Nullable<string>): (r: Resolver)
    ensures fileExtension.Null? ==> r.fileExtension == ""
    ensures forall i :: 0 <= i < |r.fileExtension| ==> !('a' <= r.fileExtension[i] <= 'z')
    ensures r.fileExtension == [] || (!IsWhite(r.fileExtension[0]) && !IsWhite(r.fileExtension[|r.fileExtension| - 1]))
  {
    match fileExtension
    case Null => Resolver("")
    case NonNull(e) =>
      var t := Trim(e);
      TrimBounds(e);
      var u := ToUpperInvariant(t);
      if t == [] then Resolver(u)
      else
        UpperKeepsNonWhite(t[0]);
        UpperKeepsNonWhite(t[|t| - 1]);
        Resolver(u)
  }

  /** Upper-casing a character that is not white space gives one that is not either. */
  lemma UpperKeepsNonWhite(c: char)
    requires !IsWhite(c)
    ensures !IsWhite(ToUpperChar(c))
  {
  }

  datatype Dialect = Exe | Bat | Verbatim

  function DialectOf(r: Resolver): Dialect {
    if r.fileExtension == ".EXE" then Exe
    else if r.fileExtension == ".BAT" then Bat
    else Verbatim
  }

  /** The BAT escaper, not written yet: it returns its argument. */
  function EscapeBatArgument(rawArg: string): string {
    rawArg
  }

  function Quote(r: Resolver, rawArg: Nullable<string>, forceQuote: bool): (q: string)
    ensures IsNullOrWhiteSpace(rawArg) ==> q == ExeQuoting.Enclose(rawArg.OrElse(""))
    ensures DialectOf(r) == Exe ==> q == ExeQuoting.QuoteExeArgumentAsWritten(rawArg, forceQuote)
    ensures DialectOf(r) != Exe && !IsNullOrWhiteSpace(rawArg) ==> q == rawArg.value
  {
    if IsNullOrWhiteSpace(rawArg) then ExeQuoting.Enclose(rawArg.OrElse(""))
    else
      match DialectOf(r)
      case Exe => ExeQuoting.QuoteExeArgumentAsWritten(rawArg, forceQuote)
      case Bat => EscapeBatArgument(rawArg.value)
      case Verbatim => rawArg.value
  }

  lemma UpperLiteral(t: string, u: string)
    requires forall i :: 0 <= i < |u| ==> ToUpperChar(u[i]) == u[i]
    ensures ToUpperInvariant(t) == u <==> EqualsIgnoreCase(t, u)
  {
    if EqualsIgnoreCase(t, u) {
      assert forall i :: 0 <= i < |t| ==> ToUpperInvariant(t)[i] == u[i];
    }
  }

  /** `.EXE` and `.BAT` are already upper case. */
  lemma LiteralsUpper()
    ensures forall i :: 0 <= i < |".EXE"| ==> ToUpperChar(".EXE"[i]) == ".EXE"[i]
    ensures forall i :: 0 <= i < |".BAT"| ==> ToUpperChar(".BAT"[i]) == ".BAT"[i]
  {
    assert ".EXE" == ['.', 'E', 'X', 'E'];
    assert ".BAT" == ['.', 'B', 'A', 'T'];
  }

  /** The EXE dialect is chosen exactly for ".exe" in any letter case, with white space around it. */
  lemma ExeIffExtension(fileExtension: string)
    ensures DialectOf(NewResolver(NonNull(fileExtension))) == Exe <==> EqualsIgnoreCase(Trim(fileExtension), ".EXE")
  {
    var t := Trim(fileExtension);
    assert NewResolver(NonNull(fileExtension)).fileExtension == ToUpperInvariant(t);
    LiteralsUpper();
    UpperLiteral(t, ".EXE");
  }

  /** The BAT stub is chosen exactly for ".bat" in any letter case, with white space around it. */
  lemma BatIffExtension(fileExtension: string)
    ensures DialectOf(NewResolver(NonNull(fileExtension))) == Bat <==> EqualsIgnoreCase(Trim(fileExtension), ".BAT")
  {
    var t := Trim(fileExtension);
    assert NewResolver(NonNull(fileExtension)).fileExtension == ToUpperInvariant(t);
    LiteralsUpper();
    UpperLiteral(t, ".BAT");
    UpperLiteral(t, ".EXE");
    if EqualsIgnoreCase(t, ".BAT") {
      assert !EqualsIgnoreCase(t, ".EXE") by {
        assert ToUpperChar(t[1]) == 'B';
      }
    }
  }

  /** Extensions that differ only in letter case and surrounding white space give the same resolver. */
  lemma ExtensionCaseInsensitive(e1: string, e2: string)
    requires EqualsIgnoreCase(Trim(e1), Trim(e2))
    ensures NewResolver(NonNull(e1)) == NewResolver(NonNull(e2))
  {
    var u1, u2 := ToUpperInvariant(Trim(e1)), ToUpperInvariant(Trim(e2));
    assert forall i :: 0 <= i < |u1| ==> u1[i] == u2[i];
  }

  /**
   Only the EXE dialect looks at `forceQuote`. Force-quoted, it yields one
   argument that reads back as the raw one, except that a backslash run before
   a final line feed comes back doubled; so it reads back unchanged exactly
   when the argument does not end in a backslash and a line feed.
   */
  lemma QuoteDialects(r: Resolver, rawArg: Nullable<string>)
    ensures DialectOf(r) != Exe ==> Quote(r, rawArg, true) == Quote(r, rawArg, false)
    ensures DialectOf(r) == Exe ==> Argv.Decode(Quote(r, rawArg, true)) == [ExeQuoting.AsWrittenReading(rawArg.OrElse(""))]
    ensures DialectOf(r) == Exe ==>
      (Argv.Decode(Quote(r, rawArg, true)) == [rawArg.OrElse("")] <==> !ExeQuoting.EndsInBackslashLineFeed(rawArg.OrElse("")))
  {
    ExeQuoting.ExeReadBackAsWritten(rawArg);
    ExeQuoting.AsWrittenReadingExact(rawArg.OrElse(""));
  }

  /** For ".EXE", a backslash before a final line feed reads back twice. */
  lemma ExeDoublesTrailingBackslash()
    ensures Argv.Decode(Quote(Resolver(".EXE"), NonNull("\\\n"), true)) == ["\\\\\n"]
  {
    assert !IsWhite("\\\n"[0]);
    ExeQuoting.AsWrittenLosesTrailingBackslash();
  }

  /** An extension without its leading dot selects no dialect. */
  lemma DotRequired()
    ensures DialectOf(NewResolver(NonNull("exe"))) == Verbatim
    ensures Quote(NewResolver(NonNull("exe")), NonNull("a b"), true) == "a b"
  {
    assert Trim("exe") == "exe" by {
      assert !IsWhite("exe"[0]) && !IsWhite("exe"[2]);
    }
    assert |ToUpperInvariant("exe")| == 3;
    assert !IsWhite("a b"[0]);
  }
}

=== FILE: arguments_builder.dfy ===
/**
 CmdArgumentsBuilder: an ordered list of raw arguments (each may be null),
 filled from strings, key/value pairs and a JSON request body, and rendered
 as one command line by escaping each argument and joining them with spaces.
 */
module ArgumentsBuilder {
  import opened DotNet
  import opened JTokens
  import Argv
  import ExeQuoting

  datatype Builder = Builder(rawArguments: seq<Nullable<string>>)

  const Empty: Builder := Builder([])

  /** `Add(string)`: one argument at the end. */
  function Add(b: Builder, arg: Nullable<string>): (r: Builder)
    ensures |r.rawArguments| == |b.rawArguments| + 1
    ensures r.rawArguments[..|b.rawArguments|] == b.rawArguments
    ensures r.rawArguments[|b.rawArguments|] == arg
  {
    Builder(b.rawArguments + [arg])
  }

  /** `Add(IEnumerable<string>)`: a null collection adds nothing. */
  function AddRange(b: Builder, args: Nullable<seq<Nullable<string>>>): (r: Builder)
    ensures args.Null? ==> r == b
    ensures args.NonNull? ==> |r.rawArguments| == |b.rawArguments| + |args.value|
    ensures r.rawArguments[..|b.rawArguments|] == b.rawArguments
    ensures args.NonNull? ==> r.rawArguments[|b.rawArguments|..] == args.value
  {
    match args
    case Null => b
    case NonNull(a) => Builder(b.rawArguments + a)
  }

  // ---------------------------------------------------------------------------
  // Key/value pairs.

  /** `IsNullValue`: a null reference or a JSON null. */
  predicate IsNullValue(v: Value) {
    v.NullObject? || (v.Token? && v.t.JNull?)
  }

  /** The key as the builder uses it: trimmed, null read as empty. */
  function KeyOf(p: Pair): (r: string)
    ensures r == [] <==> p.key.Null? || AllWhite(p.key.value)
    ensures r == [] || (!IsWhite(r[0]) && !IsWhite(r[|r| - 1]))
  {
    if p.key.Null? then "" else TrimEmptyIffBlank(p.key.value); TrimBounds(p.key.value); Trim(p.key.value)
  }

  /** The value as the builder adds it: its text, null read as empty. */
  function ValueOrEmpty(v: Value): string {
    if v.NullObject? then "" else ValueText(v)
  }

  /** The arguments one pair contributes. */
  function PairArgs(p: Pair): (r: seq<Nullable<string>>)
    ensures KeyOf(p) != [] ==> r == [NonNull(KeyOf(p)), NonNull(ValueOrEmpty(p.value))]
    ensures KeyOf(p) == [] && IsNullValue(p.value) ==> r == []
    ensures KeyOf(p) == [] && !IsNullValue(p.value) ==> r == [NonNull(ValueText(p.value))]
  {
    var key := KeyOf(p);
    (if |key| > 0 then [NonNull(key)] else [])
    + (if |key| > 0 || !IsNullValue(p.value) then [NonNull(ValueOrEmpty(p.value))] else [])
  }

  /** The arguments of a pair sequence, all in order. */
  function FlattenPairs(ps: seq<Pair>): seq<Nullable<string>>
    decreases |ps|
  {
    if ps == [] then [] else PairArgs(ps[0]) + FlattenPairs(ps[1..])
  }

  /** `Add<T>(IEnumerable<KeyValuePair<string, T>>)`, pair by pair as the loop does it. */
  function AddEachPair(b: Builder, ps: seq<Pair>): Builder
    decreases |ps|
  {
    if ps == [] then b else AddEachPair(Builder(b.rawArguments + PairArgs(ps[0])), ps[1..])
  }

  function AddPairs(b: Builder, parameters: Nullable<seq<Pair>>): (r: Builder)
    ensures parameters.Null? ==> r == b
    ensures parameters.NonNull? ==> r.rawArguments == b.rawArguments + FlattenPairs(parameters.value)
  {
    match parameters
    case Null => b
    case NonNull(ps) =>
      AddEachPairAppends(b, ps);
      AddEachPair(b, ps)
  }

  /** Adding pair by pair appends the flattening of all pairs, and changes nothing before. */
  lemma {:induction false} AddEachPairAppends(b: Builder, ps: seq<Pair>)
    ensures AddEachPair(b, ps).rawArguments == b.rawArguments + FlattenPairs(ps)
    decreases |ps|
  {
    if ps == [] {
      assert b.rawArguments + [] == b.rawArguments;
    } else {
      var x, head, rest := b.rawArguments, PairArgs(ps[0]), FlattenPairs(ps[1..]);
      AddEachPairStep(b, ps);
      AddEachPairAppends(Builder(x + head), ps[1..]);
      SeqAssociative(x, head, rest);
    }
  }

  lemma AddEachPairStep(b: Builder, ps: seq<Pair>)
    requires ps != []
    ensures AddEachPair(b, ps) == AddEachPair(Builder(b.rawArguments + PairArgs(ps[0])), ps[1..])
    ensures FlattenPairs(ps) == PairArgs(ps[0]) + FlattenPairs(ps[1..])
  {
  }

  /** Kept generic: stated at the argument type, this step makes the solver search far longer. */
  lemma SeqAssociative<T>(a: seq<T>, b: seq<T>, c: seq<T>)
    ensures (a + b) + c == a + (b + c)
  {
  }

  /** Pairs never contribute a null argument. */
  lemma {:induction false} FlattenPairsNotNull(ps: seq<Pair>)
    ensures forall i :: 0 <= i < |FlattenPairs(ps)| ==> FlattenPairs(ps)[i].NonNull?
    decreases |ps|
  {
    if ps != [] {
      FlattenPairsNotNull(ps[1..]);
      PairArgsNotNull(ps[0]);
      var head: seq<Nullable<string>>, rest: seq<Nullable<string>> := PairArgs(ps[0]), FlattenPairs(ps[1..]);
      assert FlattenPairs(ps) == head + rest;
      forall i | 0 <= i < |head + rest| ensures (head + rest)[i].NonNull? {
        if i < |head| {
          assert (head + rest)[i] == head[i];
        } else {
          assert (head + rest)[i] == rest[i - |head|];
        }
      }
    }
  }

  lemma PairArgsNotNull(p: Pair)
    ensures forall j :: 0 <= j < |PairArgs(p)| ==> PairArgs(p)[j].NonNull?
  {
  }

  /** The number of pairs whose key is not blank, and of those blank-keyed ones whose value is not null. */
  function NamedCount(ps: seq<Pair>): nat
    decreases |ps|
  {
    if ps == [] then 0 else (if KeyOf(ps[0]) != [] then 1 else 0) + NamedCount(ps[1..])
  }

  function PositionalCount(ps: seq<Pair>): nat
    decreases |ps|
  {
    if ps == [] then 0
    else (if KeyOf(ps[0]) == [] && !IsNullValue(ps[0].value) then 1 else 0) + PositionalCount(ps[1..])
  }

  /** A named pair gives two arguments, a positional one gives one, a blank key with a null value none. */
  lemma {:induction false} FlattenPairsLength(ps: seq<Pair>)
    ensures |FlattenPairs(ps)| == 2 * NamedCount(ps) + PositionalCount(ps)
    decreases |ps|
  {
    if ps != [] {
      FlattenPairsLength(ps[1..]);
    }
  }

  /** Every key the builder emits is trimmed: not empty, no white space at either end. */
  lemma KeysTrimmed(p: Pair)
    requires KeyOf(p) != []
    ensures !IsWhite(PairArgs(p)[0].value[0])
    ensures !IsWhite(PairArgs(p)[0].value[|KeyOf(p)| - 1])
  {
    TrimBounds(p.key.value);
  }

  // ---------------------------------------------------------------------------
  // The JSON request body.

  function Texts(items: seq<JToken>): (r: seq<Nullable<string>>)
    ensures |r| == |items|
    ensures forall i :: 0 <= i < |items| ==> r[i] == NonNull(Show(items[i]))
  {
    seq(|items|, i requires 0 <= i < |items| => NonNull(Show(items[i])))
  }

  /** The properties of a JSON object as key/value pairs. */
  function PropertyPairs(properties: seq<JProperty>): (r: seq<Pair>)
    ensures |r| == |properties|
    ensures forall i :: 0 <= i < |properties| ==> r[i] == Pair(NonNull(properties[i].name), Token(properties[i].value))
  {
    seq(|properties|, i requires 0 <= i < |properties| => Pair(NonNull(properties[i].name), Token(properties[i].value)))
  }

  /** `Add(JToken)`: an array adds its element texts, an object its pairs, a value its text. */
  function AddBody(b: Builder, argsFromBody: Nullable<JToken>): (r: Result<Builder>)
    ensures argsFromBody.Null? ==> r == Ok(b)
    ensures r.Throws? <==> argsFromBody.NonNull? && argsFromBody.value.JOther?
    ensures r.Throws? ==> r.error == InvalidCast(argsFromBody.value.typeName)
    ensures r.Ok? ==> |r.value.rawArguments| >= |b.rawArguments|
    ensures r.Ok? ==> r.value.rawArguments[..|b.rawArguments|] == b.rawArguments
  {
    match argsFromBody
    case Null => Ok(b)
    case NonNull(t) =>
      match t
      case JArray(items) => Ok(AddRange(b, NonNull(Texts(items))))
      case JObject(properties) =>
        Ok(AddPairs(b, NonNull(PropertyPairs(properties))))
      case JOther(typeName) => Throws(InvalidCast(typeName))
      case _ => Ok(Add(b, NonNull(Show(t))))
  }

  /** What the body adds, case by case. */
  lemma AddBodyAdds(b: Builder, t: JToken)
    ensures t.JArray? ==> AddBody(b, NonNull(t)) == Ok(Builder(b.rawArguments + Texts(t.items)))
    ensures t.JObject? ==> AddBody(b, NonNull(t)) == Ok(Builder(b.rawArguments + FlattenPairs(PropertyPairs(t.properties))))
    ensures IsValue(t) ==> AddBody(b, NonNull(t)) == Ok(Builder(b.rawArguments + [NonNull(Show(t))]))
  {
    if t.JObject? {
      AddEachPairAppends(b, PropertyPairs(t.properties));
    }
  }

  /** `AddFromQueryString`: the request's query pairs, none for a null request. */
  function AddFromQueryString(b: Builder, queryPairs: Nullable<seq<Pair>>): (r: Builder)
    ensures r.rawArguments == b.rawArguments + FlattenPairs(queryPairs.OrElse([]))
  {
    assert b.rawArguments + [] == b.rawArguments;
    AddPairs(b, queryPairs)
  }

  // ---------------------------------------------------------------------------
  // Rendering.

  type Escape = Nullable<string> -> string

  /** The escape used when none is given: null becomes the empty string. */
  function Identity(arg: Nullable<string>): string {
    arg.OrElse("")
  }

  function Escaped(f: Escape, args: seq<Nullable<string>>): (r: seq<string>)
    ensures |r| == |args|
    ensures forall i :: 0 <= i < |args| ==> r[i] == f(args[i])
  {
    seq(|args|, i requires 0 <= i < |args| => f(args[i]))
  }

  lemma EscapedAppend(f: Escape, a: seq<Nullable<string>>, b: seq<Nullable<string>>)
    ensures Escaped(f, a + b) == Escaped(f, a) + Escaped(f, b)
  {
  }

  /** `ToString(Func<string, string>)` */
  function Render(b: Builder, escapeArgument: Nullable<Escape>): (r: string)
    ensures b.rawArguments == [] ==> r == ""
    ensures |b.rawArguments| == 1 ==> r == escapeArgument.OrElse(Identity)(b.rawArguments[0])
  {
    var f := escapeArgument.OrElse(Identity);
    if |b.rawArguments| == 0 then "" else Join(" ", Escaped(f, b.rawArguments))
  }

  /** `ToString()`: each argument as it is, null as empty. */
  function ToString(b: Builder): (r: string)
    ensures b.rawArguments == [] ==> r == ""
    ensures |b.rawArguments| == 1 ==> r == b.rawArguments[0].OrElse("")
  {
    Render(b, Null)
  }

  // ---------------------------------------------------------------------------
  // Reading a rendered command line back.

  /** Escapes that read back as `g` of each raw argument, one argument each. */
  ghost predicate ReadsAs(f: Escape, g: Escape) {
    forall a :: Argv.SingleToken(f(a)) && Argv.ReadToken(f(a)) == g(a)
  }

  lemma {:induction false} ReadAllEscaped(f: Escape, g: Escape, args: seq<Nullable<string>>)
    requires ReadsAs(f, g)
    ensures Argv.ReadAll(Escaped(f, args)) == Escaped(g, args)
    decreases |args|
  {
    if args != [] {
      assert Escaped(f, args)[1..] == Escaped(f, args[1..]);
      assert Escaped(g, args) == [g(args[0])] + Escaped(g, args[1..]);
      ReadAllEscaped(f, g, args[1..]);
    }
  }

  /** Rendering with such an escape gives a command line that splits back into `g` of each raw argument. */
  lemma RenderReads(b: Builder, f: Escape, g: Escape)
    requires ReadsAs(f, g)
    ensures Argv.Decode(Render(b, NonNull(f))) == Escaped(g, b.rawArguments)
  {
    var tokens := Escaped(f, b.rawArguments);
    assert forall i :: 0 <= i < |tokens| ==> Argv.SingleToken(tokens[i]);
    Argv.JoinedTokensDecode(tokens);
    ReadAllEscaped(f, g, b.rawArguments);
    if b.rawArguments == [] {
      assert Render(b, NonNull(f)) == Join(" ", tokens);
    }
  }

  /** The EXE quoter as the source has it, as an escape function: one argument per raw argument. */
  function ExeEscape(forceQuote: bool): (r: Escape)
    ensures forall a :: Argv.SingleToken(r(a))
    ensures forall a :: ExeQuoting.QuotesApplied(a, forceQuote) ==> Argv.ReadToken(r(a)) == ReadBack(a)
  {
    ExeEscapeReads(forceQuote);
    (arg: Nullable<string>) => ExeQuoting.QuoteExeArgumentAsWritten(arg, forceQuote)
  }

  lemma ExeEscapeReads(forceQuote: bool)
    ensures forall a :: Argv.SingleToken(ExeQuoting.QuoteExeArgumentAsWritten(a, forceQuote))
    ensures forall a :: ExeQuoting.QuotesApplied(a, forceQuote) ==> Argv.ReadToken(ExeQuoting.QuoteExeArgumentAsWritten(a, forceQuote)) == ReadBack(a)
  {
    forall a {
      ExeQuoting.QuoteExeArgumentAsWrittenReads(a, forceQuote);
    }
  }

  /** The EXE quoter with the corrected backslash rewrite, as an escape function. */
  function CorrectedExeEscape(forceQuote: bool): (r: Escape)
    ensures forall a :: Argv.SingleToken(r(a))
    ensures forall a :: ExeQuoting.QuotesApplied(a, forceQuote) ==> Argv.ReadToken(r(a)) == Identity(a)
  {
    CorrectedExeEscapeReads(forceQuote);
    (arg: Nullable<string>) => ExeQuoting.QuoteExeArgumentCorrected(arg, forceQuote)
  }

  lemma CorrectedExeEscapeReads(forceQuote: bool)
    ensures forall a :: Argv.SingleToken(ExeQuoting.QuoteExeArgumentCorrected(a, forceQuote))
    ensures forall a :: ExeQuoting.QuotesApplied(a, forceQuote) ==> Argv.ReadToken(ExeQuoting.QuoteExeArgumentCorrected(a, forceQuote)) == Identity(a)
  {
    forall a {
      ExeQuoting.QuoteExeArgumentReads(a, forceQuote);
    }
  }

  /** What the C runtime reads back from the source's force-quoted raw argument, null read as empty. */
  function ReadBack(arg: Nullable<string>): string {
    ExeQuoting.AsWrittenReading(arg.OrElse(""))
  }

  /** No raw argument ends in a backslash and a line feed. */
  predicate NoTrailingBackslashLineFeed(args: seq<Nullable<string>>) {
    forall i :: 0 <= i < |args| ==> !ExeQuoting.EndsInBackslashLineFeed(args[i].OrElse(""))
  }

  /** The reading back is the raw arguments exactly when none ends in a backslash and a line feed. */
  lemma ReadBackExact(args: seq<Nullable<string>>)
    ensures Escaped(ReadBack, args) == Escaped(Identity, args) <==> NoTrailingBackslashLineFeed(args)
  {
    forall i | 0 <= i < |args|
      ensures ReadBack(args[i]) == Identity(args[i]) <==> !ExeQuoting.EndsInBackslashLineFeed(args[i].OrElse(""))
    {
      ExeQuoting.AsWrittenReadingExact(args[i].OrElse(""));
    }
    if !NoTrailingBackslashLineFeed(args) {
      var i :| 0 <= i < |args| && ExeQuoting.EndsInBackslashLineFeed(args[i].OrElse(""));
      assert Escaped(ReadBack, args)[i] != Escaped(Identity, args)[i];
    }
  }

  /**
   Rendering with the source's force-quoting EXE escape gives a command line
   that the C runtime splits into one argument per raw argument, each read
   back as `ReadBack`; that is exactly the raw arguments, null read as empty,
   when no argument ends in a backslash and a line feed.
   */
  lemma RenderExeRoundTrip(b: Builder)
    ensures Argv.Decode(Render(b, NonNull(ExeEscape(true)))) == Escaped(ReadBack, b.rawArguments)
    ensures Argv.Decode(Render(b, NonNull(ExeEscape(true)))) == Escaped(Identity, b.rawArguments)
        <==> NoTrailingBackslashLineFeed(b.rawArguments)
  {
    assert ReadsAs(ExeEscape(true), ReadBack);
    RenderReads(b, ExeEscape(true), ReadBack);
    ReadBackExact(b.rawArguments);
  }

  /** With the corrected escape, the command line splits back into exactly the raw arguments. */
  lemma RenderCorrectedRoundTrip(b: Builder)
    ensures Argv.Decode(Render(b, NonNull(CorrectedExeEscape(true)))) == Escaped(Identity, b.rawArguments)
  {
    forall a ensures Argv.SingleToken(CorrectedExeEscape(true)(a)) && Argv.ReadToken(CorrectedExeEscape(true)(a)) == Identity(a) {
      ExeQuoting.QuoteExeArgumentReads(a, true);
    }
    RenderReads(b, CorrectedExeEscape(true), Identity);
  }

  /** Without forcing, the source's EXE escape still keeps every raw argument one argument. */
  lemma RenderExeCount(b: Builder, forceQuote: bool)
    ensures |Argv.Decode(Render(b, NonNull(ExeEscape(forceQuote))))| == |b.rawArguments|
  {
    var f := ExeEscape(forceQuote);
    var g := (a: Nullable<string>) => Argv.ReadToken(f(a));
    assert ReadsAs(f, g);
    RenderReads(b, f, g);
  }

  /** Without an escape, n arguments give n - 1 separating spaces and nothing else. */
  lemma ToStringLength(b: Builder)
    requires b.rawArguments != []
    ensures |ToString(b)| == TotalLength(Escaped(Identity, b.rawArguments)) + |b.rawArguments| - 1
  {
    JoinLength(" ", Escaped(Identity, b.rawArguments));
  }
}

=== FILE: argv.dfy ===
/**
 How a program built with the Microsoft C/C++ runtime splits its command line
 into argv, as the runtime's documentation ("Parsing C++ command-line
 arguments") states the rules:
 - 2n backslashes followed by a double quote give n backslashes, and the quote
   starts or ends a quoted region;
 - 2n+1 backslashes followed by a double quote give n backslashes and a literal
   double quote;
 - any other backslash is literal;
 - a space or tab outside a quoted region separates arguments.
 The command line is read left to right by a `Reader`; backslashes are counted
 in `pending` until the character after them decides what they mean.
 */
module Argv {
  import opened DotNet

  function Backslashes(n: nat): (r: string)
    ensures |r| == n
    ensures forall i :: 0 <= i < n ==> r[i] == '\\'
  {
    if n == 0 then [] else Backslashes(n - 1) + ['\\']
  }

  predicate IsSeparator(c: char) {
    c == ' ' || c == '\t'
  }

  /**
   The parser state: the arguments completed so far, the argument being read,
   whether one is being read at all, whether a quoted region is open, and the
   number of backslashes read but not yet emitted.
   */
  datatype Reader = Reader(args: seq<string>, cur: string, inArg: bool, inQuote: bool, pending: nat)

  /** Between arguments, after `args`. */
  function Fresh(args: seq<string>): Reader {
    Reader(args, [], false, false, 0)
  }

  const Start: Reader := Fresh([])

  /** The argument being read, were it to end here. */
  function Current(r: Reader): string {
    r.cur + Backslashes(r.pending)
  }

  function Step(r: Reader, c: char): Reader {
    if c == '\\' then
      r.(inArg := true, pending := r.pending + 1)
    else if c == '"' then
      var cur := r.cur + Backslashes(r.pending / 2);
      if r.pending % 2 == 1 then r.(cur := cur + ['"'], inArg := true, pending := 0)
      else r.(cur := cur, inArg := true, inQuote := !r.inQuote, pending := 0)
    else if IsSeparator(c) && !r.inQuote then
      if r.inArg then Fresh(r.args + [Current(r)]) else r
    else
      r.(cur := Current(r) + [c], inArg := true, pending := 0)
  }

  function Run(r: Reader, s: string): Reader
    decreases |s|
  {
    if s == [] then r else Run(Step(r, s[0]), s[1..])
  }

  function Finish(r: Reader): seq<string> {
    if r.inArg then r.args + [Current(r)] else r.args
  }

  /** The argv a command line gives. */
  function Decode(commandLine: string): seq<string> {
    Finish(Run(Start, commandLine))
  }

  lemma {:induction false} RunAppend(r: Reader, a: string, b: string)
    ensures Run(r, a + b) == Run(Run(r, a), b)
    decreases |a|
  {
    if a == [] {
      assert a + b == b;
    } else {
      assert (a + b)[0] == a[0];
      assert (a + b)[1..] == a[1..] + b;
      RunAppend(Step(r, a[0]), a[1..], b);
    }
  }

  lemma RunOne(r: Reader, c: char)
    ensures Run(r, [c]) == Step(r, c)
  {
    assert [c][1..] == [];
  }

  /** The same reader with `prefix` completed before everything it holds. */
  function Shift(prefix: seq<string>, r: Reader): Reader {
    r.(args := prefix + r.args)
  }

  /** What has been completed before does not influence the reading of the rest. */
  lemma {:induction false} RunShift(prefix: seq<string>, r: Reader, s: string)
    ensures Run(Shift(prefix, r), s) == Shift(prefix, Run(r, s))
    decreases |s|
  {
    if s != [] {
      assert Step(Shift(prefix, r), s[0]) == Shift(prefix, Step(r, s[0]));
      RunShift(prefix, Step(r, s[0]), s[1..]);
    }
  }

  lemma {:induction false} RunBackslashes(r: Reader, n: nat)
    ensures Run(r, Backslashes(n)) == r.(inArg := r.inArg || n > 0, pending := r.pending + n)
    decreases n
  {
    if n > 0 {
      RunAppend(r, Backslashes(n - 1), ['\\']);
      RunBackslashes(r, n - 1);
      RunOne(Run(r, Backslashes(n - 1)), '\\');
    }
  }

  lemma {:induction false} BackslashesAdd(m: nat, n: nat)
    ensures Backslashes(m) + Backslashes(n) == Backslashes(m + n)
    decreases n
  {
    if n > 0 {
      BackslashesAdd(m, n - 1);
    }
  }

  /** Characters that are neither backslash nor quote, and do not separate, are copied. */
  lemma {:induction false} RunLiteral(r: Reader, s: string)
    requires r.pending == 0
    requires forall i :: 0 <= i < |s| ==> s[i] != '\\' && s[i] != '"' && (r.inQuote || !IsSeparator(s[i]))
    ensures Run(r, s) == r.(cur := r.cur + s, inArg := r.inArg || s != [])
    decreases |s|
  {
    if s == [] {
      assert r.cur + s == r.cur;
    } else {
      var r' := Step(r, s[0]);
      assert r' == r.(cur := r.cur + [s[0]], inArg := true);
      RunLiteral(r', s[1..]);
      assert r.cur + [s[0]] + s[1..] == r.cur + s;
    }
  }

  /** A command-line fragment that reads as exactly one argument, ending outside any quoted region. */
  predicate SingleToken(token: string) {
    var r := Run(Start, token);
    r.args == [] && r.inArg && !r.inQuote
  }

  /** The argument such a fragment reads as. */
  function ReadToken(token: string): string {
    Current(Run(Start, token))
  }

  function ReadAll(tokens: seq<string>): (r: seq<string>)
    ensures |r| == |tokens|
    decreases |tokens|
  {
    if tokens == [] then [] else [ReadToken(tokens[0])] + ReadAll(tokens[1..])
  }

  lemma SingleTokenDecodes(token: string)
    requires SingleToken(token)
    ensures Decode(token) == [ReadToken(token)]
  {
  }

  lemma {:induction false} JoinedTokensFrom(prefix: seq<string>, tokens: seq<string>)
    requires forall i :: 0 <= i < |tokens| ==> SingleToken(tokens[i])
    ensures Finish(Run(Fresh(prefix), Join(" ", tokens))) == prefix + ReadAll(tokens)
    decreases |tokens|
  {
    if tokens == [] {
      assert prefix + [] == prefix;
    } else {
      var t := tokens[0];
      assert SingleToken(t);
      assert Fresh(prefix) == Shift(prefix, Start);
      RunShift(prefix, Start, t);
      var after := Run(Fresh(prefix), t);
      assert after.args == prefix && after.inArg && !after.inQuote;
      if |tokens| == 1 {
        assert ReadAll(tokens) == [ReadToken(t)];
      } else {
        var rest := Join(" ", tokens[1..]);
        assert Join(" ", tokens) == t + " " + rest;
        RunAppend(Fresh(prefix), t + " ", rest);
        RunAppend(Fresh(prefix), t, " ");
        RunOne(after, ' ');
        assert Run(Fresh(prefix), t + " ") == Fresh(prefix + [ReadToken(t)]);
        JoinedTokensFrom(prefix + [ReadToken(t)], tokens[1..]);
        assert prefix + [ReadToken(t)] + ReadAll(tokens[1..]) == prefix + ReadAll(tokens);
      }
    }
  }

  /** Fragments that each read as one argument, joined by single spaces, read as those arguments in order. */
  lemma JoinedTokensDecode(tokens: seq<string>)
    requires forall i :: 0 <= i < |tokens| ==> SingleToken(tokens[i])
    ensures Decode(Join(" ", tokens)) == ReadAll(tokens)
  {
    JoinedTokensFrom([], tokens);
    assert [] + ReadAll(tokens) == ReadAll(tokens);
  }
}

=== FILE: bat_quoting.dfy ===
/**
 The BAT quoting dialect of CmdArgumentsBuilder, for arguments that cmd.exe
 reads: an argument is passed through when it holds no blank and no cmd.exe
 special character outside quotes (a special one may be escaped by a caret),
 and is otherwise enclosed in double quotes with each inner quote doubled.
 */
module BatQuoting {
  import opened DotNet

  /** The characters cmd.exe gives a meaning of its own: & | < > ( ) ^ */
  predicate IsSpecial(c: char) {
    c == '&' || c == '|' || c == '<' || c == '>' || c == '(' || c == ')' || c == '^'
  }

  // ---------------------------------------------------------------------------
  // The "no quotes needed" recogniser, the pattern
  //   ^([^"\s&|<>()^]|\^[&|<>()^]|("[^"]*"))+$

  /** Zero or more items cover `s`: an ordinary character, a caret-escaped special one, or a quoted group. */
  predicate BatItems(s: string)
    decreases |s|
  {
    || s == []
    || (s[0] != '"' && !IsWhite(s[0]) && !IsSpecial(s[0]) && BatItems(s[1..]))
    || (s[0] == '^' && |s| >= 2 && IsSpecial(s[1]) && BatItems(s[2..]))
    || (s[0] == '"' && BatGroup(s[1..]))
  }

  /** `s` continues a quoted group after its opening quote: anything but a quote, the closing quote, more items. */
  predicate BatGroup(s: string)
    decreases |s|
  {
    && s != []
    && (|| (s[0] == '"' && BatItems(s[1..]))
        || (s[0] != '"' && BatGroup(s[1..])))
  }

  /** The pattern matches `s`; as in .NET, `$` also matches just before a final line feed. */
  predicate BatNeedsNoQuotes(s: string) {
    || (s != [] && BatItems(s))
    || (|s| >= 2 && s[|s| - 1] == '\n' && BatItems(s[..|s| - 1]))
  }

  /** Each quote becomes two. */
  function DoubleQuotes(s: string): string {
    Replace(s, "\"", "\"\"")
  }

  function Enclose(s: string): string {
    "\"" + s + "\""
  }

  /** Whether the quoter takes its quoting path rather than passing the argument through. */
  predicate QuotesApplied(rawArg: Nullable<string>, forceQuote: bool) {
    IsNullOrWhiteSpace(rawArg) || forceQuote || !BatNeedsNoQuotes(rawArg.value)
  }

  function QuoteBatArgument(rawArg: Nullable<string>, forceQuote: bool): (r: string)
    ensures IsNullOrWhiteSpace(rawArg) ==> r == Enclose(rawArg.OrElse(""))
    ensures QuotesApplied(rawArg, forceQuote) ==> |r| >= 2 && r[0] == '"' && r[|r| - 1] == '"'
    ensures !QuotesApplied(rawArg, forceQuote) ==> r == rawArg.value
  {
    if IsNullOrWhiteSpace(rawArg) then Enclose(rawArg.OrElse(""))
    else if !forceQuote && BatNeedsNoQuotes(rawArg.value) then rawArg.value
    else Enclose(DoubleQuotes(rawArg.value))
  }

  // ---------------------------------------------------------------------------
  // What cmd.exe sees: a scanner that toggles on every quote.

  /**
   Read left to right from a position inside (`quoted`) or outside quotes,
   `s` ends outside quotes and has no blank and no unescaped special character
   outside them.
   */
  predicate CmdSafe(s: string, quoted: bool)
    decreases |s|
  {
    if s == [] then !quoted
    else if s[0] == '"' then CmdSafe(s[1..], !quoted)
    else if quoted then CmdSafe(s[1..], true)
    else if s[0] == '^' then |s| >= 2 && IsSpecial(s[1]) && CmdSafe(s[2..], false)
    else !IsWhite(s[0]) && !IsSpecial(s[0]) && CmdSafe(s[1..], false)
  }

  /** The recogniser accepts exactly what the scanner finds safe. */
  lemma {:induction false} ItemsSafe(s: string)
    ensures BatItems(s) <==> CmdSafe(s, false)
    decreases |s|, 1
  {
    if s != [] {
      if s[0] == '"' {
        GroupSafe(s[1..]);
      } else if s[0] == '^' {
        if |s| >= 2 {
          ItemsSafe(s[2..]);
        }
      } else {
        ItemsSafe(s[1..]);
      }
    }
  }

  /** Inside a quoted group the same holds from the scanner's quoted state. */
  lemma {:induction false} GroupSafe(s: string)
    ensures BatGroup(s) <==> CmdSafe(s, true)
    decreases |s|, 0
  {
    if s != [] {
      if s[0] == '"' {
        ItemsSafe(s[1..]);
      } else {
        GroupSafe(s[1..]);
      }
    }
  }

  lemma {:induction false} DoubledBodySafe(s: string)
    ensures CmdSafe(DoubleQuotes(s) + "\"", true)
    decreases |s|
  {
    if s == [] {
      assert DoubleQuotes(s) + "\"" == "\"";
    } else {
      assert s[..1] == "\"" <==> s[0] == '"' by { assert s[..1][0] == s[0]; }
      DoubledBodySafe(s[1..]);
      var rest := DoubleQuotes(s[1..]) + "\"";
      if s[0] == '"' {
        var t := "\"\"" + rest;
        assert DoubleQuotes(s) + "\"" == t;
        assert t[1..][1..] == rest;
      } else {
        var t := [s[0]] + rest;
        assert DoubleQuotes(s) + "\"" == t;
        assert t[1..] == rest;
      }
    }
  }

  /** The quoted form of any string leaves nothing outside quotes for cmd.exe to act on. */
  lemma QuotedSafe(s: string)
    ensures CmdSafe(Enclose(DoubleQuotes(s)), false)
  {
    DoubledBodySafe(s);
    assert Enclose(DoubleQuotes(s))[1..] == DoubleQuotes(s) + "\"";
  }

  /**
   The BAT quoter's output is safe for cmd.exe, except when the argument is
   passed through with a final line feed that the recogniser let stand.
   */
  lemma QuoteBatArgumentSafe(rawArg: Nullable<string>, forceQuote: bool)
    ensures var r := QuoteBatArgument(rawArg, forceQuote);
      || CmdSafe(r, false)
      || (!QuotesApplied(rawArg, forceQuote) && r[|r| - 1] == '\n' && CmdSafe(r[..|r| - 1], false))
  {
    var s := rawArg.OrElse("");
    if IsNullOrWhiteSpace(rawArg) {
      ReplaceCharAbsent(s, '"', "\"\"");
      QuotedSafe(s);
    } else if !forceQuote && BatNeedsNoQuotes(s) {
      ItemsSafe(s);
      if !(s != [] && BatItems(s)) {
        ItemsSafe(s[..|s| - 1]);
      }
    } else {
      QuotedSafe(s);
    }
  }

  /** A trailing line feed is passed through unquoted. */
  lemma LineFeedPassesThrough()
    ensures QuoteBatArgument(NonNull("a\n"), false) == "a\n"
    ensures !CmdSafe("a\n", false)
  {
    assert !IsWhite('a');
    assert "a\n"[..1] == "a";
    assert BatItems("a") by { assert "a"[1..] == []; }
    assert "a\n"[1..] == "\n";
    assert !CmdSafe("\n", false);
  }

  // ---------------------------------------------------------------------------
  // Reading the quoted form back, and its length.

  /** Collapses each pair of quotes to one, the reading a batch script gives a doubled quote. */
  function Undouble(s: string): string
    decreases |s|
  {
    if s == [] then []
    else if |s| >= 2 && s[0] == '"' && s[1] == '"' then ['"'] + Undouble(s[2..])
    else [s[0]] + Undouble(s[1..])
  }

  lemma {:induction false} UndoubleDoubled(s: string)
    ensures Undouble(DoubleQuotes(s)) == s
    decreases |s|
  {
    if s != [] {
      assert s[..1] == "\"" <==> s[0] == '"' by { assert s[..1][0] == s[0]; }
      UndoubleDoubled(s[1..]);
      var rest := DoubleQuotes(s[1..]);
      if s[0] == '"' {
        assert DoubleQuotes(s) == "\"\"" + rest;
        assert ("\"\"" + rest)[2..] == rest;
      } else {
        assert DoubleQuotes(s) == [s[0]] + rest;
        assert ([s[0]] + rest)[1..] == rest;
        if |rest| > 0 {
          assert ([s[0]] + rest)[0] != '"';
        }
      }
    }
  }

  /** The body between the enclosing quotes with doubled quotes collapsed. */
  function Unquote(r: string): string
    requires |r| >= 2
  {
    Undouble(r[1..|r| - 1])
  }

  /** Round trip: a force-quoted argument unquotes to exactly that argument. */
  lemma BatRoundTrip(s: string)
    ensures Unquote(QuoteBatArgument(NonNull(s), true)) == s
  {
    if AllWhite(s) {
      ReplaceCharAbsent(s, '"', "\"\"");
    }
    var r := Enclose(DoubleQuotes(s));
    assert r[1..|r| - 1] == DoubleQuotes(s);
    UndoubleDoubled(s);
  }

  /** On the quoting path backslashes are untouched and each quote costs one more character. */
  lemma QuotedBatLength(s: string)
    ensures |QuoteBatArgument(NonNull(s), true)| == |s| + 2 + CountChar(s, '"')
  {
    ReplaceCharLength(s, '"', "\"\"");
    if AllWhite(s) {
      ReplaceCharAbsent(s, '"', "\"\"");
    }
  }

  // ---------------------------------------------------------------------------
  // Worked examples.

  lemma BatExampleAmpersand()
    ensures QuoteBatArgument(NonNull("1 & 2"), false) == "\"1 & 2\""
  {
    var s := "1 & 2";
    assert !IsWhite(s[0]);
    ItemsSafe(s);
    assert !CmdSafe(s, false) by { assert s[1..] == " & 2"; }
    assert s[|s| - 1] != '\n';
    ReplaceCharAbsent(s, '"', "\"\"");
  }

  lemma BatExampleEscaped()
    ensures QuoteBatArgument(NonNull("a^&b"), false) == "a^&b"
  {
    var s := "a^&b";
    ItemsSafe(s);
    assert CmdSafe(s, false) by {
      assert s[1..] == "^&b";
      assert s[1..][2..] == "b";
      assert "b"[1..] == [];
    }
  }

  lemma BatExampleLoneCaret()
    ensures QuoteBatArgument(NonNull("a^b"), false) == "\"a^b\""
  {
    var s := "a^b";
    assert !IsWhite(s[0]);
    ItemsSafe(s);
    assert !CmdSafe(s, false) by { assert s[1..] == "^b"; }
    assert s[|s| - 1] != '\n';
    ReplaceCharAbsent(s, '"', "\"\"");
  }

  lemma BatExamples()
    ensures QuoteBatArgument(NonNull("1 & 2"), false) == "\"1 & 2\""
    ensures QuoteBatArgument(NonNull("a^&b"), false) == "a^&b"
    ensures QuoteBatArgument(NonNull("a^b"), false) == "\"a^b\""
  {
    BatExampleAmpersand();
    BatExampleEscaped();
    BatExampleLoneCaret();
  }
}

=== FILE: cmd_build.dfy ===
/**
 The command-line path of PSControllerExtensions.cmd.cs: the request body's
 arguments, then the query string's, collected by a CmdArgumentsBuilder and
 rendered with the EXE quoter; and the HTTP response made of the script's
 exit code and output streams.
 */
module CmdBuild {
  import opened DotNet
  import opened JTokens
  import Argv
  import ArgumentsBuilder

  /**
   `ToString(bool)` of the builder: rendering with the source's EXE quoter and
   the caller's `forceQuote`. The line reads as one argument per raw argument,
   each read back as `ReadBack` when quotes are forced.
   */
  function RenderQuoted(b: ArgumentsBuilder.Builder, forceArgumentQuote: bool): (r: string)
    ensures |Argv.Decode(r)| == |b.rawArguments|
    ensures forceArgumentQuote ==> Argv.Decode(r) == ArgumentsBuilder.Escaped(ArgumentsBuilder.ReadBack, b.rawArguments)
  {
    ArgumentsBuilder.RenderExeCount(b, forceArgumentQuote);
    ArgumentsBuilder.RenderExeRoundTrip(b);
    ArgumentsBuilder.Render(b, NonNull(ArgumentsBuilder.ExeEscape(forceArgumentQuote)))
  }

  /** The builder after the body's arguments and the query string's. */
  function Collected(b: ArgumentsBuilder.Builder, queryPairs: Nullable<seq<Pair>>): ArgumentsBuilder.Builder {
    ArgumentsBuilder.AddFromQueryString(b, queryPairs)
  }

  /** The query-string arguments, as the builder adds them. */
  function QueryArgs(queryPairs: Nullable<seq<Pair>>): seq<Nullable<string>> {
    ArgumentsBuilder.FlattenPairs(queryPairs.OrElse([]))
  }

  /**
   `BuildCmdArguments(IEnumerable<string>)`, the request taken as its query
   pairs (none when it is null): the body's strings, then the query string's
   arguments, rendered as one line.
   */
  function BuildFromStrings(queryPairs: Nullable<seq<Pair>>, argsFromBody: Nullable<seq<Nullable<string>>>, forceArgumentQuote: bool): (r: string)
    ensures r == RenderQuoted(ArgumentsBuilder.Builder(argsFromBody.OrElse([]) + QueryArgs(queryPairs)), forceArgumentQuote)
  {
    var b := ArgumentsBuilder.AddRange(ArgumentsBuilder.Empty, argsFromBody);
    assert b.rawArguments == argsFromBody.OrElse([]);
    RenderQuoted(Collected(b, queryPairs), forceArgumentQuote)
  }

  /** `BuildCmdArguments(IEnumerable<KeyValuePair<string, object>>)`: the body's pairs, then the query string's. */
  function BuildFromPairs(queryPairs: Nullable<seq<Pair>>, argsFromBody: Nullable<seq<Pair>>, forceArgumentQuote: bool): (r: string)
    ensures r == RenderQuoted(ArgumentsBuilder.Builder(QueryArgs(argsFromBody) + QueryArgs(queryPairs)), forceArgumentQuote)
  {
    var b := ArgumentsBuilder.AddPairs(ArgumentsBuilder.Empty, argsFromBody);
    assert b.rawArguments == QueryArgs(argsFromBody);
    RenderQuoted(Collected(b, queryPairs), forceArgumentQuote)
  }

  /** `BuildCmdArguments(JToken)`: fails as adding the body fails. */
  function BuildFromBody(queryPairs: Nullable<seq<Pair>>, argsFromBody: Nullable<JToken>, forceArgumentQuote: bool): (r: Result<string>)
    ensures r.Throws? <==> argsFromBody.NonNull? && argsFromBody.value.JOther?
  {
    match ArgumentsBuilder.AddBody(ArgumentsBuilder.Empty, argsFromBody)
    case Throws(e) => Throws(e)
    case Ok(b) => Ok(RenderQuoted(Collected(b, queryPairs), forceArgumentQuote))
  }

  lemma CollectedAppends(b: ArgumentsBuilder.Builder, queryPairs: Nullable<seq<Pair>>)
    ensures Collected(b, queryPairs).rawArguments == b.rawArguments + QueryArgs(queryPairs)
  {
  }

  /**
   Force-quoted, the command line reads back as the body's arguments followed
   by the query string's, each as `ReadBack` gives it; that is the arguments
   themselves, nulls read as empty, exactly when none ends in a backslash and a
   line feed.
   */
  lemma BuildFromStringsOrder(queryPairs: Nullable<seq<Pair>>, argsFromBody: Nullable<seq<Nullable<string>>>)
    ensures Argv.Decode(BuildFromStrings(queryPairs, argsFromBody, true))
         == ArgumentsBuilder.Escaped(ArgumentsBuilder.ReadBack, argsFromBody.OrElse([]) + QueryArgs(queryPairs))
    ensures Argv.Decode(BuildFromStrings(queryPairs, argsFromBody, true))
         == ArgumentsBuilder.Escaped(ArgumentsBuilder.Identity, argsFromBody.OrElse([]) + QueryArgs(queryPairs))
        <==> ArgumentsBuilder.NoTrailingBackslashLineFeed(argsFromBody.OrElse([]) + QueryArgs(queryPairs))
  {
    ArgumentsBuilder.ReadBackExact(argsFromBody.OrElse([]) + QueryArgs(queryPairs));
  }

  lemma BuildFromPairsOrder(queryPairs: Nullable<seq<Pair>>, argsFromBody: Nullable<seq<Pair>>)
    ensures Argv.Decode(BuildFromPairs(queryPairs, argsFromBody, true))
         == ArgumentsBuilder.Escaped(ArgumentsBuilder.ReadBack, QueryArgs(argsFromBody) + QueryArgs(queryPairs))
    ensures Argv.Decode(BuildFromPairs(queryPairs, argsFromBody, true))
         == ArgumentsBuilder.Escaped(ArgumentsBuilder.Identity, QueryArgs(argsFromBody) + QueryArgs(queryPairs))
        <==> ArgumentsBuilder.NoTrailingBackslashLineFeed(QueryArgs(argsFromBody) + QueryArgs(queryPairs))
  {
    ArgumentsBuilder.ReadBackExact(QueryArgs(argsFromBody) + QueryArgs(queryPairs));
  }

  lemma BuildFromBodyOrder(queryPairs: Nullable<seq<Pair>>, argsFromBody: Nullable<JToken>)
    requires ArgumentsBuilder.AddBody(ArgumentsBuilder.Empty, argsFromBody).Ok?
    ensures BuildFromBody(queryPairs, argsFromBody, true).Ok?
    ensures Argv.Decode(BuildFromBody(queryPairs, argsFromBody, true).value)
         == ArgumentsBuilder.Escaped(ArgumentsBuilder.ReadBack,
              ArgumentsBuilder.AddBody(ArgumentsBuilder.Empty, argsFromBody).value.rawArguments + QueryArgs(queryPairs))
    ensures Argv.Decode(BuildFromBody(queryPairs, argsFromBody, true).value)
         == ArgumentsBuilder.Escaped(ArgumentsBuilder.Identity,
              ArgumentsBuilder.AddBody(ArgumentsBuilder.Empty, argsFromBody).value.rawArguments + QueryArgs(queryPairs))
        <==> ArgumentsBuilder.NoTrailingBackslashLineFeed(
              ArgumentsBuilder.AddBody(ArgumentsBuilder.Empty, argsFromBody).value.rawArguments + QueryArgs(queryPairs))
  {
    var b := ArgumentsBuilder.AddBody(ArgumentsBuilder.Empty, argsFromBody).value;
    CollectedAppends(b, queryPairs);
    ArgumentsBuilder.ReadBackExact(b.rawArguments + QueryArgs(queryPairs));
  }

  /** Quoted or not, each collected argument reads as exactly one argument. */
  lemma BuildFromStringsCount(queryPairs: Nullable<seq<Pair>>, argsFromBody: Nullable<seq<Nullable<string>>>, forceArgumentQuote: bool)
    ensures |Argv.Decode(BuildFromStrings(queryPairs, argsFromBody, forceArgumentQuote))|
         == |argsFromBody.OrElse([])| + |QueryArgs(queryPairs)|
  {
  }

  // ---------------------------------------------------------------------------
  // The response of InvokeCmd.

  const OK: int := 200
  const NoContent: int := 204
  const InternalServerError: int := 500

  datatype Response = Response(status: int, content: string, exitCodeHeader: string)

  /**
   The response for a finished script: its standard output on success (no
   content when that is empty), its standard error otherwise, and the exit
   code in an `Exit-Code` header. Standard output is only read on success;
   here it is passed in either way.
   */
  function CmdResponse(exitCode: int, standardError: string, standardOutput: string): (r: Response)
    ensures r.status == OK <==> exitCode == 0 && standardError == [] && standardOutput != []
    ensures r.status == NoContent <==> exitCode == 0 && standardError == [] && standardOutput == []
    ensures r.status == InternalServerError <==> exitCode != 0 || standardError != []
    ensures r.status == InternalServerError ==> r.content == standardError
    ensures r.status != InternalServerError ==> r.content == standardOutput
    ensures ParseInt(r.exitCodeHeader) == NonNull(exitCode)
  {
    IntTextRoundTrip(exitCode);
    if exitCode == 0 && standardError == [] then
      Response(if standardOutput == [] then NoContent else OK, standardOutput, IntText(exitCode))
    else
      Response(InternalServerError, standardError, IntText(exitCode))
  }
}

=== FILE: cmd_gather.dfy ===
/**
 The older command-line gathering of PSControllerExtensions (the files
 PSControllerExtensions-cmd.cs and PSControllerExtensions.Cmd.cs, which repeat
 the same definitions): the request body's arguments followed by the query
 string's, where each key/value pair gives its key, untrimmed, when the key is
 not blank, and always its value's text.
 */
module CmdGather {
  import opened DotNet
  import opened JTokens
  import ArgumentsBuilder

  /** The arguments one pair gives, or the exception reading its null value raises. */
  function PairTexts(p: Pair): (r: Result<seq<string>>)
    ensures r.Throws? <==> p.value.NullObject?
    ensures r.Throws? ==> r.error == NullReference
    ensures r.Ok? && IsNullOrWhiteSpace(p.key) ==> r.value == [ValueText(p.value)]
    ensures r.Ok? && !IsNullOrWhiteSpace(p.key) ==> r.value == [p.key.value, ValueText(p.value)]
  {
    if p.value.NullObject? then Throws(NullReference)
    else Ok((if !IsNullOrWhiteSpace(p.key) then [p.key.value] else []) + [ValueText(p.value)])
  }

  /** Enumerating `TransformDictionaryToCmdArguments` to the end, over a non-null sequence. */
  function TransformPairs(ps: seq<Pair>): Result<seq<string>>
    decreases |ps|
  {
    if ps == [] then Ok([])
    else
      match PairTexts(ps[0])
      case Throws(e) => Throws(e)
      case Ok(head) =>
        match TransformPairs(ps[1..])
        case Throws(e) => Throws(e)
        case Ok(rest) => Ok(head + rest)
  }

  /** `TransformDictionaryToCmdArguments`: a null sequence gives no arguments. */
  function TransformDictionaryToCmdArguments(parameters: Nullable<seq<Pair>>): (r: Result<seq<string>>)
    ensures parameters.Null? ==> r == Ok([])
    ensures r.Throws? <==> parameters.NonNull? && exists i :: 0 <= i < |parameters.value| && parameters.value[i].value.NullObject?
    ensures r.Throws? ==> r.error == NullReference
    ensures r.Ok? && parameters.NonNull? ==> |r.value| == |parameters.value| + KeyedCount(parameters.value)
  {
    match parameters
    case Null => Ok([])
    case NonNull(ps) =>
      TransformPairsOutcome(ps);
      TransformPairs(ps)
  }

  /** The number of pairs whose key is not blank. */
  function KeyedCount(ps: seq<Pair>): nat
    decreases |ps|
  {
    if ps == [] then 0 else (if !IsNullOrWhiteSpace(ps[0].key) then 1 else 0) + KeyedCount(ps[1..])
  }

  /**
   Enumeration fails exactly when some value is null; otherwise every pair gives
   its value, and those with a key one argument more.
   */
  lemma {:induction false} TransformPairsOutcome(ps: seq<Pair>)
    ensures TransformPairs(ps).Throws? <==> exists i :: 0 <= i < |ps| && ps[i].value.NullObject?
    ensures TransformPairs(ps).Throws? ==> TransformPairs(ps).error == NullReference
    ensures TransformPairs(ps).Ok? ==> |TransformPairs(ps).value| == |ps| + KeyedCount(ps)
    decreases |ps|
  {
    if ps != [] {
      TransformPairsOutcome(ps[1..]);
      if exists i :: 0 <= i < |ps[1..]| && ps[1..][i].value.NullObject? {
        var i :| 0 <= i < |ps[1..]| && ps[1..][i].value.NullObject?;
        assert ps[i + 1].value.NullObject?;
      }
      if exists i :: 0 <= i < |ps| && ps[i].value.NullObject? {
        var i :| 0 <= i < |ps| && ps[i].value.NullObject?;
        if i > 0 {
          assert ps[1..][i - 1].value.NullObject?;
        }
      }
    }
  }

  /** A pair the two flattenings treat alike: its key needs no trimming and its value is neither null nor a JSON null. */
  predicate Tidy(p: Pair) {
    && (IsNullOrWhiteSpace(p.key) || Trim(p.key.value) == p.key.value)
    && !ArgumentsBuilder.IsNullValue(p.value)
  }

  predicate AllTidy(ps: seq<Pair>)
    decreases |ps|
  {
    ps == [] || (Tidy(ps[0]) && AllTidy(ps[1..]))
  }

  lemma PairMatchesBuilder(p: Pair)
    requires Tidy(p)
    ensures PairTexts(p) == Ok(ArgumentsBuilder.Escaped(ArgumentsBuilder.Identity, ArgumentsBuilder.PairArgs(p)))
  {
    var text := ValueText(p.value);
    var args := ArgumentsBuilder.PairArgs(p);
    var escaped := ArgumentsBuilder.Escaped(ArgumentsBuilder.Identity, args);
    if IsNullOrWhiteSpace(p.key) {
      assert ArgumentsBuilder.KeyOf(p) == [];
      assert args == [NonNull(text)];
      assert escaped == [text];
    } else {
      assert ArgumentsBuilder.KeyOf(p) == p.key.value;
      assert args == [NonNull(p.key.value), NonNull(text)];
      assert escaped == [p.key.value, text];
    }
  }

  /** Enumeration of a non-empty sequence: the first pair's arguments, then the rest's. */
  lemma TransformPairsStep(ps: seq<Pair>)
    requires ps != []
    requires PairTexts(ps[0]).Ok? && TransformPairs(ps[1..]).Ok?
    ensures TransformPairs(ps) == Ok(PairTexts(ps[0]).value + TransformPairs(ps[1..]).value)
  {
  }

  /** On tidy pairs the older flattening gives exactly what the builder adds. */
  lemma {:induction false} TransformMatchesBuilder(ps: seq<Pair>)
    requires AllTidy(ps)
    ensures TransformPairs(ps) == Ok(ArgumentsBuilder.Escaped(ArgumentsBuilder.Identity, ArgumentsBuilder.FlattenPairs(ps)))
    decreases |ps|
  {
    if ps != [] {
      PairMatchesBuilder(ps[0]);
      TransformMatchesBuilder(ps[1..]);
      TransformMatchesStep(ps, ArgumentsBuilder.Identity);
    }
  }

  lemma TransformMatchesStep(ps: seq<Pair>, f: ArgumentsBuilder.Escape)
    requires ps != []
    requires PairTexts(ps[0]) == Ok(ArgumentsBuilder.Escaped(f, ArgumentsBuilder.PairArgs(ps[0])))
    requires TransformPairs(ps[1..]) == Ok(ArgumentsBuilder.Escaped(f, ArgumentsBuilder.FlattenPairs(ps[1..])))
    ensures TransformPairs(ps) == Ok(ArgumentsBuilder.Escaped(f, ArgumentsBuilder.FlattenPairs(ps)))
  {
    var head := ArgumentsBuilder.PairArgs(ps[0]);
    var rest := ArgumentsBuilder.FlattenPairs(ps[1..]);
    TransformPairsStep(ps);
    ArgumentsBuilder.AddEachPairStep(ArgumentsBuilder.Empty, ps);
    ArgumentsBuilder.EscapedAppend(f, head, rest);
  }

  // ---------------------------------------------------------------------------
  // GatherCmdArguments, the request taken as its query-string pairs.

  /** Body arguments, then query-string arguments; a null body gives the query-string ones only. */
  function GatherFromStrings(queryPairs: seq<Pair>, argsFromBody: Nullable<seq<string>>): (r: Result<seq<string>>)
    ensures r.Ok? <==> TransformPairs(queryPairs).Ok?
    ensures r.Ok? && argsFromBody.Null? ==> r.value == TransformPairs(queryPairs).value
    ensures r.Ok? && argsFromBody.NonNull? ==> r.value == argsFromBody.value + TransformPairs(queryPairs).value
  {
    match TransformPairs(queryPairs)
    case Throws(e) => Throws(e)
    case Ok(queryStrings) =>
      match argsFromBody
      case Null => Ok(queryStrings)
      case NonNull(a) => Ok(a + queryStrings)
  }

  /** The key/value overload: the body flattened, then the same concatenation. */
  function GatherFromPairs(queryPairs: seq<Pair>, argsFromBody: Nullable<seq<Pair>>): (r: Result<seq<string>>)
    ensures TransformDictionaryToCmdArguments(argsFromBody).Ok? ==>
      r == GatherFromStrings(queryPairs, NonNull(TransformDictionaryToCmdArguments(argsFromBody).value))
    ensures TransformDictionaryToCmdArguments(argsFromBody).Throws? ==> r.Throws?
  {
    match TransformDictionaryToCmdArguments(argsFromBody)
    case Throws(e) => Throws(e)
    case Ok(body) => GatherFromStrings(queryPairs, NonNull(body))
  }

  /** The JSON overload: an array gives its element texts, an object its pairs, a value its text. */
  function GatherFromBody(queryPairs: seq<Pair>, argsFromBody: Nullable<JToken>): (r: Result<seq<string>>)
    ensures argsFromBody.Null? ==> r == GatherFromStrings(queryPairs, Null)
    ensures argsFromBody.NonNull? && argsFromBody.value.JOther? ==> r == Throws(InvalidCast(argsFromBody.value.typeName))
    ensures argsFromBody.NonNull? && IsValue(argsFromBody.value) ==> r == GatherFromStrings(queryPairs, NonNull([Show(argsFromBody.value)]))
    ensures argsFromBody.NonNull? && argsFromBody.value.JArray? ==>
      r == GatherFromStrings(queryPairs, NonNull(seq(|argsFromBody.value.items|, i requires 0 <= i < |argsFromBody.value.items| => Show(argsFromBody.value.items[i]))))
    ensures argsFromBody.NonNull? && argsFromBody.value.JObject? ==>
      r == GatherFromPairs(queryPairs, NonNull(ArgumentsBuilder.PropertyPairs(argsFromBody.value.properties)))
  {
    match argsFromBody
    case Null => GatherFromStrings(queryPairs, Null)
    case NonNull(t) =>
      match t
      case JArray(items) =>
        GatherFromStrings(queryPairs, NonNull(seq(|items|, i requires 0 <= i < |items| => Show(items[i]))))
      case JObject(properties) =>
        var pairs := ArgumentsBuilder.PropertyPairs(properties);
        TokenValuesNotNull(pairs);
        TransformPairsOutcome(pairs);
        GatherFromStrings(queryPairs, NonNull(TransformPairs(pairs).value))
      case JOther(typeName) => Throws(InvalidCast(typeName))
      case _ => GatherFromStrings(queryPairs, NonNull([Show(t)]))
  }

  lemma TokenValuesNotNull(pairs: seq<Pair>)
    requires forall i :: 0 <= i < |pairs| ==> pairs[i].value.Token?
    ensures !exists i :: 0 <= i < |pairs| && pairs[i].value.NullObject?
  {
  }

  /** A JSON object body never fails: its values are tokens, never null references. */
  lemma ObjectBodyNeverFails(queryPairs: seq<Pair>, properties: seq<JProperty>)
    ensures GatherFromBody(queryPairs, NonNull(JObject(properties))).Ok? <==> TransformPairs(queryPairs).Ok?
    ensures TransformPairs(queryPairs).Ok? ==>
      |GatherFromBody(queryPairs, NonNull(JObject(properties))).value|
        == |properties| + KeyedCount(ArgumentsBuilder.PropertyPairs(properties)) + |TransformPairs(queryPairs).value|
  {
    var pairs := ArgumentsBuilder.PropertyPairs(properties);
    TokenValuesNotNull(pairs);
    TransformPairsOutcome(pairs);
  }

  /** The stub `InvokeCmd` of PSControllerExtensions.Cmd.cs gives no response at all. */
  function InvokeCmdStub<Response>(scriptPath: Nullable<string>, arguments: Nullable<seq<string>>): (r: Nullable<Response>)
    ensures r.Null?
  {
    Null
  }
}

=== FILE: console_process.dfy ===
/**
 The older argument joiner of ConsoleProcess: null arguments are dropped, a
 blank one is enclosed in quotes, every other one is passed on as it is, and
 the results are joined with single spaces.
 */
module ConsoleProcess {
  import opened DotNet
  import Argv
  import ExeQuoting

  /** `EscapeArgument`: a blank argument is enclosed in quotes; both other branches return the argument. */
  function EscapeArgument(arg: Nullable<string>): (r: string)
    ensures IsNullOrWhiteSpace(arg) ==> |r| >= 2 && r[0] == '"' && r[|r| - 1] == '"' && r[1..|r| - 1] == arg.OrElse("")
    ensures !IsNullOrWhiteSpace(arg) ==> r == arg.value
  {
    if IsNullOrWhiteSpace(arg) then "\"" + arg.OrElse("") + "\""
    else if |arg.value| > 1 && arg.value[0] == '"' && arg.value[|arg.value| - 1] == '"' then arg.value
    else arg.value
  }

  /** The arguments that are not null, in order. */
  function NonNulls(args: seq<Nullable<string>>): (r: seq<string>)
    ensures |r| <= |args|
    ensures (forall i :: 0 <= i < |args| ==> args[i].NonNull?) ==> |r| == |args| && forall i :: 0 <= i < |args| ==> r[i] == args[i].value
    decreases |args|
  {
    if args == [] then []
    else if args[0].Null? then NonNulls(args[1..])
    else [args[0].value] + NonNulls(args[1..])
  }

  function EscapeAll(args: seq<string>): (r: seq<string>)
    ensures |r| == |args|
    ensures forall i :: 0 <= i < |args| ==> r[i] == EscapeArgument(NonNull(args[i]))
  {
    seq(|args|, i requires 0 <= i < |args| => EscapeArgument(NonNull(args[i])))
  }

  /** `JoinArguments`: the non-null arguments, each escaped, joined with single spaces. */
  function JoinArguments(args: Nullable<seq<Nullable<string>>>): (r: Nullable<string>)
    ensures args.Null? <==> r.Null?
    ensures args == NonNull([]) ==> r == NonNull("")
  {
    match args
    case Null => Null
    case NonNull(a) => NonNull(Join(" ", EscapeAll(NonNulls(a))))
  }

  /** Dropping the nulls keeps every other argument, in order. */
  lemma {:induction false} NonNullsKeepOrder(args: seq<Nullable<string>>, extra: Nullable<string>)
    ensures NonNulls(args + [extra]) == NonNulls(args) + (if extra.Null? then [] else [extra.value])
    decreases |args|
  {
    if args == [] {
      assert [] + [extra] == [extra];
      assert [extra][1..] == [];
    } else {
      assert (args + [extra])[1..] == args[1..] + [extra];
      NonNullsKeepOrder(args[1..], extra);
    }
  }

  /**
   Appending an argument: a null one changes nothing; any other is escaped and
   added after one space, or alone when no argument before it is non-null.
   */
  lemma JoinArgumentsAppend(args: seq<Nullable<string>>, extra: Nullable<string>)
    ensures JoinArguments(NonNull(args + [extra])).value ==
      if extra.Null? then JoinArguments(NonNull(args)).value
      else if NonNulls(args) == [] then EscapeArgument(extra)
      else JoinArguments(NonNull(args)).value + " " + EscapeArgument(extra)
  {
    var a := NonNulls(args);
    var e := EscapeAll(a);
    assert JoinArguments(NonNull(args)).value == Join(" ", e);
    NonNullsKeepOrder(args, extra);
    if extra.Null? {
      assert NonNulls(args + [extra]) == a;
    } else {
      var x := EscapeArgument(extra);
      assert NonNulls(args + [extra]) == a + [extra.value];
      EscapeAllSnoc(a, extra.value);
      assert JoinArguments(NonNull(args + [extra])).value == Join(" ", e + [x]);
      if a != [] {
        JoinSnoc(" ", e, x);
      } else {
        assert e + [x] == [x];
      }
    }
  }

  lemma EscapeAllSnoc(a: seq<string>, last: string)
    ensures EscapeAll(a + [last]) == EscapeAll(a) + [EscapeArgument(NonNull(last))]
  {
  }

  /** The joined line is the escaped non-null arguments plus one space between each two. */
  lemma JoinArgumentsLength(args: seq<Nullable<string>>)
    requires NonNulls(args) != []
    ensures |JoinArguments(NonNull(args)).value| == TotalLength(EscapeAll(NonNulls(args))) + |NonNulls(args)| - 1
  {
    JoinLength(" ", EscapeAll(NonNulls(args)));
  }

  /** An argument this escaper keeps whole: blank, or free of blanks, quotes and backslashes. */
  predicate Simple(s: string) {
    AllWhite(s) || ExeQuoting.Plain(s)
  }

  lemma {:induction false} EscapedSimpleRead(args: seq<string>)
    requires forall i :: 0 <= i < |args| ==> Simple(args[i])
    ensures forall i :: 0 <= i < |args| ==> Argv.SingleToken(EscapeAll(args)[i])
    ensures Argv.ReadAll(EscapeAll(args)) == args
    decreases |args|
  {
    forall i | 0 <= i < |args| ensures Argv.SingleToken(EscapeAll(args)[i]) && Argv.ReadToken(EscapeAll(args)[i]) == args[i] {
      var s := args[i];
      if AllWhite(s) {
        ExeQuoting.QuoteExeArgumentReads(NonNull(s), true);
      } else {
        ExeQuoting.PlainReads(s);
      }
    }
    if args != [] {
      assert EscapeAll(args)[1..] == EscapeAll(args[1..]);
      EscapedSimpleRead(args[1..]);
    }
  }

  /** For arguments it keeps whole, the joined line reads back as the non-null arguments. */
  lemma JoinArgumentsReads(args: seq<Nullable<string>>)
    requires forall i :: 0 <= i < |args| ==> args[i].NonNull? ==> Simple(args[i].value)
    ensures Argv.Decode(JoinArguments(NonNull(args)).value) == NonNulls(args)
  {
    NonNullsSimple(args);
    EscapedSimpleRead(NonNulls(args));
    Argv.JoinedTokensDecode(EscapeAll(NonNulls(args)));
  }

  lemma {:induction false} NonNullsSimple(args: seq<Nullable<string>>)
    requires forall i :: 0 <= i < |args| ==> args[i].NonNull? ==> Simple(args[i].value)
    ensures forall i :: 0 <= i < |NonNulls(args)| ==> Simple(NonNulls(args)[i])
    decreases |args|
  {
    if args != [] {
      NonNullsSimple(args[1..]);
    }
  }

  /** An argument with an inner blank is not protected: it reads as two. */
  lemma InnerBlankSplits()
    ensures JoinArguments(NonNull([NonNull("a b")])) == NonNull("a b")
    ensures Argv.Decode("a b") == ["a", "b"]
  {
    assert !IsWhite("a b"[0]);
    var r1 := Argv.Step(Argv.Start, 'a');
    var r2 := Argv.Step(r1, ' ');
    var r3 := Argv.Step(r2, 'b');
    assert Argv.Backslashes(0) == [];
    assert r1 == Argv.Reader([], "a", true, false, 0);
    assert Argv.Current(r1) == "a";
    assert Argv.IsSeparator(' ');
    assert r2 == Argv.Fresh([] + ["a"]);
    assert Argv.Current(r2) == [];
    assert [] + "b" == "b";
    assert r3 == Argv.Reader(["a"], "b", true, false, 0);
    assert Argv.Run(Argv.Start, "a b") == r3 by {
      assert "a b" == ['a'] + [' '] + ['b'];
      Argv.RunAppend(Argv.Start, ['a'] + [' '], ['b']);
      Argv.RunAppend(Argv.Start, ['a'], [' ']);
      Argv.RunOne(Argv.Start, 'a');
      Argv.RunOne(r1, ' ');
      Argv.RunOne(r2, 'b');
    }
    assert Argv.Current(r3) == "b";
    assert Argv.Finish(r3) == ["a", "b"];
  }
}

=== FILE: converter_registry.dfy ===
/**
 PSConverterRegistry: a PowerShell converter for one or more response media
 types, with the Uri path extension and the cmdlet that produce them. The four
 constructors differ in how the media types are given.
 */
module ConverterRegistry {
  import opened DotNet
  import opened JTokens

  /** A `MediaTypeHeaderValue`, by its media type. */
  datatype MediaTypeHeader = MediaTypeHeader(mediaType: string)

  datatype Registry = Registry(
    mediaTypes: seq<Nullable<MediaTypeHeader>>,
    uriPathExtension: string,
    conversionCmdlet: string,
    cmdletParameters: Nullable<seq<Pair>>)

  /** The main constructor, from header values. */
  function NewRegistry(mediaTypes: Nullable<seq<Nullable<MediaTypeHeader>>>, uriPathExtension: Nullable<string>,
                       conversionCmdlet: Nullable<string>, cmdletParameters: Nullable<seq<Pair>>): (r: Result<Registry>)
    ensures r.Throws? <==> mediaTypes.Null? || mediaTypes.value == []
    ensures r.Throws? ==> r.error == ArgumentNull("mediaTypes")
    ensures r.Ok? ==> r.value.mediaTypes == mediaTypes.value && |r.value.mediaTypes| >= 1
    ensures r.Ok? && uriPathExtension.Null? ==> r.value.uriPathExtension == ""
    ensures r.Ok? && uriPathExtension.NonNull? ==> r.value.uriPathExtension == Trim(uriPathExtension.value)
    ensures r.Ok? && conversionCmdlet.Null? ==> r.value.conversionCmdlet == ""
    ensures r.Ok? && conversionCmdlet.NonNull? ==> r.value.conversionCmdlet == conversionCmdlet.value
    ensures r.Ok? ==> r.value.cmdletParameters.Null?
  {
    if mediaTypes.Null? || mediaTypes.value == [] then Throws(ArgumentNull("mediaTypes"))
    else
      var extension := if uriPathExtension.Null? then "" else Trim(uriPathExtension.value);
      Ok(Registry(mediaTypes.value, extension, conversionCmdlet.OrElse(""), Null))
  }

  /** `new MediaTypeHeaderValue(mediaType)`, which refuses a null or empty media type. */
  function ParseHeader(mediaType: Nullable<string>): (r: Result<MediaTypeHeader>)
    ensures r.Throws? <==> IsNullOrEmpty(mediaType)
    ensures r.Throws? ==> r.error == Argument("mediaType")
    ensures r.Ok? ==> r.value.mediaType == mediaType.value
  {
    if IsNullOrEmpty(mediaType) then Throws(Argument("mediaType")) else Ok(MediaTypeHeader(mediaType.value))
  }

  /** Parses each media type in order; the first one refused is what is thrown. */
  function ParseHeaders(mediaTypes: seq<Nullable<string>>): (r: Result<seq<Nullable<MediaTypeHeader>>>)
    ensures r.Throws? <==> exists i :: 0 <= i < |mediaTypes| && IsNullOrEmpty(mediaTypes[i])
    ensures r.Throws? ==> r.error == Argument("mediaType")
    ensures r.Ok? ==> |r.value| == |mediaTypes|
    ensures r.Ok? ==> forall i :: 0 <= i < |mediaTypes| ==> r.value[i] == NonNull(MediaTypeHeader(mediaTypes[i].value))
    decreases |mediaTypes|
  {
    if mediaTypes == [] then Ok([])
    else
      match ParseHeader(mediaTypes[0])
      case Throws(e) => Throws(e)
      case Ok(h) =>
        match ParseHeaders(mediaTypes[1..])
        case Throws(e) => Throws(e)
        case Ok(hs) => Ok([NonNull(h)] + hs)
  }

  /** The constructor from media-type strings. A null sequence fails in `Select`, whose parameter is `source`. */
  function NewRegistryOfStrings(mediaTypes: Nullable<seq<Nullable<string>>>, uriPathExtension: Nullable<string>,
                                conversionCmdlet: Nullable<string>, cmdletParameters: Nullable<seq<Pair>>): (r: Result<Registry>)
    ensures mediaTypes.Null? ==> r == Throws(ArgumentNull("source"))
    ensures mediaTypes.NonNull? && mediaTypes.value == [] ==> r == Throws(ArgumentNull("mediaTypes"))
    ensures mediaTypes.NonNull? ==>
      (r.Throws? && r.error == Argument("mediaType") <==> exists i :: 0 <= i < |mediaTypes.value| && IsNullOrEmpty(mediaTypes.value[i]))
    ensures r.Ok? ==> |r.value.mediaTypes| == |mediaTypes.value| >= 1
    ensures r.Ok? ==> forall i :: 0 <= i < |mediaTypes.value| ==> r.value.mediaTypes[i] == NonNull(MediaTypeHeader(mediaTypes.value[i].value))
  {
    if mediaTypes.Null? then Throws(ArgumentNull("source"))
    else
      match ParseHeaders(mediaTypes.value)
      case Throws(e) => Throws(e)
      case Ok(headers) => NewRegistry(NonNull(headers), uriPathExtension, conversionCmdlet, cmdletParameters)
  }

  /** The constructor from one header value; the main constructor accepts `{ null }`, the body then throws. */
  function NewRegistryOfHeader(mediaType: Nullable<MediaTypeHeader>, uriPathExtension: Nullable<string>,
                               conversionCmdlet: Nullable<string>, cmdletParameters: Nullable<seq<Pair>>): (r: Result<Registry>)
    ensures r.Throws? <==> mediaType.Null?
    ensures r.Throws? ==> r.error == ArgumentNull("mediaType")
    ensures r.Ok? ==> r.value.mediaTypes == [mediaType]
  {
    match NewRegistry(NonNull([mediaType]), uriPathExtension, conversionCmdlet, cmdletParameters)
    case Throws(e) => Throws(e)
    case Ok(registry) => if mediaType.Null? then Throws(ArgumentNull("mediaType")) else Ok(registry)
  }

  /** The constructor from one media-type string. */
  function NewRegistryOfString(mediaType: Nullable<string>, uriPathExtension: Nullable<string>,
                               conversionCmdlet: Nullable<string>, cmdletParameters: Nullable<seq<Pair>>): (r: Result<Registry>)
    ensures r.Throws? <==> IsNullOrEmpty(mediaType)
    ensures r.Throws? ==> r.error == Argument("mediaType")
    ensures r.Ok? ==> r.value.mediaTypes == [NonNull(MediaTypeHeader(mediaType.value))]
  {
    match ParseHeader(mediaType)
    case Throws(e) => Throws(e)
    case Ok(h) => NewRegistryOfHeader(NonNull(h), uriPathExtension, conversionCmdlet, cmdletParameters)
  }

  /** The string overloads agree with the header overloads on what they build. */
  lemma OverloadsAgree(mediaType: string, uriPathExtension: Nullable<string>, conversionCmdlet: Nullable<string>, cmdletParameters: Nullable<seq<Pair>>)
    requires mediaType != []
    ensures NewRegistryOfString(NonNull(mediaType), uriPathExtension, conversionCmdlet, cmdletParameters)
         == NewRegistryOfStrings(NonNull([NonNull(mediaType)]), uriPathExtension, conversionCmdlet, cmdletParameters)
    ensures NewRegistryOfString(NonNull(mediaType), uriPathExtension, conversionCmdlet, cmdletParameters)
         == NewRegistry(NonNull([NonNull(MediaTypeHeader(mediaType))]), uriPathExtension, conversionCmdlet, cmdletParameters)
  {
    assert [NonNull(mediaType)][1..] == [];
    assert [NonNull(MediaTypeHeader(mediaType))] + [] == [NonNull(MediaTypeHeader(mediaType))];
  }

  /** Whatever the overload, a registry once built has a media type, an extension with no blank at either end, and no cmdlet parameters. */
  predicate WellFormed(r: Registry) {
    && |r.mediaTypes| >= 1
    && (r.uriPathExtension == [] || (!IsWhite(r.uriPathExtension[0]) && !IsWhite(r.uriPathExtension[|r.uriPathExtension| - 1])))
    && r.cmdletParameters.Null?
  }

  lemma ExtensionTrimmed(uriPathExtension: Nullable<string>)
    ensures var e := if uriPathExtension.Null? then "" else Trim(uriPathExtension.value);
      e == [] || (!IsWhite(e[0]) && !IsWhite(e[|e| - 1]))
  {
    if uriPathExtension.NonNull? {
      TrimBounds(uriPathExtension.value);
    }
  }

  lemma RegistryWellFormed(mediaTypes: Nullable<seq<Nullable<MediaTypeHeader>>>,
                           uriPathExtension: Nullable<string>, conversionCmdlet: Nullable<string>, cmdletParameters: Nullable<seq<Pair>>)
    ensures var r := NewRegistry(mediaTypes, uriPathExtension, conversionCmdlet, cmdletParameters); r.Ok? ==> WellFormed(r.value)
  {
    ExtensionTrimmed(uriPathExtension);
  }

  lemma ConstructorsWellFormed(mediaTypes: Nullable<seq<Nullable<MediaTypeHeader>>>, strings: Nullable<seq<Nullable<string>>>,
                               header: Nullable<MediaTypeHeader>, text: Nullable<string>,
                               uriPathExtension: Nullable<string>, conversionCmdlet: Nullable<string>, cmdletParameters: Nullable<seq<Pair>>)
    ensures var r := NewRegistry(mediaTypes, uriPathExtension, conversionCmdlet, cmdletParameters); r.Ok? ==> WellFormed(r.value)
    ensures var r := NewRegistryOfStrings(strings, uriPathExtension, conversionCmdlet, cmdletParameters); r.Ok? ==> WellFormed(r.value)
    ensures var r := NewRegistryOfHeader(header, uriPathExtension, conversionCmdlet, cmdletParameters); r.Ok? ==> WellFormed(r.value)
    ensures var r := NewRegistryOfString(text, uriPathExtension, conversionCmdlet, cmdletParameters); r.Ok? ==> WellFormed(r.value)
  {
    RegistryWellFormed(mediaTypes, uriPathExtension, conversionCmdlet, cmdletParameters);
    StringsWellFormed(strings, uriPathExtension, conversionCmdlet, cmdletParameters);
    HeaderWellFormed(header, uriPathExtension, conversionCmdlet, cmdletParameters);
    StringWellFormed(text, uriPathExtension, conversionCmdlet, cmdletParameters);
  }

  lemma StringsWellFormed(strings: Nullable<seq<Nullable<string>>>,
                          uriPathExtension: Nullable<string>, conversionCmdlet: Nullable<string>, cmdletParameters: Nullable<seq<Pair>>)
    ensures var r := NewRegistryOfStrings(strings, uriPathExtension, conversionCmdlet, cmdletParameters); r.Ok? ==> WellFormed(r.value)
  {
    if strings.NonNull? && ParseHeaders(strings.value).Ok? {
      RegistryWellFormed(NonNull(ParseHeaders(strings.value).value), uriPathExtension, conversionCmdlet, cmdletParameters);
    }
  }

  lemma HeaderWellFormed(header: Nullable<MediaTypeHeader>,
                         uriPathExtension: Nullable<string>, conversionCmdlet: Nullable<string>, cmdletParameters: Nullable<seq<Pair>>)
    ensures var r := NewRegistryOfHeader(header, uriPathExtension, conversionCmdlet, cmdletParameters); r.Ok? ==> WellFormed(r.value)
  {
    RegistryWellFormed(NonNull([header]), uriPathExtension, conversionCmdlet, cmdletParameters);
  }

  lemma StringWellFormed(text: Nullable<string>,
                         uriPathExtension: Nullable<string>, conversionCmdlet: Nullable<string>, cmdletParameters: Nullable<seq<Pair>>)
    ensures var r := NewRegistryOfString(text, uriPathExtension, conversionCmdlet, cmdletParameters); r.Ok? ==> WellFormed(r.value)
  {
    if ParseHeader(text).Ok? {
      HeaderWellFormed(NonNull(ParseHeader(text).value), uriPathExtension, conversionCmdlet, cmdletParameters);
    }
  }
}

=== FILE: dotnet.dfy ===
/**
 The small part of the .NET base library that the command-line core leans on:
 nullable references, the exceptions the core throws, character classes and
 the string primitives (Trim, ToUpperInvariant, Join, Replace, Int32.ToString).
 */
module DotNet {

  /** A .NET reference that may be null. */
  datatype Nullable<+T> = Null | NonNull(value: T) {

    /** The C# `??` operator. */
    function OrElse(default: T): T {
      match this
      case NonNull(v) => v
      case Null => default
    }
  }

  /** The exceptions the modelled code raises or passes on. */
  datatype Exception =
    | ArgumentNull(paramName: string)
    | Argument(paramName: string)
    | InvalidCast(message: string)
    | NullReference
    | Aggregate(message: string, inner: seq<Exception>)
    | Runtime(message: string)

  /** The outcome of a member that may throw. */
  datatype Result<+T> = Ok(value: T) | Throws(error: Exception)

  const NewLine: string := "\r\n"

  /** The text of `Exception.Message` (the .NET Framework 4 wording for argument-null). */
  function MessageOf(e: Exception): string {
    match e
    case ArgumentNull(p) => "Value cannot be null." + NewLine + "Parameter name: " + p
    case Argument(p) => "The value cannot be null or empty." + NewLine + "Parameter name: " + p
    case InvalidCast(m) => m
    case NullReference => "Object reference not set to an instance of an object."
    case Aggregate(m, _) => m
    case Runtime(m) => m
  }

  /** `char.IsWhiteSpace`; the regular-expression class `\s` matches the same characters. */
  predicate IsWhite(c: char) {
    || ('\t' <= c <= '\r')
    || c == ' '
    || c == '\U{0085}'
    || c == '\U{00A0}'
    || c == '\U{1680}'
    || ('\U{2000}' <= c <= '\U{200A}')
    || c == '\U{2028}'
    || c == '\U{2029}'
    || c == '\U{202F}'
    || c == '\U{205F}'
    || c == '\U{3000}'
  }

  predicate AllWhite(s: string) {
    forall i :: 0 <= i < |s| ==> IsWhite(s[i])
  }

  /** `string.IsNullOrWhiteSpace` */
  predicate IsNullOrWhiteSpace(s: Nullable<string>) {
    s.Null? || AllWhite(s.value)
  }

  /** `string.IsNullOrEmpty` */
  predicate IsNullOrEmpty(s: Nullable<string>) {
    s.Null? || s.value == []
  }

  function TrimStart(s: string): (r: string)
    ensures |r| <= |s| && r == s[|s| - |r|..]
    ensures AllWhite(s[..|s| - |r|])
    ensures r == [] || !IsWhite(r[0])
    decreases |s|
  {
    if s != [] && IsWhite(s[0]) then
      var r := TrimStart(s[1..]);
      assert s[|s| - |r|..] == s[1..][|s| - 1 - |r|..];
      assert s[..|s| - |r|] == [s[0]] + s[1..][..|s| - 1 - |r|];
      r
    else
      assert s[..0] == [];
      s
  }

  function TrimEnd(s: string): (r: string)
    ensures |r| <= |s| && r == s[..|r|]
    ensures AllWhite(s[|r|..])
    ensures r == [] || !IsWhite(r[|r| - 1])
    decreases |s|
  {
    if s != [] && IsWhite(s[|s| - 1]) then
      var t := s[..|s| - 1];
      var r := TrimEnd(t);
      assert t[..|r|] == s[..|r|];
      assert s[|r|..] == t[|r|..] + [s[|s| - 1]];
      r
    else
      assert s[|s|..] == [];
      s
  }

  /** `string.Trim()`: drops leading and trailing white space. */
  function Trim(s: string): string {
    TrimEnd(TrimStart(s))
  }

  /** Trimming leaves nothing exactly when the string is blank. */
  lemma TrimEmptyIffBlank(s: string)
    ensures Trim(s) == [] <==> AllWhite(s)
  {
    var t := TrimStart(s);
    if Trim(s) == [] {
      assert AllWhite(t[0..]);
      assert s == s[..|s| - |t|] + t;
    }
  }

  /** A trimmed string that is not empty starts and ends with a non-blank character. */
  lemma TrimBounds(s: string)
    ensures Trim(s) == [] || (!IsWhite(Trim(s)[0]) && !IsWhite(Trim(s)[|Trim(s)| - 1]))
  {
    var t := TrimStart(s);
    var u := TrimEnd(t);
    if u != [] {
      assert u[0] == t[0];
    }
  }

  /** `char.ToUpperInvariant`, for the ASCII letters. */
  function ToUpperChar(c: char): (r: char)
    ensures !('a' <= r <= 'z')
    ensures 'a' <= c <= 'z' ==> 'A' <= r <= 'Z' && r as int == c as int - 32
    ensures !('a' <= c <= 'z') ==> r == c
  {
    if 'a' <= c <= 'z' then (c as int - 32) as char else c
  }

  /** `string.ToUpperInvariant` */
  function ToUpperInvariant(s: string): (r: string)
    ensures |r| == |s|
    ensures forall i :: 0 <= i < |s| ==> r[i] == ToUpperChar(s[i])
    decreases |s|
  {
    if s == [] then [] else [ToUpperChar(s[0])] + ToUpperInvariant(s[1..])
  }

  /** `string.Equals(a, b, StringComparison.OrdinalIgnoreCase)` */
  predicate EqualsIgnoreCase(a: string, b: string) {
    |a| == |b| && forall i :: 0 <= i < |a| ==> ToUpperChar(a[i]) == ToUpperChar(b[i])
  }

  /** `string.Join(separator, values)` */
  function Join(separator: string, values: seq<string>): string
    decreases |values|
  {
    if |values| == 0 then ""
    else if |values| == 1 then values[0]
    else values[0] + separator + Join(separator, values[1..])
  }

  /** Appending one more value appends the separator and the value. */
  lemma {:induction false} JoinSnoc(separator: string, values: seq<string>, last: string)
    requires values != []
    ensures Join(separator, values + [last]) == Join(separator, values) + separator + last
    decreases |values|
  {
    if |values| == 1 {
      assert (values + [last])[1..] == [last];
    } else {
      assert (values + [last])[1..] == values[1..] + [last];
      JoinSnoc(separator, values[1..], last);
    }
  }

  function TotalLength(values: seq<string>): nat
    decreases |values|
  {
    if values == [] then 0 else |values[0]| + TotalLength(values[1..])
  }

  /** A join of n values holds exactly n - 1 separators. */
  lemma {:induction false} JoinLength(separator: string, values: seq<string>)
    requires values != []
    ensures |Join(separator, values)| == TotalLength(values) + |separator| * (|values| - 1)
    decreases |values|
  {
    if |values| > 1 {
      JoinLength(separator, values[1..]);
    }
  }

  /** `string.Replace(oldValue, newValue)`: every non-overlapping occurrence, scanning left to right. */
  function Replace(s: string, pattern: string, replacement: string): string
    requires pattern != []
    decreases |s|
  {
    if |s| < |pattern| then s
    else if s[..|pattern|] == pattern then replacement + Replace(s[|pattern|..], pattern, replacement)
    else [s[0]] + Replace(s[1..], pattern, replacement)
  }

  /** Replacing a single character distributes over concatenation. */
  lemma {:induction false} ReplaceCharAppend(a: string, b: string, c: char, replacement: string)
    ensures Replace(a + b, [c], replacement) == Replace(a, [c], replacement) + Replace(b, [c], replacement)
    decreases |a|
  {
    if a != [] {
      assert (a + b)[1..] == a[1..] + b;
      assert (a + b)[..1] == a[..1];
      assert a[..1] == [c] <==> a[0] == c by { assert a[..1][0] == a[0]; }
      ReplaceCharAppend(a[1..], b, c, replacement);
      if a[0] == c {
        calc {
          Replace(a + b, [c], replacement);
          replacement + Replace(a[1..] + b, [c], replacement);
          replacement + Replace(a[1..], [c], replacement) + Replace(b, [c], replacement);
        }
      } else {
        calc {
          Replace(a + b, [c], replacement);
          [a[0]] + Replace(a[1..] + b, [c], replacement);
          [a[0]] + Replace(a[1..], [c], replacement) + Replace(b, [c], replacement);
        }
      }
    } else {
      assert a + b == b;
    }
  }

  /** A string in which the character does not occur is left as it is. */
  lemma {:induction false} ReplaceCharAbsent(s: string, c: char, replacement: string)
    requires forall i :: 0 <= i < |s| ==> s[i] != c
    ensures Replace(s, [c], replacement) == s
    decreases |s|
  {
    if s != [] {
      assert s[..1] != [c] by { assert s[..1][0] == s[0]; }
      ReplaceCharAbsent(s[1..], c, replacement);
    }
  }

  function CountChar(s: string, c: char): nat
    decreases |s|
  {
    if s == [] then 0 else (if s[0] == c then 1 else 0) + CountChar(s[1..], c)
  }

  /** Replacing a character by a string of length k adds k - 1 characters per occurrence. */
  lemma {:induction false} ReplaceCharLength(s: string, c: char, replacement: string)
    ensures |Replace(s, [c], replacement)| == |s| + (|replacement| - 1) * CountChar(s, c)
    decreases |s|
  {
    if s != [] {
      assert s[..1] == [c] <==> s[0] == c by { assert s[..1][0] == s[0]; }
      ReplaceCharLength(s[1..], c, replacement);
    }
  }

  function DigitText(d: nat): char
    requires d < 10
  {
    "0123456789"[d]
  }

  /** The decimal text of a natural number, most significant digit first. */
  function NatText(n: nat): (r: string)
    ensures |r| > 0
    decreases n
  {
    if n < 10 then [DigitText(n)] else NatText(n / 10) + [DigitText(n % 10)]
  }

  /** `Int32.ToString()` under the invariant culture. */
  function IntText(n: int): string {
    if n < 0 then "-" + NatText(-n) else NatText(n)
  }

  predicate IsDigit(c: char) {
    '0' <= c <= '9'
  }

  predicate AllDigits(s: string) {
    forall i :: 0 <= i < |s| ==> IsDigit(s[i])
  }

  function ParseNat(s: string): nat
    requires AllDigits(s)
    decreases |s|
  {
    if s == [] then 0
    else
      var d := s[|s| - 1];
      assert IsDigit(d);
      ParseNat(s[..|s| - 1]) * 10 + (d as int - '0' as int)
  }

  /** Reads back the decimal text of an integer; `Null` when it is not one. */
  function ParseInt(s: string): Nullable<int> {
    if s == [] then Null
    else if s[0] == '-' then
      if |s| > 1 && AllDigits(s[1..]) then
        var m: int := ParseNat(s[1..]);
        NonNull(-m)
      else Null
    else if AllDigits(s) then
      var n: int := ParseNat(s);
      NonNull(n)
    else Null
  }

  lemma {:induction false} NatTextDigits(n: nat)
    ensures AllDigits(NatText(n))
    ensures ParseNat(NatText(n)) == n
    decreases n
  {
    if n >= 10 {
      NatTextDigits(n / 10);
      var t := NatText(n);
      assert t[..|t| - 1] == NatText(n / 10);
    }
  }

  /** The decimal text of an integer reads back as that integer. */
  lemma IntTextRoundTrip(n: int)
    ensures ParseInt(IntText(n)) == NonNull(n)
  {
    var t := NatText(if n < 0 then -n else n);
    NatTextDigits(if n < 0 then -n else n);
    assert IsDigit(t[0]);
    if n < 0 {
      assert IntText(n) == "-" + t;
      assert IntText(n)[1..] == t;
    } else {
      assert IntText(n) == t;
    }
  }
}

=== FILE: exe_quoting.dfy ===
/**
 The EXE quoting dialect of CmdArgumentsBuilder: an argument is passed through
 when the Microsoft C runtime would already read it as one argument, and is
 otherwise enclosed in double quotes, doubling each backslash run that the
 closing or an inner quote would otherwise swallow and escaping each inner
 quote as \".
 */
module ExeQuoting {
  import opened DotNet
  import opened Argv

  // ---------------------------------------------------------------------------
  // The "no quotes needed" recogniser, the pattern
  //   ^((\\\S|\\$|[^"\s\\])|("(\\.|""|[^"\\])*"))+$
  // written as two mutually recursive predicates over the rest of the input.

  /**
   Zero or more top-level items cover `s`: a backslash and a non-blank
   character, a backslash at the end, a character that is not a quote, a blank
   or a backslash, or a quoted group.
   */
  predicate Items(s: string)
    decreases |s|
  {
    || s == []
    || (s[0] == '\\' && |s| >= 2 && !IsWhite(s[1]) && Items(s[2..]))
    || s == ['\\']
    || (s[0] != '"' && s[0] != '\\' && !IsWhite(s[0]) && Items(s[1..]))
    || (s[0] == '"' && Group(s[1..]))
  }

  /**
   `s` continues a quoted group after its opening quote: backslash pairs (the
   second character not a line feed), doubled quotes and characters that are
   neither quote nor backslash, then the closing quote and more items.
   */
  predicate Group(s: string)
    decreases |s|
  {
    && s != []
    && (|| (s[0] == '\\' && |s| >= 2 && s[1] != '\n' && Group(s[2..]))
        || (s[0] == '"' && |s| >= 2 && s[1] == '"' && Group(s[2..]))
        || (s[0] != '"' && s[0] != '\\' && Group(s[1..]))
        || (s[0] == '"' && Items(s[1..])))
  }

  /**
   The pattern matches `s`. In .NET, `$` also matches just before a final line
   feed, so a match may leave one trailing line feed unconsumed.
   */
  predicate NeedsNoQuotes(s: string) {
    || (s != [] && Items(s))
    || (|s| >= 2 && s[|s| - 1] == '\n' && Items(s[..|s| - 1]))
  }

  // ---------------------------------------------------------------------------
  // The backslash rewrite (\\+)(?="|$), hand-written.

  /** The number of backslashes that end `s`. */
  function TrailingRun(s: string): (n: nat)
    ensures n <= |s|
    decreases |s|
  {
    if s != [] && s[|s| - 1] == '\\' then 1 + TrailingRun(s[..|s| - 1]) else 0
  }

  /** `s` without its trailing backslashes. */
  function Stem(s: string): string {
    s[..|s| - TrailingRun(s)]
  }

  /**
   Doubles every maximal backslash run of `s` that is followed by a quote;
   `anchored` tells whether the position just after `s` counts as such, so a
   run at the end of `s` is doubled exactly when it is set.
   */
  function DoubleRuns(s: string, anchored: bool): string
    decreases |s|
  {
    if s == [] then []
    else if s[|s| - 1] == '\\' then DoubleRuns(s[..|s| - 1], anchored) + (if anchored then "\\\\" else "\\")
    else DoubleRuns(s[..|s| - 1], s[|s| - 1] == '"') + [s[|s| - 1]]
  }

  /** The rewrite as .NET evaluates it: `$` also matches before a final line feed. */
  function EscapeBackslashesAsWritten(s: string): string {
    if s != [] && s[|s| - 1] == '\n' then DoubleRuns(s[..|s| - 1], true) + "\n"
    else DoubleRuns(s, true)
  }

  /** The evidently intended rewrite: runs before a quote or at the very end are doubled. */
  function EscapeBackslashes(s: string): string {
    DoubleRuns(s, true)
  }

  /** Each quote becomes \" . */
  function EscapeQuotes(s: string): string {
    Replace(s, "\"", "\\\"")
  }

  function Enclose(s: string): string {
    "\"" + s + "\""
  }

  /** Whether the quoter takes its quoting path rather than passing the argument through. */
  predicate QuotesApplied(rawArg: Nullable<string>, forceQuote: bool) {
    IsNullOrWhiteSpace(rawArg) || forceQuote || !NeedsNoQuotes(rawArg.value)
  }

  /** `QuoteExeArgument` as the source has it, with the .NET reading of `$` in the rewrite. */
  function QuoteExeArgumentAsWritten(rawArg: Nullable<string>, forceQuote: bool): (r: string)
    ensures IsNullOrWhiteSpace(rawArg) ==> r == Enclose(rawArg.OrElse(""))
    ensures QuotesApplied(rawArg, forceQuote) ==> |r| >= 2 && r[0] == '"' && r[|r| - 1] == '"'
    ensures !QuotesApplied(rawArg, forceQuote) ==> r == rawArg.value
  {
    if IsNullOrWhiteSpace(rawArg) then Enclose(rawArg.OrElse(""))
    else if !forceQuote && NeedsNoQuotes(rawArg.value) then rawArg.value
    else Enclose(EscapeQuotes(EscapeBackslashesAsWritten(rawArg.value)))
  }

  /** The source's `QuoteExeArgument` with the rewrite anchored at the very end only. */
  function QuoteExeArgumentCorrected(rawArg: Nullable<string>, forceQuote: bool): (r: string)
    ensures IsNullOrWhiteSpace(rawArg) ==> r == Enclose(rawArg.OrElse(""))
    ensures QuotesApplied(rawArg, forceQuote) ==> |r| >= 2 && r[0] == '"' && r[|r| - 1] == '"'
    ensures !QuotesApplied(rawArg, forceQuote) ==> r == rawArg.value
  {
    if IsNullOrWhiteSpace(rawArg) then Enclose(rawArg.OrElse(""))
    else if !forceQuote && NeedsNoQuotes(rawArg.value) then rawArg.value
    else Enclose(EscapeQuotes(EscapeBackslashes(rawArg.value)))
  }

  // ---------------------------------------------------------------------------
  // The rewrite described left to right: each maximal backslash run is doubled
  // when a quote or the end of the string follows it, and copied otherwise.

  /** The number of backslashes that start `s`. */
  function LeadingRun(s: string): (n: nat)
    ensures n <= |s|
    ensures forall i :: 0 <= i < n ==> s[i] == '\\'
    ensures n < |s| ==> s[n] != '\\'
    decreases |s|
  {
    if s != [] && s[0] == '\\' then 1 + LeadingRun(s[1..]) else 0
  }

  function DoubleRunsForward(s: string): string
    decreases |s|
  {
    var k := LeadingRun(s);
    if k == |s| then Backslashes(2 * k)
    else Backslashes(if s[k] == '"' then 2 * k else k) + [s[k]] + DoubleRunsForward(s[k + 1..])
  }

  /** Whether a run at the end of `a` is doubled in `a + b`: it is when the first non-backslash of `b` is a quote. */
  function Anchored(b: string, anchored: bool): bool {
    var k := LeadingRun(b);
    if k == |b| then anchored else b[k] == '"'
  }

  lemma {:induction false} LeadingRunSnoc(b: string, c: char)
    ensures LeadingRun(b) < |b| ==> LeadingRun(b + [c]) == LeadingRun(b)
    ensures LeadingRun(b) == |b| ==> LeadingRun(b + [c]) == |b| + (if c == '\\' then 1 else 0)
    decreases |b|
  {
    if b != [] {
      assert (b + [c])[1..] == b[1..] + [c];
      LeadingRunSnoc(b[1..], c);
    }
  }

  lemma AnchoredSnoc(b: string, c: char, anchored: bool)
    ensures Anchored(b + [c], anchored) == if c == '\\' then Anchored(b, anchored) else Anchored(b, c == '"')
  {
    LeadingRunSnoc(b, c);
    if LeadingRun(b) < |b| {
      assert (b + [c])[LeadingRun(b)] == b[LeadingRun(b)];
    }
  }

  /** The rewrite of a concatenation: the left part sees what the right part starts with. */
  lemma {:induction false} DoubleRunsAppend(a: string, b: string, anchored: bool)
    ensures DoubleRuns(a + b, anchored) == DoubleRuns(a, Anchored(b, anchored)) + DoubleRuns(b, anchored)
    decreases |b|
  {
    if b == [] {
      assert a + b == a;
    } else {
      var init, c := b[..|b| - 1], b[|b| - 1];
      assert b == init + [c];
      assert (a + b)[..|a + b| - 1] == a + init;
      AnchoredSnoc(init, c, anchored);
      if c == '\\' {
        DoubleRunsAppend(a, init, anchored);
      } else {
        DoubleRunsAppend(a, init, c == '"');
      }
    }
  }

  lemma {:induction false} DoubleRunsOfRun(k: nat, anchored: bool)
    ensures DoubleRuns(Backslashes(k), anchored) == Backslashes(if anchored then 2 * k else k)
    decreases k
  {
    if k > 0 {
      var b := Backslashes(k);
      assert b[..k - 1] == Backslashes(k - 1);
      assert b[k - 1] == '\\';
      assert DoubleRuns(b, anchored) == DoubleRuns(Backslashes(k - 1), anchored) + (if anchored then "\\\\" else "\\");
      DoubleRunsOfRun(k - 1, anchored);
      if anchored {
        assert Backslashes(2) == "\\\\";
        BackslashesAdd(2 * (k - 1), 2);
      } else {
        assert Backslashes(1) == "\\";
        BackslashesAdd(k - 1, 1);
      }
    }
  }

  /** The right-to-left definition of the rewrite agrees with the left-to-right description. */
  lemma {:induction false} EscapeBackslashesForward(s: string)
    ensures EscapeBackslashes(s) == DoubleRunsForward(s)
    decreases |s|
  {
    var k := LeadingRun(s);
    assert s[..k] == Backslashes(k);
    if k == |s| {
      assert s == Backslashes(k);
      DoubleRunsOfRun(k, true);
    } else {
      var c, rest := s[k], s[k + 1..];
      var head := Backslashes(k) + [c];
      assert s == head + rest;
      DoubleRunsAppend(head, rest, true);
      assert head[..|head| - 1] == Backslashes(k);
      DoubleRunsOfRun(k, c == '"');
      assert DoubleRuns(head, Anchored(rest, true)) == Backslashes(if c == '"' then 2 * k else k) + [c];
      EscapeBackslashesForward(rest);
    }
  }

  // ---------------------------------------------------------------------------
  // Reading the quoted form back.

  lemma {:induction false} StemAndRun(s: string)
    ensures Stem(s) + Backslashes(TrailingRun(s)) == s
    decreases |s|
  {
    if s != [] && s[|s| - 1] == '\\' {
      var init := s[..|s| - 1];
      StemAndRun(init);
      assert Stem(s) == Stem(init);
      calc {
        Stem(s) + Backslashes(TrailingRun(s));
        Stem(init) + (Backslashes(TrailingRun(init)) + ['\\']);
        (Stem(init) + Backslashes(TrailingRun(init))) + ['\\'];
        init + ['\\'];
        s;
      }
    }
  }

  /** Inside a quoted region, after nothing has been read yet. */
  function Quoted(cur: string, pending: nat): Reader {
    Reader([], cur, true, true, pending)
  }

  /**
   Reading the escaped body of `t` inside a quoted region yields `t` except for
   its trailing backslashes, which are still pending: twice as many when the
   run was doubled.
   */
  lemma {:induction false} EscapedBodyReads(t: string, anchored: bool)
    ensures Run(Quoted([], 0), EscapeQuotes(DoubleRuns(t, anchored)))
         == Quoted(Stem(t), (if anchored then 2 else 1) * TrailingRun(t))
    decreases |t|
  {
    if t == [] {
      assert EscapeQuotes([]) == [];
    } else {
      var init, c := t[..|t| - 1], t[|t| - 1];
      assert t == init + [c];
      if c == '\\' {
        EscapedBodyReads(init, anchored);
        BackslashReads(init, anchored);
      } else {
        EscapedBodyReads(init, c == '"');
        StemAndRun(init);
        if c == '"' {
          QuoteReads(init);
        } else {
          OtherReads(init, c);
        }
      }
    }
  }

  /** The step of `EscapedBodyReads` for a final backslash. */
  lemma BackslashReads(init: string, anchored: bool)
    requires Run(Quoted([], 0), EscapeQuotes(DoubleRuns(init, anchored)))
          == Quoted(Stem(init), (if anchored then 2 else 1) * TrailingRun(init))
    ensures Run(Quoted([], 0), EscapeQuotes(DoubleRuns(init + ['\\'], anchored)))
         == Quoted(Stem(init + ['\\']), (if anchored then 2 else 1) * TrailingRun(init + ['\\']))
  {
    var t := init + ['\\'];
    assert t[..|t| - 1] == init;
    var m: nat := if anchored then 2 else 1;
    var tail := if anchored then "\\\\" else "\\";
    assert tail == Backslashes(m);
    var body := DoubleRuns(init, anchored);
    assert DoubleRuns(t, anchored) == body + tail;
    ReplaceCharAppend(body, tail, '"', "\\\"");
    ReplaceCharAbsent(tail, '"', "\\\"");
    RunAppend(Quoted([], 0), EscapeQuotes(body), tail);
    RunBackslashes(Quoted(Stem(init), m * TrailingRun(init)), m);
    assert Stem(t) == Stem(init);
    assert m * TrailingRun(init) + m == m * TrailingRun(t);
  }

  /** The step of `EscapedBodyReads` for a final quote: the run before it was doubled, the quote escaped. */
  lemma QuoteReads(init: string)
    requires Run(Quoted([], 0), EscapeQuotes(DoubleRuns(init, true))) == Quoted(Stem(init), 2 * TrailingRun(init))
    requires Stem(init) + Backslashes(TrailingRun(init)) == init
    ensures Run(Quoted([], 0), EscapeQuotes(DoubleRuns(init + ['"'], false))) == Quoted(init + ['"'], 0)
  {
    var t := init + ['"'];
    assert t[..|t| - 1] == init;
    var body := DoubleRuns(init, true);
    assert DoubleRuns(t, false) == body + ['"'];
    EscapedQuoteAppended(body);
    RunAppend(Quoted([], 0), EscapeQuotes(body), "\\\"");
    EscapedQuoteReads(Stem(init), TrailingRun(init));
  }

  lemma EscapedQuoteAppended(body: string)
    ensures EscapeQuotes(body + ['"']) == EscapeQuotes(body) + "\\\""
  {
    ReplaceCharAppend(body, ['"'], '"', "\\\"");
    assert Replace(['"'], "\"", "\\\"") == "\\\"";
  }

  /** An escaped quote after 2k pending backslashes gives k backslashes and a literal quote. */
  lemma EscapedQuoteReads(stem: string, k: nat)
    ensures Run(Quoted(stem, 2 * k), "\\\"") == Quoted(stem + Backslashes(k) + ['"'], 0)
  {
    var mid := Quoted(stem, 2 * k);
    var r1 := Quoted(stem, 2 * k + 1);
    assert Step(mid, '\\') == r1;
    assert (2 * k + 1) / 2 == k && (2 * k + 1) % 2 == 1;
    assert Step(r1, '"') == Quoted(stem + Backslashes(k) + ['"'], 0);
    assert "\\\"" == ['\\'] + ['"'];
    RunAppend(mid, ['\\'], ['"']);
    RunOne(mid, '\\');
    RunOne(r1, '"');
  }

  /** The step of `EscapedBodyReads` for any other final character: it is copied after the run. */
  lemma OtherReads(init: string, c: char)
    requires c != '\\' && c != '"'
    requires Run(Quoted([], 0), EscapeQuotes(DoubleRuns(init, false))) == Quoted(Stem(init), TrailingRun(init))
    requires Stem(init) + Backslashes(TrailingRun(init)) == init
    ensures Run(Quoted([], 0), EscapeQuotes(DoubleRuns(init + [c], false))) == Quoted(init + [c], 0)
  {
    var t := init + [c];
    assert t[..|t| - 1] == init;
    var body := DoubleRuns(init, false);
    assert DoubleRuns(t, false) == body + [c];
    ReplaceCharAppend(body, [c], '"', "\\\"");
    ReplaceCharAbsent([c], '"', "\\\"");
    assert EscapeQuotes(body + [c]) == EscapeQuotes(body) + [c];
    RunAppend(Quoted([], 0), EscapeQuotes(body), [c]);
    var r := Quoted(Stem(init), TrailingRun(init));
    RunOne(r, c);
    assert Current(r) == init;
    assert Step(r, c) == Quoted(init + [c], 0);
  }

  /** The fully quoted form of any string reads back as exactly that string. */
  lemma QuotedReadsBack(s: string)
    ensures Run(Start, Enclose(EscapeQuotes(EscapeBackslashes(s)))) == Reader([], s, true, false, 0)
    ensures SingleToken(Enclose(EscapeQuotes(EscapeBackslashes(s))))
    ensures ReadToken(Enclose(EscapeQuotes(EscapeBackslashes(s)))) == s
  {
    var body := EscapeQuotes(EscapeBackslashes(s));
    RunAppend(Start, "\"" + body, "\"");
    RunAppend(Start, "\"", body);
    RunOne(Start, '"');
    assert Step(Start, '"') == Quoted([], 0);
    EscapedBodyReads(s, true);
    var k := TrailingRun(s);
    var mid := Quoted(Stem(s), 2 * k);
    RunOne(mid, '"');
    assert (2 * k) / 2 == k && (2 * k) % 2 == 0;
    StemAndRun(s);
    assert Step(mid, '"') == Reader([], s, true, false, 0);
  }

  /** A string with neither backslashes nor quotes is its own escaped body. */
  lemma {:induction false} PlainBodyUnchanged(s: string, anchored: bool)
    requires forall i :: 0 <= i < |s| ==> s[i] != '\\' && s[i] != '"'
    ensures EscapeQuotes(DoubleRuns(s, anchored)) == s
    decreases |s|
  {
    if s != [] {
      var init := s[..|s| - 1];
      PlainBodyUnchanged(init, false);
      ReplaceCharAppend(DoubleRuns(init, false), [s[|s| - 1]], '"', "\\\"");
      ReplaceCharAbsent([s[|s| - 1]], '"', "\\\"");
      assert init + [s[|s| - 1]] == s;
    } else {
      assert EscapeQuotes([]) == [];
    }
  }

  // ---------------------------------------------------------------------------
  // Reading a passed-through argument.

  /** Top-level items read as part of one argument and end outside any quoted region. */
  lemma {:induction false} ItemsRead(r: Reader, s: string)
    requires Items(s)
    requires r.args == [] && !r.inQuote && r.pending % 2 == 0
    requires r.inArg || s != []
    ensures Run(r, s).args == [] && !Run(r, s).inQuote && Run(r, s).inArg
    decreases |s|, 1
  {
    if s == [] {
    } else if s[0] == '\\' && |s| >= 2 && !IsWhite(s[1]) && Items(s[2..]) {
      var r1 := Step(r, s[0]);
      var r2 := Step(r1, s[1]);
      assert !IsSeparator(s[1]);
      assert r2.args == [] && !r2.inQuote && r2.pending % 2 == 0 && r2.inArg;
      assert s[1..][0] == s[1] && s[1..][1..] == s[2..];
      ItemsRead(r2, s[2..]);
    } else if s == ['\\'] {
    } else if s[0] != '"' && s[0] != '\\' && !IsWhite(s[0]) && Items(s[1..]) {
      assert !IsSeparator(s[0]);
      ItemsRead(Step(r, s[0]), s[1..]);
    } else {
      assert s[0] == '"' && Group(s[1..]);
      var r1 := Step(r, s[0]);
      assert r1.inQuote && r1.pending == 0 && r1.inArg;
      GroupRead(r1, s[1..]);
    }
  }

  /** The rest of a quoted group reads as part of the same argument, and the items after it too. */
  lemma {:induction false} GroupRead(r: Reader, s: string)
    requires Group(s)
    requires r.args == [] && r.inQuote && r.pending % 2 == 0 && r.inArg
    ensures Run(r, s).args == [] && !Run(r, s).inQuote && Run(r, s).inArg
    decreases |s|, 0
  {
    if s[0] == '\\' && |s| >= 2 && s[1] != '\n' && Group(s[2..]) {
      var r2 := Step(Step(r, s[0]), s[1]);
      assert r2.args == [] && r2.inQuote && r2.pending % 2 == 0 && r2.inArg;
      assert s[1..][0] == s[1] && s[1..][1..] == s[2..];
      GroupRead(r2, s[2..]);
    } else if s[0] == '"' && |s| >= 2 && s[1] == '"' && Group(s[2..]) {
      var r2 := Step(Step(r, s[0]), s[1]);
      assert r2.args == [] && r2.inQuote && r2.pending == 0 && r2.inArg;
      assert s[1..][0] == s[1] && s[1..][1..] == s[2..];
      GroupRead(r2, s[2..]);
    } else if s[0] != '"' && s[0] != '\\' && Group(s[1..]) {
      GroupRead(Step(r, s[0]), s[1..]);
    } else {
      assert s[0] == '"' && Items(s[1..]);
      var r1 := Step(r, s[0]);
      assert !r1.inQuote && r1.pending == 0 && r1.inArg;
      ItemsRead(r1, s[1..]);
    }
  }

  /** An argument the recogniser accepts reads as exactly one argument. */
  lemma NeedsNoQuotesSingle(s: string)
    requires NeedsNoQuotes(s)
    ensures SingleToken(s)
  {
    if s != [] && Items(s) {
      ItemsRead(Start, s);
    } else {
      var t := s[..|s| - 1];
      ItemsRead(Start, t);
      assert s == t + "\n";
      RunAppend(Start, t, "\n");
      RunOne(Run(Start, t), '\n');
    }
  }

  // ---------------------------------------------------------------------------
  // What the quoter promises.

  /**
   Whatever the input, the EXE quoter yields one argument; whenever it quotes,
   that argument is exactly the raw one (null read as empty).
   */
  lemma QuoteExeArgumentReads(rawArg: Nullable<string>, forceQuote: bool)
    ensures SingleToken(QuoteExeArgumentCorrected(rawArg, forceQuote))
    ensures QuotesApplied(rawArg, forceQuote) ==> ReadToken(QuoteExeArgumentCorrected(rawArg, forceQuote)) == rawArg.OrElse("")
  {
    var s := rawArg.OrElse("");
    if IsNullOrWhiteSpace(rawArg) {
      assert AllWhite(s);
      PlainBodyUnchanged(s, true);
      QuotedReadsBack(s);
    } else if !forceQuote && NeedsNoQuotes(rawArg.value) {
      NeedsNoQuotesSingle(rawArg.value);
    } else {
      QuotedReadsBack(s);
    }
  }

  /** Round trip: decoding a force-quoted argument gives back exactly that argument. */
  lemma ExeRoundTrip(rawArg: Nullable<string>)
    ensures Decode(QuoteExeArgumentCorrected(rawArg, true)) == [rawArg.OrElse("")]
  {
    QuoteExeArgumentReads(rawArg, true);
  }

  /** `s` ends in a backslash and a line feed, the one shape on which the two rewrites differ. */
  predicate EndsInBackslashLineFeed(s: string) {
    |s| >= 2 && s[|s| - 1] == '\n' && s[|s| - 2] == '\\'
  }

  /** Runs that end before a final line feed are the only place where the two rewrites differ. */
  lemma AsWrittenAgrees(s: string)
    requires !EndsInBackslashLineFeed(s)
    ensures EscapeBackslashesAsWritten(s) == EscapeBackslashes(s)
  {
    if s != [] && s[|s| - 1] == '\n' {
      var init := s[..|s| - 1];
      assert DoubleRuns(s, true) == DoubleRuns(init, false) + "\n";
      if init != [] {
        assert init[|init| - 1] == s[|s| - 2];
      }
    }
  }

  /**
   The argument the C runtime reads back from the source's quoting of `s`: `s`
   itself, except that a backslash run just before a final line feed comes
   back doubled.
   */
  function AsWrittenReading(s: string): string {
    if s != [] && s[|s| - 1] == '\n' then
      var init := s[..|s| - 1];
      init + Backslashes(TrailingRun(init)) + "\n"
    else s
  }

  /** The reading is the argument itself exactly when the argument does not end in a backslash and a line feed. */
  lemma AsWrittenReadingExact(s: string)
    ensures AsWrittenReading(s) == s <==> !EndsInBackslashLineFeed(s)
  {
    if s != [] && s[|s| - 1] == '\n' {
      var init := s[..|s| - 1];
      assert s == init + "\n";
      if EndsInBackslashLineFeed(s) {
        assert init[|init| - 1] == '\\';
        assert TrailingRun(init) >= 1;
        assert |AsWrittenReading(s)| > |s|;
      } else {
        if init != [] {
          assert init[|init| - 1] == s[|s| - 2];
        }
        assert TrailingRun(init) == 0;
        assert init + Backslashes(0) + "\n" == s;
      }
    }
  }

  /** The source's quoting path reads as one argument, the reading above of its input. */
  lemma AsWrittenQuotedReadsBack(s: string)
    ensures SingleToken(Enclose(EscapeQuotes(EscapeBackslashesAsWritten(s))))
    ensures ReadToken(Enclose(EscapeQuotes(EscapeBackslashesAsWritten(s)))) == AsWrittenReading(s)
  {
    if s != [] && s[|s| - 1] == '\n' {
      var init := s[..|s| - 1];
      var doubled := DoubleRuns(init, true);
      var body := EscapeQuotes(doubled);
      assert EscapeBackslashesAsWritten(s) == doubled + "\n";
      ReplaceCharAppend(doubled, "\n", '"', "\\\"");
      ReplaceCharAbsent("\n", '"', "\\\"");
      assert EscapeQuotes(doubled + "\n") == body + "\n";
      assert Enclose(body + "\n") == "\"" + body + "\n" + "\"";
      RunAppend(Start, "\"" + body + "\n", "\"");
      RunAppend(Start, "\"" + body, "\n");
      RunAppend(Start, "\"", body);
      RunOne(Start, '"');
      assert Step(Start, '"') == Quoted([], 0);
      EscapedBodyReads(init, true);
      var k := TrailingRun(init);
      var mid := Quoted(Stem(init), 2 * k);
      var read := Stem(init) + Backslashes(2 * k) + "\n";
      RunOne(mid, '\n');
      assert Step(mid, '\n') == Quoted(read, 0);
      RunOne(Quoted(read, 0), '"');
      assert Step(Quoted(read, 0), '"') == Reader([], read, true, false, 0);
      StemAndRun(init);
      BackslashesAdd(k, k);
      assert read == init + Backslashes(k) + "\n";
      assert read + Backslashes(0) == read;
    } else {
      assert EscapeBackslashesAsWritten(s) == EscapeBackslashes(s);
      QuotedReadsBack(s);
    }
  }

  /**
   Whatever the input, the source's EXE quoter yields one argument; whenever it
   quotes, that argument is the reading above of the raw one (null read as empty).
   */
  lemma QuoteExeArgumentAsWrittenReads(rawArg: Nullable<string>, forceQuote: bool)
    ensures SingleToken(QuoteExeArgumentAsWritten(rawArg, forceQuote))
    ensures QuotesApplied(rawArg, forceQuote) ==> ReadToken(QuoteExeArgumentAsWritten(rawArg, forceQuote)) == AsWrittenReading(rawArg.OrElse(""))
  {
    var s := rawArg.OrElse("");
    if IsNullOrWhiteSpace(rawArg) {
      QuoteExeArgumentReads(rawArg, forceQuote);
      assert !EndsInBackslashLineFeed(s) by {
        if |s| >= 2 {
          assert IsWhite(s[|s| - 2]);
        }
      }
      AsWrittenReadingExact(s);
    } else if !forceQuote && NeedsNoQuotes(rawArg.value) {
      NeedsNoQuotesSingle(rawArg.value);
    } else {
      AsWrittenQuotedReadsBack(s);
    }
  }

  /** Decoding the source's force-quoted argument gives back its reading: the argument itself, or the doubled run before a final line feed. */
  lemma ExeReadBackAsWritten(rawArg: Nullable<string>)
    ensures Decode(QuoteExeArgumentAsWritten(rawArg, true)) == [AsWrittenReading(rawArg.OrElse(""))]
  {
    QuoteExeArgumentAsWrittenReads(rawArg, true);
  }

  /** The source's quoter round-trips every argument that does not end in a backslash and a line feed. */
  lemma ExeRoundTripAsWritten(rawArg: Nullable<string>)
    requires !EndsInBackslashLineFeed(rawArg.OrElse(""))
    ensures Decode(QuoteExeArgumentAsWritten(rawArg, true)) == [rawArg.OrElse("")]
  {
    if !IsNullOrWhiteSpace(rawArg) {
      AsWrittenAgrees(rawArg.value);
    }
    assert QuoteExeArgumentAsWritten(rawArg, true) == QuoteExeArgumentCorrected(rawArg, true);
    ExeRoundTrip(rawArg);
  }

  /** The code as written rewrites backslash + line feed with the backslash doubled. */
  lemma AsWrittenRewritesTrailingRun()
    ensures EscapeQuotes(EscapeBackslashesAsWritten("\\\n")) == "\\\\\n"
  {
    var s := "\\\n";
    assert s[..|s| - 1] == "\\";
    assert DoubleRuns("\\", true) == "\\\\";
    assert EscapeBackslashesAsWritten(s) == "\\\\\n";
    ReplaceCharAbsent("\\\\\n", '"', "\\\"");
  }

  /** The code as written quotes backslash + line feed with the backslash doubled. */
  lemma AsWrittenQuotesTrailingRun()
    ensures QuoteExeArgumentAsWritten(NonNull("\\\n"), true) == "\"\\\\\n\""
  {
    var s := "\\\n";
    assert !IsWhite(s[0]);
    assert !IsNullOrWhiteSpace(NonNull(s));
    AsWrittenRewritesTrailingRun();
    assert Enclose("\\\\\n") == "\"\\\\\n\"";
  }

  /** Reading `"` backslash backslash line-feed `"` gives one argument with both backslashes. */
  lemma DoubledRunDecodes()
    ensures Decode("\"\\\\\n\"") == ["\\\\\n"]
  {
    var line := "\"\\\\\n\"";
    var r1 := Step(Start, '"');
    var r2 := Step(r1, '\\');
    var r3 := Step(r2, '\\');
    var r4 := Step(r3, '\n');
    var r5 := Step(r4, '"');
    assert r4 == Reader([], "\\\\\n", true, true, 0);
    assert r5 == Reader([], "\\\\\n", true, false, 0);
    assert line == ['"'] + ['\\'] + ['\\'] + ['\n'] + ['"'];
    RunAppend(Start, ['"'] + ['\\'] + ['\\'] + ['\n'], ['"']);
    RunAppend(Start, ['"'] + ['\\'] + ['\\'], ['\n']);
    RunAppend(Start, ['"'] + ['\\'], ['\\']);
    RunAppend(Start, ['"'], ['\\']);
    RunOne(Start, '"');
    RunOne(r1, '\\');
    RunOne(r2, '\\');
    RunOne(r3, '\n');
    RunOne(r4, '"');
  }

  /** The counterexample: a backslash before a final line feed is doubled, so it reads back twice. */
  lemma AsWrittenLosesTrailingBackslash()
    ensures QuoteExeArgumentAsWritten(NonNull("\\\n"), true) == "\"\\\\\n\""
    ensures Decode(QuoteExeArgumentAsWritten(NonNull("\\\n"), true)) == ["\\\\\n"]
    ensures Decode(QuoteExeArgumentAsWritten(NonNull("\\\n"), true)) != ["\\\n"]
  {
    AsWrittenQuotesTrailingRun();
    DoubledRunDecodes();
    assert ["\\\\\n"][0] != ["\\\n"][0] by { assert |"\\\\\n"| != |"\\\n"|; }
  }

  /** An argument without blanks, quotes or backslashes. */
  predicate Plain(s: string) {
    forall i :: 0 <= i < |s| ==> !IsWhite(s[i]) && s[i] != '"' && s[i] != '\\'
  }

  lemma {:induction false} PlainItems(s: string)
    requires Plain(s)
    ensures Items(s)
    decreases |s|
  {
    if s != [] {
      assert Plain(s[1..]) by {
        forall i | 0 <= i < |s[1..]| ensures !IsWhite(s[1..][i]) && s[1..][i] != '"' && s[1..][i] != '\\' {
          assert s[1..][i] == s[i + 1];
        }
      }
      PlainItems(s[1..]);
    }
  }

  /** A plain argument reads as one argument, itself. */
  lemma PlainReads(s: string)
    requires s != [] && Plain(s)
    ensures SingleToken(s) && ReadToken(s) == s
  {
    forall i | 0 <= i < |s| ensures s[i] != '\\' && s[i] != '"' && !IsSeparator(s[i]) {
      assert !IsWhite(s[i]);
    }
    RunLiteral(Start, s);
    assert [] + s == s && s + Backslashes(0) == s;
  }

  /** A plain argument is passed through, and reads as itself. */
  lemma PlainPassesThrough(s: string)
    requires s != [] && Plain(s)
    ensures QuoteExeArgumentCorrected(NonNull(s), false) == s
    ensures QuoteExeArgumentAsWritten(NonNull(s), false) == s
    ensures Decode(s) == [s]
  {
    PlainItems(s);
    assert !IsWhite(s[0]);
    PlainReads(s);
    SingleTokenDecodes(s);
  }
}

=== FILE: jtokens.dfy ===
/**
 The JSON values a request body deserialises to (the Newtonsoft.Json JToken
 hierarchy), the .NET `object` values that key/value parameters carry, and
 their text (`ToString()`).
 */
module JTokens {
  import opened DotNet

  datatype JToken =
    | JNull
    | JBoolean(b: bool)
    /** An integer or floating-point value, kept as its invariant-culture text. */
    | JNumber(text: string)
    | JString(s: string)
    | JArray(items: seq<JToken>)
    | JObject(properties: seq<JProperty>)
    /** A token that is neither a container nor a value (a JProperty or JConstructor). */
    | JOther(typeName: string)

  datatype JProperty = JProperty(name: string, value: JToken)

  /** The token is a `JValue`. */
  predicate IsValue(t: JToken) {
    t.JNull? || t.JBoolean? || t.JNumber? || t.JString?
  }

  /** JSON text of a token nested inside a container. */
  function Serialize(t: JToken): string
    decreases t, 1
  {
    match t
    case JNull => "null"
    case JBoolean(b) => if b then "true" else "false"
    case JNumber(text) => text
    case JString(s) => "\"" + s + "\""
    case JArray(items) => "[" + SerializeItems(items) + "]"
    case JObject(properties) => "{" + SerializeProperties(properties) + "}"
    case JOther(typeName) => typeName
  }

  function SerializeItems(items: seq<JToken>): string
    decreases items, 0
  {
    if items == [] then ""
    else if |items| == 1 then Serialize(items[0])
    else Serialize(items[0]) + "," + SerializeItems(items[1..])
  }

  function SerializeProperties(properties: seq<JProperty>): string
    decreases properties, 0
  {
    if properties == [] then ""
    else
      var p := properties[0];
      var one := "\"" + p.name + "\":" + Serialize(p.value);
      if |properties| == 1 then one else one + "," + SerializeProperties(properties[1..])
  }

  /** `JToken.ToString()`: a value gives its own text (a JSON null gives the empty string), a container its JSON text. */
  function Show(t: JToken): string {
    match t
    case JNull => ""
    case JBoolean(b) => if b then "True" else "False"
    case JNumber(text) => text
    case JString(s) => s
    case _ => Serialize(t)
  }

  /** A .NET `object` handed over as a parameter value: null, a string or a JToken. */
  datatype Value = NullObject | Text(s: string) | Token(t: JToken)

  /** `value.ToString()` for a value that is not null. */
  function ValueText(v: Value): string
    requires !v.NullObject?
  {
    match v
    case Text(s) => s
    case Token(t) => Show(t)
  }

  /** One key/value pair of a dictionary, a JSON object or a query string. */
  datatype Pair = Pair(key: Nullable<string>, value: Value)
}

=== FILE: ps_configuration.dfy ===
/**
 PSConfiguration: the response converters a deployment supports, in a fixed
 order and always ending with the null converter, and the case-insensitive
 first-match lookup of a converter by media type.
 */
module PSConfiguration {
  import opened DotNet
  import opened ConverterRegistry

  /** The header values of the given media types. */
  function Headers(mediaTypes: seq<string>): (r: seq<Nullable<MediaTypeHeader>>)
    ensures |r| == |mediaTypes|
    ensures forall i :: 0 <= i < |mediaTypes| ==> r[i] == NonNull(MediaTypeHeader(mediaTypes[i]))
  {
    seq(|mediaTypes|, i requires 0 <= i < |mediaTypes| => NonNull(MediaTypeHeader(mediaTypes[i])))
  }

  function Given(ss: seq<string>): (r: seq<Nullable<string>>)
    ensures |r| == |ss|
    ensures forall i :: 0 <= i < |ss| ==> r[i] == NonNull(ss[i])
  {
    seq(|ss|, i requires 0 <= i < |ss| => NonNull(ss[i]))
  }

  /** One of the standard converters: constant media types, extension and cmdlet. */
  function Converter(mediaTypes: seq<string>, uriPathExtension: string, conversionCmdlet: string): Registry {
    Registry(Headers(mediaTypes), uriPathExtension, conversionCmdlet, Null)
  }

  /** The string constructor builds such a converter from non-empty media types and an extension with no blank ends. */
  lemma ConverterConstructed(mediaTypes: seq<string>, uriPathExtension: string, conversionCmdlet: string)
    requires mediaTypes != []
    requires forall i :: 0 <= i < |mediaTypes| ==> mediaTypes[i] != []
    requires uriPathExtension != [] && !IsWhite(uriPathExtension[0]) && !IsWhite(uriPathExtension[|uriPathExtension| - 1])
    ensures NewRegistryOfStrings(NonNull(Given(mediaTypes)), NonNull(uriPathExtension), NonNull(conversionCmdlet), Null)
         == Ok(Converter(mediaTypes, uriPathExtension, conversionCmdlet))
  {
    var r := NewRegistryOfStrings(NonNull(Given(mediaTypes)), NonNull(uriPathExtension), NonNull(conversionCmdlet), Null);
    assert forall i :: 0 <= i < |mediaTypes| ==> !IsNullOrEmpty(Given(mediaTypes)[i]);
    assert r.Ok?;
    assert TrimStart(uriPathExtension) == uriPathExtension;
    assert r.value.mediaTypes == Headers(mediaTypes);
  }

  function JsonConverter(): Registry { Converter(["application/json", "text/json"], "json", "ConvertTo-Json") }
  function XmlConverter(): Registry { Converter(["application/xml", "text/xml"], "xml", "ConvertTo-Xml") }
  function CsvConverter(): Registry { Converter(["text/csv", "application/csv"], "csv", "ConvertTo-Csv") }
  function HtmlConverter(): Registry { Converter(["text/html", "application/xhtml"], "html", "ConvertTo-Html") }
  function TextConverter(): Registry { Converter(["text/plain"], "string", "Out-String") }
  /** Converts with `ToString()`, so no cmdlet. */
  function StringConverter(): Registry { Converter(["application/string"], "str", "") }
  function NullConverter(): Registry { Converter(["application/null"], "null", "Out-Null") }

  /** The converters, and the accessor of each optional one (null when it is switched off). */
  datatype Configuration = Configuration(
    supportedConverters: seq<Registry>,
    jsonConverter: Nullable<Registry>,
    xmlConverter: Nullable<Registry>,
    csvConverter: Nullable<Registry>,
    htmlConverter: Nullable<Registry>,
    textConverter: Nullable<Registry>,
    stringConverter: Nullable<Registry>,
    nullConverter: Registry)

  function Optional(on: bool, converter: Registry): Nullable<Registry> {
    if on then NonNull(converter) else Null
  }

  function IfOn(on: bool, converter: Registry): seq<Registry> {
    if on then [converter] else []
  }

  /** The constructor; every flag defaults to true. */
  function Configure(supportJson: bool, supportXml: bool, supportCsv: bool, supportHtml: bool,
                     supportText: bool, supportString: bool): (c: Configuration)
    ensures |c.supportedConverters| >= 1 && c.supportedConverters[|c.supportedConverters| - 1] == NullConverter()
    ensures c.nullConverter == NullConverter()
    ensures c.jsonConverter.NonNull? <==> supportJson
    ensures c.xmlConverter.NonNull? <==> supportXml
    ensures c.csvConverter.NonNull? <==> supportCsv
    ensures c.htmlConverter.NonNull? <==> supportHtml
    ensures c.textConverter.NonNull? <==> supportText
    ensures c.stringConverter.NonNull? <==> supportString
  {
    Configuration(
      IfOn(supportJson, JsonConverter()) + (IfOn(supportXml, XmlConverter()) + (IfOn(supportCsv, CsvConverter())
        + (IfOn(supportHtml, HtmlConverter()) + (IfOn(supportText, TextConverter()) + (IfOn(supportString, StringConverter())
        + [NullConverter()]))))),
      Optional(supportJson, JsonConverter()), Optional(supportXml, XmlConverter()), Optional(supportCsv, CsvConverter()),
      Optional(supportHtml, HtmlConverter()), Optional(supportText, TextConverter()), Optional(supportString, StringConverter()),
      NullConverter())
  }

  const Default: Configuration := Configure(true, true, true, true, true, true)

  /** `a` is `b` with some elements left out, the rest in the same order. */
  predicate IsSubsequence<T(==)>(a: seq<T>, b: seq<T>)
    decreases |b|
  {
    if a == [] then true
    else if b == [] then false
    else (a[0] == b[0] && IsSubsequence(a[1..], b[1..])) || IsSubsequence(a, b[1..])
  }

  /** Keeping or leaving out one more element in front keeps a subsequence one. */
  lemma SubsequenceCons<T>(x: T, a: seq<T>, b: seq<T>, on: bool)
    requires IsSubsequence(a, b)
    ensures IsSubsequence((if on then [x] else []) + a, [x] + b)
  {
    assert ([x] + b)[1..] == b;
    if on {
      assert ([x] + a)[1..] == a;
    } else {
      assert [] + a == a;
    }
  }

  /** Whatever is switched off, the converters keep the default order. */
  lemma ConvertersInFixedOrder(supportJson: bool, supportXml: bool, supportCsv: bool, supportHtml: bool, supportText: bool, supportString: bool)
    ensures IsSubsequence(Configure(supportJson, supportXml, supportCsv, supportHtml, supportText, supportString).supportedConverters,
                          Default.supportedConverters)
  {
    var d6 := [NullConverter()];
    assert IsSubsequence(d6, d6) by { assert d6[1..] == []; }
    var s6 := IfOn(supportString, StringConverter()) + d6;
    SubsequenceCons(StringConverter(), d6, d6, supportString);
    var d5 := [StringConverter()] + d6;
    var s5 := IfOn(supportText, TextConverter()) + s6;
    SubsequenceCons(TextConverter(), s6, d5, supportText);
    var d4 := [TextConverter()] + d5;
    var s4 := IfOn(supportHtml, HtmlConverter()) + s5;
    SubsequenceCons(HtmlConverter(), s5, d4, supportHtml);
    var d3 := [HtmlConverter()] + d4;
    var s3 := IfOn(supportCsv, CsvConverter()) + s4;
    SubsequenceCons(CsvConverter(), s4, d3, supportCsv);
    var d2 := [CsvConverter()] + d3;
    var s2 := IfOn(supportXml, XmlConverter()) + s3;
    SubsequenceCons(XmlConverter(), s3, d2, supportXml);
    var d1 := [XmlConverter()] + d2;
    var s1 := IfOn(supportJson, JsonConverter()) + s2;
    SubsequenceCons(JsonConverter(), s2, d1, supportJson);
    var c := Configure(supportJson, supportXml, supportCsv, supportHtml, supportText, supportString);
    assert c.supportedConverters == s1;
    assert Default.supportedConverters == [JsonConverter()] + d1;
  }

  /** One optional converter in front of the rest: it is listed exactly when it is on, or when the rest lists it. */
  lemma InIfOn(y: Registry, on: bool, x: Registry, rest: seq<Registry>)
    ensures y in IfOn(on, x) + rest <==> (on && y == x) || y in rest
  {
  }

  /** The seven standard converters differ pairwise, already in their extensions. */
  lemma ConvertersDistinct()
    ensures JsonConverter() !in [XmlConverter(), CsvConverter(), HtmlConverter(), TextConverter(), StringConverter(), NullConverter()]
    ensures XmlConverter() !in [CsvConverter(), HtmlConverter(), TextConverter(), StringConverter(), NullConverter()]
    ensures CsvConverter() !in [HtmlConverter(), TextConverter(), StringConverter(), NullConverter()]
    ensures HtmlConverter() !in [TextConverter(), StringConverter(), NullConverter()]
    ensures TextConverter() !in [StringConverter(), NullConverter()]
    ensures StringConverter() != NullConverter()
  {
  }

  /** A converter is listed exactly when it is one whose flag is on, or the null converter. */
  lemma InConfigured(y: Registry, supportJson: bool, supportXml: bool, supportCsv: bool, supportHtml: bool, supportText: bool, supportString: bool)
    ensures y in Configure(supportJson, supportXml, supportCsv, supportHtml, supportText, supportString).supportedConverters <==>
      || (supportJson && y == JsonConverter()) || (supportXml && y == XmlConverter()) || (supportCsv && y == CsvConverter())
      || (supportHtml && y == HtmlConverter()) || (supportText && y == TextConverter()) || (supportString && y == StringConverter())
      || y == NullConverter()
  {
    var s6 := IfOn(supportString, StringConverter()) + [NullConverter()];
    var s5 := IfOn(supportText, TextConverter()) + s6;
    var s4 := IfOn(supportHtml, HtmlConverter()) + s5;
    var s3 := IfOn(supportCsv, CsvConverter()) + s4;
    var s2 := IfOn(supportXml, XmlConverter()) + s3;
    InIfOn(y, supportString, StringConverter(), [NullConverter()]);
    InIfOn(y, supportText, TextConverter(), s6);
    InIfOn(y, supportHtml, HtmlConverter(), s5);
    InIfOn(y, supportCsv, CsvConverter(), s4);
    InIfOn(y, supportXml, XmlConverter(), s3);
    InIfOn(y, supportJson, JsonConverter(), s2);
  }

  /** Each optional converter is listed exactly when its flag is on; the null converter always is. */
  lemma ConvertersFollowFlags(supportJson: bool, supportXml: bool, supportCsv: bool, supportHtml: bool, supportText: bool, supportString: bool)
    ensures var cs := Configure(supportJson, supportXml, supportCsv, supportHtml, supportText, supportString).supportedConverters;
      && (JsonConverter() in cs <==> supportJson)
      && (XmlConverter() in cs <==> supportXml)
      && (CsvConverter() in cs <==> supportCsv)
      && (HtmlConverter() in cs <==> supportHtml)
      && (TextConverter() in cs <==> supportText)
      && (StringConverter() in cs <==> supportString)
      && NullConverter() in cs
  {
    var cs := Configure(supportJson, supportXml, supportCsv, supportHtml, supportText, supportString).supportedConverters;
    assert JsonConverter() in cs <==> supportJson by {
      ConvertersDistinct();
      InConfigured(JsonConverter(), supportJson, supportXml, supportCsv, supportHtml, supportText, supportString);
    }
    assert XmlConverter() in cs <==> supportXml by {
      ConvertersDistinct();
      InConfigured(XmlConverter(), supportJson, supportXml, supportCsv, supportHtml, supportText, supportString);
    }
    assert CsvConverter() in cs <==> supportCsv by {
      ConvertersDistinct();
      InConfigured(CsvConverter(), supportJson, supportXml, supportCsv, supportHtml, supportText, supportString);
    }
    assert HtmlConverter() in cs <==> supportHtml by {
      ConvertersDistinct();
      InConfigured(HtmlConverter(), supportJson, supportXml, supportCsv, supportHtml, supportText, supportString);
    }
    assert TextConverter() in cs <==> supportText by {
      ConvertersDistinct();
      InConfigured(TextConverter(), supportJson, supportXml, supportCsv, supportHtml, supportText, supportString);
    }
    assert StringConverter() in cs <==> supportString by {
      ConvertersDistinct();
      InConfigured(StringConverter(), supportJson, supportXml, supportCsv, supportHtml, supportText, supportString);
    }
    InConfigured(NullConverter(), supportJson, supportXml, supportCsv, supportHtml, supportText, supportString);
  }

  // ---------------------------------------------------------------------------
  // Lookup.

  /** The converter lists the media type, ignoring case. */
  predicate Supports(c: Registry, mediaType: string) {
    exists i :: 0 <= i < |c.mediaTypes| && c.mediaTypes[i].NonNull? && EqualsIgnoreCase(c.mediaTypes[i].value.mediaType, mediaType)
  }

  /** The first converter, in list order, that supports the media type. */
  function FirstSupporting(converters: seq<Registry>, mediaType: string): (r: Nullable<Registry>)
    ensures r.Null? <==> forall i :: 0 <= i < |converters| ==> !Supports(converters[i], mediaType)
    ensures r.NonNull? ==> exists i :: 0 <= i < |converters| && converters[i] == r.value && Supports(r.value, mediaType)
                                   && forall j :: 0 <= j < i ==> !Supports(converters[j], mediaType)
    decreases |converters|
  {
    if converters == [] then Null
    else if Supports(converters[0], mediaType) then NonNull(converters[0])
    else
      var r := FirstSupporting(converters[1..], mediaType);
      assert forall i :: 1 <= i < |converters| ==> converters[i] == converters[1..][i - 1];
      r
  }

  /** `Lookup(string)` */
  function Lookup(config: Configuration, mediaType: Nullable<string>): (r: Nullable<Registry>)
    ensures IsNullOrEmpty(mediaType) ==> r.Null?
    ensures r.NonNull? ==> r.value in config.supportedConverters && Supports(r.value, mediaType.value)
    ensures !IsNullOrEmpty(mediaType) ==>
      (r.Null? <==> forall i :: 0 <= i < |config.supportedConverters| ==> !Supports(config.supportedConverters[i], mediaType.value))
    ensures r.NonNull? ==> exists i :: 0 <= i < |config.supportedConverters| && config.supportedConverters[i] == r.value
                                   && forall j :: 0 <= j < i ==> !Supports(config.supportedConverters[j], mediaType.value)
  {
    if IsNullOrEmpty(mediaType) then Null else FirstSupporting(config.supportedConverters, mediaType.value)
  }

  /** `Lookup(MediaTypeHeaderValue)`: a null header finds nothing, any other is looked up by its media type. */
  function LookupHeader(config: Configuration, mediaType: Nullable<MediaTypeHeader>): (r: Nullable<Registry>)
    ensures mediaType.Null? ==> r.Null?
    ensures mediaType.NonNull? ==> r == Lookup(config, NonNull(mediaType.value.mediaType))
  {
    if mediaType.Null? then Null else Lookup(config, NonNull(mediaType.value.mediaType))
  }

  lemma SupportsListed(c: Registry, i: nat, mediaType: string)
    requires i < |c.mediaTypes| && c.mediaTypes[i].NonNull? && EqualsIgnoreCase(c.mediaTypes[i].value.mediaType, mediaType)
    ensures Supports(c, mediaType)
  {
  }

  /** A standard converter none of whose media types has the length of the query does not support it. */
  lemma UnsupportedByLength(mediaTypes: seq<string>, uriPathExtension: string, conversionCmdlet: string, mediaType: string)
    requires forall i :: 0 <= i < |mediaTypes| ==> |mediaTypes[i]| != |mediaType|
    ensures !Supports(Converter(mediaTypes, uriPathExtension, conversionCmdlet), mediaType)
  {
  }

  /** When only the last converter supports the media type, the lookup finds it. */
  lemma FirstIsLast(converters: seq<Registry>, mediaType: string)
    requires converters != []
    requires forall k :: 0 <= k < |converters| - 1 ==> !Supports(converters[k], mediaType)
    requires Supports(converters[|converters| - 1], mediaType)
    ensures FirstSupporting(converters, mediaType) == NonNull(converters[|converters| - 1])
  {
  }

  /** No optional converter lists `application/null`. */
  lemma OptionalsSkipNull()
    ensures !Supports(JsonConverter(), "APPLICATION/NULL") && !Supports(XmlConverter(), "APPLICATION/NULL")
    ensures !Supports(CsvConverter(), "APPLICATION/NULL") && !Supports(HtmlConverter(), "APPLICATION/NULL")
    ensures !Supports(TextConverter(), "APPLICATION/NULL") && !Supports(StringConverter(), "APPLICATION/NULL")
  {
    var q := "APPLICATION/NULL";
    var m := "application/json";
    assert ToUpperChar(m[12]) != ToUpperChar(q[12]);
    assert !EqualsIgnoreCase(m, q);
    UnsupportedByLength(["text/json"], "json", "ConvertTo-Json", q);
    assert JsonConverter().mediaTypes == [NonNull(MediaTypeHeader(m)), NonNull(MediaTypeHeader("text/json"))];
    UnsupportedByLength(["application/xml", "text/xml"], "xml", "ConvertTo-Xml", q);
    UnsupportedByLength(["text/csv", "application/csv"], "csv", "ConvertTo-Csv", q);
    UnsupportedByLength(["text/html", "application/xhtml"], "html", "ConvertTo-Html", q);
    UnsupportedByLength(["text/plain"], "string", "Out-String", q);
    UnsupportedByLength(["application/string"], "str", "", q);
  }

  /** A converter that does not support the media type is passed over, whether it is switched on or not. */
  lemma PassedOver(x: Registry, on: bool, rest: seq<Registry>, mediaType: string)
    requires !Supports(x, mediaType)
    ensures FirstSupporting(IfOn(on, x) + rest, mediaType) == FirstSupporting(rest, mediaType)
  {
    if on {
      assert ([x] + rest)[1..] == rest;
    } else {
      assert [] + rest == rest;
    }
  }

  /** The chain of optional converters is passed over for `application/null`, and the null converter ends it. */
  lemma NullFoundAmong(supportJson: bool, supportXml: bool, supportCsv: bool, supportHtml: bool, supportText: bool, supportString: bool)
    ensures FirstSupporting(IfOn(supportJson, JsonConverter()) + (IfOn(supportXml, XmlConverter()) + (IfOn(supportCsv, CsvConverter())
            + (IfOn(supportHtml, HtmlConverter()) + (IfOn(supportText, TextConverter()) + (IfOn(supportString, StringConverter())
            + [NullConverter()]))))), "APPLICATION/NULL")
         == NonNull(NullConverter())
  {
    var q := "APPLICATION/NULL";
    OptionalsSkipNull();
    var s6 := [NullConverter()];
    SupportsListed(NullConverter(), 0, q);
    assert FirstSupporting(s6, q) == NonNull(NullConverter());
    var s5 := IfOn(supportString, StringConverter()) + s6;
    PassedOver(StringConverter(), supportString, s6, q);
    var s4 := IfOn(supportText, TextConverter()) + s5;
    PassedOver(TextConverter(), supportText, s5, q);
    var s3 := IfOn(supportHtml, HtmlConverter()) + s4;
    PassedOver(HtmlConverter(), supportHtml, s4, q);
    var s2 := IfOn(supportCsv, CsvConverter()) + s3;
    PassedOver(CsvConverter(), supportCsv, s3, q);
    var s1 := IfOn(supportXml, XmlConverter()) + s2;
    PassedOver(XmlConverter(), supportXml, s2, q);
    PassedOver(JsonConverter(), supportJson, s1, q);
  }

  /** `application/null` in any case always finds the null converter, whatever is switched on. */
  lemma NullAlwaysFound(supportJson: bool, supportXml: bool, supportCsv: bool, supportHtml: bool, supportText: bool, supportString: bool)
    ensures Lookup(Configure(supportJson, supportXml, supportCsv, supportHtml, supportText, supportString), NonNull("APPLICATION/NULL"))
         == NonNull(NullConverter())
  {
    NullFoundAmong(supportJson, supportXml, supportCsv, supportHtml, supportText, supportString);
  }

  /** The default converters, by the list they are made of. */
  lemma DefaultList()
    ensures Default.supportedConverters
         == IfOn(true, JsonConverter()) + (IfOn(true, XmlConverter()) + (IfOn(true, CsvConverter())
            + (IfOn(true, HtmlConverter()) + (IfOn(true, TextConverter()) + (IfOn(true, StringConverter()) + [NullConverter()])))))
  {
  }

  /** By default a JSON media type in any case finds the JSON converter, the first one listed. */
  lemma DefaultLookupJson()
    ensures Lookup(Default, NonNull("Application/JSON")) == NonNull(JsonConverter())
  {
    SupportsListed(JsonConverter(), 0, "Application/JSON");
  }

  /** A media type the first four default converters do not support is looked up among the last three. */
  lemma DefaultPassesOverFour(mediaType: string)
    requires !Supports(JsonConverter(), mediaType) && !Supports(XmlConverter(), mediaType)
    requires !Supports(CsvConverter(), mediaType) && !Supports(HtmlConverter(), mediaType)
    ensures FirstSupporting(Default.supportedConverters, mediaType)
         == FirstSupporting(IfOn(true, TextConverter()) + (IfOn(true, StringConverter()) + [NullConverter()]), mediaType)
  {
    var s4 := IfOn(true, TextConverter()) + (IfOn(true, StringConverter()) + [NullConverter()]);
    var s3 := IfOn(true, HtmlConverter()) + s4;
    PassedOver(HtmlConverter(), true, s4, mediaType);
    var s2 := IfOn(true, CsvConverter()) + s3;
    PassedOver(CsvConverter(), true, s3, mediaType);
    var s1 := IfOn(true, XmlConverter()) + s2;
    PassedOver(XmlConverter(), true, s2, mediaType);
    PassedOver(JsonConverter(), true, s1, mediaType);
    DefaultList();
  }

  /** By default `text/plain` passes over the first four converters and finds the text converter. */
  lemma DefaultLookupText()
    ensures Lookup(Default, NonNull("text/plain")) == NonNull(TextConverter())
  {
    var t := "text/plain";
    UnsupportedByLength(["text/html", "application/xhtml"], "html", "ConvertTo-Html", t);
    UnsupportedByLength(["text/csv", "application/csv"], "csv", "ConvertTo-Csv", t);
    UnsupportedByLength(["application/xml", "text/xml"], "xml", "ConvertTo-Xml", t);
    UnsupportedByLength(["application/json", "text/json"], "json", "ConvertTo-Json", t);
    DefaultPassesOverFour(t);
    SupportsListed(TextConverter(), 0, t);
  }

  /** A media type no converter lists, and the empty one, find nothing. */
  lemma DefaultLookupUnknown()
    ensures Lookup(Default, NonNull("text/x-unknown")).Null?
    ensures Lookup(Default, NonNull("")).Null?
  {
    var u := "text/x-unknown";
    var s7: seq<Registry> := [];
    var s6 := IfOn(true, NullConverter()) + s7;
    UnsupportedByLength(["application/null"], "null", "Out-Null", u);
    PassedOver(NullConverter(), true, s7, u);
    var s5 := IfOn(true, StringConverter()) + s6;
    UnsupportedByLength(["application/string"], "str", "", u);
    PassedOver(StringConverter(), true, s6, u);
    var s4 := IfOn(true, TextConverter()) + s5;
    UnsupportedByLength(["text/plain"], "string", "Out-String", u);
    PassedOver(TextConverter(), true, s5, u);
    var s3 := IfOn(true, HtmlConverter()) + s4;
    UnsupportedByLength(["text/html", "application/xhtml"], "html", "ConvertTo-Html", u);
    PassedOver(HtmlConverter(), true, s4, u);
    var s2 := IfOn(true, CsvConverter()) + s3;
    UnsupportedByLength(["text/csv", "application/csv"], "csv", "ConvertTo-Csv", u);
    PassedOver(CsvConverter(), true, s3, u);
    var s1 := IfOn(true, XmlConverter()) + s2;
    UnsupportedByLength(["application/xml", "text/xml"], "xml", "ConvertTo-Xml", u);
    PassedOver(XmlConverter(), true, s2, u);
    UnsupportedByLength(["application/json", "text/json"], "json", "ConvertTo-Json", u);
    PassedOver(JsonConverter(), true, s1, u);
    DefaultList();
    assert [NullConverter()] + s7 == [NullConverter()];
  }

  // ---------------------------------------------------------------------------
  // Route constraint.

  function Extensions(converters: seq<Registry>): (r: seq<string>)
    ensures forall i :: 0 <= i < |r| ==> r[i] != []
    ensures |r| <= |converters|
    ensures r == [] <==> forall i :: 0 <= i < |converters| ==> converters[i].uriPathExtension == []
    decreases |converters|
  {
    if converters == [] then []
    else if converters[0].uriPathExtension == [] then Extensions(converters[1..])
    else [converters[0].uriPathExtension] + Extensions(converters[1..])
  }

  /** `UriPathExtConstraint`: the non-empty extensions in list order, joined by `|`. */
  function UriPathExtConstraint(config: Configuration): (r: string)
    ensures r == "" <==> forall i :: 0 <= i < |config.supportedConverters| ==> config.supportedConverters[i].uriPathExtension == []
  {
    Join("|", Extensions(config.supportedConverters))
  }

  /** When every converter has an extension, all of them are kept, in order. */
  lemma {:induction false} ExtensionsAllSet(converters: seq<Registry>)
    requires forall i :: 0 <= i < |converters| ==> converters[i].uriPathExtension != []
    ensures |Extensions(converters)| == |converters|
    ensures forall i :: 0 <= i < |converters| ==> Extensions(converters)[i] == converters[i].uriPathExtension
    decreases |converters|
  {
    if converters != [] {
      ExtensionsAllSet(converters[1..]);
      var rest := Extensions(converters[1..]);
      assert Extensions(converters) == [converters[0].uriPathExtension] + rest;
      forall i | 0 <= i < |converters| ensures Extensions(converters)[i] == converters[i].uriPathExtension {
        if i > 0 {
          assert Extensions(converters)[i] == rest[i - 1];
          assert converters[1..][i - 1] == converters[i];
        }
      }
    }
  }

  /** The extensions of a concatenation are those of each part in turn. */
  lemma {:induction false} ExtensionsAppend(a: seq<Registry>, b: seq<Registry>)
    ensures Extensions(a + b) == Extensions(a) + Extensions(b)
    decreases |a|
  {
    if a == [] {
      assert a + b == b;
    } else {
      assert (a + b)[0] == a[0];
      assert (a + b)[1..] == a[1..] + b;
      ExtensionsAppend(a[1..], b);
    }
  }

  /**
   The general rule: one converter contributes its extension when that is
   set and nothing otherwise, so with `ExtensionsAppend` the kept extensions
   are the set ones in list order.
   */
  lemma ExtensionsOfOne(c: Registry)
    ensures Extensions([c]) == if c.uriPathExtension == [] then [] else [c.uriPathExtension]
  {
    assert [c][1..] == [];
  }

  /** The default converters in order, as a plain list. */
  lemma DefaultListed()
    ensures Default.supportedConverters
         == [JsonConverter(), XmlConverter(), CsvConverter(), HtmlConverter(), TextConverter(), StringConverter(), NullConverter()]
  {
    DefaultList();
  }

  /** The extensions of the standard converters, in list order. */
  lemma ListedExtensions(l: seq<Registry>)
    requires l == [JsonConverter(), XmlConverter(), CsvConverter(), HtmlConverter(), TextConverter(), StringConverter(), NullConverter()]
    ensures Extensions(l) == ["json", "xml", "csv", "html", "string", "str", "null"]
  {
    var x := ["json", "xml", "csv", "html", "string", "str", "null"];
    assert forall i :: 0 <= i < 7 ==> l[i].uriPathExtension == x[i];
    ExtensionsAllSet(l);
    var e := Extensions(l);
    assert |e| == |x|;
    assert forall i :: 0 <= i < 7 ==> e[i] == x[i];
  }

  lemma DefaultConstraint()
    ensures UriPathExtConstraint(Default) == Join("|", ["json", "xml", "csv", "html", "string", "str", "null"])
  {
    DefaultListed();
    ListedExtensions(Default.supportedConverters);
  }
}

=== FILE: ps_extensions.dfy ===
/**
 The PowerShell side of PSControllerExtensions: gathering the input
 parameters, binding them to a command, joining the pipeline's results into
 one response string, and turning the invocation's streams into an exception
 or response headers; plus the user name of a controller.
 */
module PSExtensions {
  import opened DotNet
  import opened JTokens

  /** `GatherInputParameters`: body parameters, then the query string's; only the latter when the body is null. */
  function GatherInputParameters(queryPairs: seq<Pair>, parametersFromBody: Nullable<seq<Pair>>): (r: seq<Pair>)
    ensures |r| == |parametersFromBody.OrElse([])| + |queryPairs|
    ensures r[..|parametersFromBody.OrElse([])|] == parametersFromBody.OrElse([])
    ensures r[|parametersFromBody.OrElse([])|..] == queryPairs
  {
    match parametersFromBody
    case Null => queryPairs
    case NonNull(body) => body + queryPairs
  }

  // ---------------------------------------------------------------------------
  // Binding parameters to a PowerShell command.

  /** What `AddArgument` and `AddParameter` put on a command. */
  datatype CommandElement = Positional(value: Value) | Named(name: string, value: Value)

  /** What one pair binds: a blank key gives a positional argument unless the value is null, any other key a named parameter. */
  function BindPair(p: Pair): (r: seq<CommandElement>)
    ensures IsNullOrWhiteSpace(p.key) && p.value.NullObject? <==> r == []
    ensures |r| <= 1
    ensures |r| == 1 && IsNullOrWhiteSpace(p.key) ==> r[0] == Positional(p.value)
    ensures !IsNullOrWhiteSpace(p.key) ==> r == [Named(p.key.value, p.value)]
  {
    if IsNullOrWhiteSpace(p.key) then (if p.value.NullObject? then [] else [Positional(p.value)])
    else [Named(p.key.value, p.value)]
  }

  function Bind(ps: seq<Pair>): seq<CommandElement>
    decreases |ps|
  {
    if ps == [] then [] else BindPair(ps[0]) + Bind(ps[1..])
  }

  lemma {:induction false} BindAppend(a: seq<Pair>, b: seq<Pair>)
    ensures Bind(a + b) == Bind(a) + Bind(b)
    decreases |a|
  {
    if a == [] {
      assert a + b == b;
    } else {
      assert (a + b)[1..] == a[1..] + b;
      BindAppend(a[1..], b);
    }
  }

  /** `AddParameters`: the command's elements so far, then each pair's, in order. */
  method AddParameters(elements: seq<CommandElement>, parameters: Nullable<seq<Pair>>) returns (r: seq<CommandElement>)
    ensures r == elements + Bind(parameters.OrElse([]))
  {
    r := elements;
    if parameters.Null? {
      return;
    }
    var ps := parameters.value;
    var i := 0;
    while i < |ps|
      invariant 0 <= i <= |ps|
      invariant r == elements + Bind(ps[..i])
    {
      BindAppend(ps[..i], [ps[i]]);
      assert ps[..i + 1] == ps[..i] + [ps[i]];
      assert Bind([ps[i]]) == BindPair(ps[i]);
      r := r + BindPair(ps[i]);
      i := i + 1;
    }
    assert ps[..i] == ps;
  }

  /** Binding the gathered parameters binds the body's, then the query string's. */
  lemma BindGathered(queryPairs: seq<Pair>, parametersFromBody: Nullable<seq<Pair>>)
    ensures Bind(GatherInputParameters(queryPairs, parametersFromBody)) == Bind(parametersFromBody.OrElse([])) + Bind(queryPairs)
  {
    if parametersFromBody.NonNull? {
      BindAppend(parametersFromBody.value, queryPairs);
    }
  }

  /** The number of pairs that bind nothing: a blank key with a null value. */
  function SkippedCount(ps: seq<Pair>): nat
    decreases |ps|
  {
    if ps == [] then 0
    else (if IsNullOrWhiteSpace(ps[0].key) && ps[0].value.NullObject? then 1 else 0) + SkippedCount(ps[1..])
  }

  /** Every pair but the skipped ones binds exactly one element. */
  lemma {:induction false} BindLength(ps: seq<Pair>)
    ensures |Bind(ps)| + SkippedCount(ps) == |ps|
    decreases |ps|
  {
    if ps != [] {
      BindLength(ps[1..]);
    }
  }

  // ---------------------------------------------------------------------------
  // The results.

  /**
   `GetPsResult`, over the results already turned into strings: nothing gives
   the empty string, and several are written one per line.
   */
  method GetPsResult(psResult: Nullable<seq<string>>) returns (r: string)
    ensures psResult.Null? ==> r == ""
    ensures psResult.NonNull? ==> r == Join(NewLine, psResult.value)
  {
    if psResult.Null? || |psResult.value| == 0 {
      return "";
    }
    var items := psResult.value;
    if |items| == 1 {
      return items[0];
    }
    r := "";
    var i := 0;
    while i < |items|
      invariant 0 <= i <= |items|
      invariant i == 0 ==> r == ""
      invariant i > 0 ==> r == Join(NewLine, items[..i])
    {
      var oneString := items[i];
      if i > 0 {
        JoinSnoc(NewLine, items[..i], oneString);
        assert items[..i + 1] == items[..i] + [oneString];
        r := r + NewLine;
      } else {
        assert items[..1] == [oneString];
      }
      if oneString != [] {
        r := r + oneString;
      }
      i := i + 1;
    }
    assert items[..i] == items;
  }

  /** n results give their lengths plus n - 1 line breaks. */
  lemma PsResultLength(items: seq<string>)
    requires items != []
    ensures |Join(NewLine, items)| == TotalLength(items) + 2 * (|items| - 1)
  {
    JoinLength(NewLine, items);
  }

  // ---------------------------------------------------------------------------
  // Escaping line breaks in header values.

  /** `Uri.EscapeDataString(Environment.NewLine).ToLower()` */
  const EscapedNewLine: string := "%0d%0a"

  /** `s` holds a carriage return followed by a line feed. */
  predicate HasNewLine(s: string)
    decreases |s|
  {
    |s| >= 2 && ((s[0] == '\r' && s[1] == '\n') || HasNewLine(s[1..]))
  }

  /** `EscapeNewLine`: null and empty stay as they are. */
  function EscapeNewLine(multiline: Nullable<string>): (r: Nullable<string>)
    ensures IsNullOrEmpty(multiline) ==> r == multiline
    ensures r.NonNull? <==> multiline.NonNull?
  {
    if IsNullOrEmpty(multiline) then multiline
    else NonNull(Replace(multiline.value, NewLine, EscapedNewLine))
  }

  lemma ConsNewLine(c: char, t: string)
    ensures HasNewLine([c] + t) <==> (c == '\r' && t != [] && t[0] == '\n') || HasNewLine(t)
  {
    assert ([c] + t)[1..] == t;
  }

  /** A prefix without line breaks that does not end in a carriage return adds none. */
  lemma {:induction false} CleanPrefix(p: string, t: string)
    requires !HasNewLine(p)
    requires p == [] || p[|p| - 1] != '\r'
    ensures HasNewLine(p + t) <==> HasNewLine(t)
    decreases |p|
  {
    if p == [] {
      assert p + t == t;
    } else {
      assert p + t == [p[0]] + (p[1..] + t);
      ConsNewLine(p[0], p[1..] + t);
      assert p == [p[0]] + p[1..];
      ConsNewLine(p[0], p[1..]);
      if |p| == 1 {
        assert p[1..] + t == t;
      } else {
        assert (p[1..] + t)[0] == p[1..][0];
        assert p[1..][|p[1..]| - 1] == p[|p| - 1];
        CleanPrefix(p[1..], t);
      }
    }
  }

  lemma ReplaceNewLineStart(s: string)
    requires s != []
    ensures var r := Replace(s, NewLine, EscapedNewLine);
      r != [] && (r[0] == s[0] || (r[0] == '%' && |s| >= 2 && s[..2] == NewLine))
  {
    if |s| >= 2 && s[..2] == NewLine {
      assert Replace(s, NewLine, EscapedNewLine) == EscapedNewLine + Replace(s[2..], NewLine, EscapedNewLine);
    } else {
      assert |s| < 2 ==> Replace(s, NewLine, EscapedNewLine) == s;
    }
  }

  lemma {:induction false} ReplacedHasNoNewLine(s: string)
    ensures !HasNewLine(Replace(s, NewLine, EscapedNewLine))
    decreases |s|
  {
    var r := Replace(s, NewLine, EscapedNewLine);
    if |s| < 2 {
      assert r == s;
    } else if s[..2] == NewLine {
      var rest := Replace(s[2..], NewLine, EscapedNewLine);
      ReplacedHasNoNewLine(s[2..]);
      assert r == EscapedNewLine + rest;
      assert !HasNewLine(EscapedNewLine) by {
        assert EscapedNewLine[1..] == "0d%0a";
        assert EscapedNewLine[1..][1..] == "d%0a";
        assert EscapedNewLine[1..][1..][1..] == "%0a";
        assert EscapedNewLine[1..][1..][1..][1..] == "0a";
      }
      CleanPrefix(EscapedNewLine, rest);
    } else {
      var rest := Replace(s[1..], NewLine, EscapedNewLine);
      ReplacedHasNoNewLine(s[1..]);
      assert r == [s[0]] + rest;
      ReplaceNewLineStart(s[1..]);
      ConsNewLine(s[0], rest);
      assert s[1..][0] == s[1];
      assert s[..2] == [s[0], s[1]];
    }
  }

  lemma {:induction false} NoNewLineUnchanged(s: string)
    requires !HasNewLine(s)
    ensures Replace(s, NewLine, EscapedNewLine) == s
    decreases |s|
  {
    if |s| >= 2 {
      assert s[..2] == [s[0], s[1]];
      NoNewLineUnchanged(s[1..]);
    }
  }

  /** No line break survives escaping, and a value is left as it is exactly when it has none. */
  lemma EscapeNewLineClears(multiline: string)
    ensures !HasNewLine(EscapeNewLine(NonNull(multiline)).value)
    ensures EscapeNewLine(NonNull(multiline)) == NonNull(multiline) <==> !HasNewLine(multiline)
  {
    if multiline != [] {
      ReplacedHasNoNewLine(multiline);
      if !HasNewLine(multiline) {
        NoNewLineUnchanged(multiline);
      }
    }
  }

  // ---------------------------------------------------------------------------
  // The invocation's streams.

  /** The streams of a finished invocation; each may be null. */
  datatype Streams = Streams(
    error: Nullable<seq<Exception>>,
    warning: Nullable<seq<string>>,
    verbose: Nullable<seq<string>>,
    debug: Nullable<seq<string>>)

  datatype Header = Header(name: string, values: seq<Nullable<string>>)

  function EscapeAll(records: seq<string>): (r: seq<Nullable<string>>)
    ensures |r| == |records|
    ensures forall i :: 0 <= i < |records| ==> r[i] == EscapeNewLine(NonNull(records[i]))
  {
    seq(|records|, i requires 0 <= i < |records| => EscapeNewLine(NonNull(records[i])))
  }

  function Messages(errors: seq<Exception>): (r: seq<string>)
    ensures |r| == |errors|
    ensures forall i :: 0 <= i < |errors| ==> r[i] == MessageOf(errors[i])
  {
    seq(|errors|, i requires 0 <= i < |errors| => MessageOf(errors[i]))
  }

  predicate NonEmpty<T>(records: Nullable<seq<T>>) {
    records.NonNull? && |records.value| > 0
  }

  /** The header a non-empty stream gives. */
  function StreamHeader(name: string, records: Nullable<seq<string>>): seq<Header> {
    if NonEmpty(records) then [Header(name, EscapeAll(records.value))] else []
  }

  /**
   `SetContentHeader`, as the headers it adds: one error is rethrown, several
   are thrown together; otherwise each non-empty stream of warnings, verbose
   or debug records gives one header of its escaped records.
   */
  function SetContentHeader(hasHeaders: bool, invokedStatus: Nullable<Streams>): (r: Result<seq<Header>>)
    ensures invokedStatus.Null? ==> r == Ok([])
    ensures r.Throws? <==> invokedStatus.NonNull? && NonEmpty(invokedStatus.value.error)
    ensures r.Throws? && |invokedStatus.value.error.value| == 1 ==> r.error == invokedStatus.value.error.value[0]
    ensures r.Throws? && |invokedStatus.value.error.value| > 1 ==>
      r.error == Aggregate(Join(NewLine, Messages(invokedStatus.value.error.value)), invokedStatus.value.error.value)
    ensures r.Ok? && !hasHeaders ==> r.value == []
    ensures r.Ok? ==> |r.value| <= 3
    ensures r.Ok? ==> forall h :: h in r.value ==> h.name in ["Ps-Warning", "Ps-Verbose", "Ps-Debug"] && |h.values| > 0
  {
    match invokedStatus
    case Null => Ok([])
    case NonNull(s) =>
      if NonEmpty(s.error) then
        var errors := s.error.value;
        if |errors| == 1 then Throws(errors[0])
        else Throws(Aggregate(Join(NewLine, Messages(errors)), errors))
      else if !hasHeaders then Ok([])
      else Ok(StreamHeader("Ps-Warning", s.warning) + StreamHeader("Ps-Verbose", s.verbose) + StreamHeader("Ps-Debug", s.debug))
  }

  /** A stream's header is added exactly when the stream has records, and carries each of them escaped. */
  lemma HeadersFollowStreams(s: Streams)
    requires !NonEmpty(s.error)
    ensures var hs := SetContentHeader(true, NonNull(s)).value;
      && (Header("Ps-Warning", EscapeAll(s.warning.OrElse([]))) in hs <==> NonEmpty(s.warning))
      && (Header("Ps-Verbose", EscapeAll(s.verbose.OrElse([]))) in hs <==> NonEmpty(s.verbose))
      && (Header("Ps-Debug", EscapeAll(s.debug.OrElse([]))) in hs <==> NonEmpty(s.debug))
  {
  }

  // ---------------------------------------------------------------------------
  // The user name.

  datatype Identity = Identity(name: Nullable<string>)
  datatype Principal = Principal(identity: Nullable<Identity>)
  datatype Controller = Controller(user: Nullable<Principal>)

  /** `GetUserName(ApiController)` */
  function GetUserName(apiController: Nullable<Controller>): (r: Result<Nullable<string>>)
    ensures r.Throws? <==> apiController.Null?
    ensures r.Throws? ==> r.error == ArgumentNull("apiController")
    ensures r.Ok? && r.value.NonNull? ==> apiController.value.user.NonNull? && apiController.value.user.value.identity.NonNull?
    ensures apiController.NonNull? && apiController.value.user.NonNull? && apiController.value.user.value.identity.NonNull? ==>
      r == Ok(apiController.value.user.value.identity.value.name)
  {
    match apiController
    case Null => Throws(ArgumentNull("apiController"))
    case NonNull(c) =>
      if c.user.Null? || c.user.value.identity.Null? then Ok(Null)
      else Ok(c.user.value.identity.value.name)
  }

  /** A controller context; its controller is null here also when it is not an ApiController. */
  datatype ControllerContext = ControllerContext(controller: Nullable<Controller>)
  datatype ActionContext = ActionContext(controllerContext: Nullable<ControllerContext>)

  /** `GetUserName(HttpActionContext)` */
  function GetUserNameOfAction(actionContext: Nullable<ActionContext>): (r: Result<Nullable<string>>)
    ensures (actionContext.Null? || actionContext.value.controllerContext.Null?) ==> r == Throws(NullReference)
    ensures actionContext.NonNull? && actionContext.value.controllerContext.NonNull? ==>
      var controller := actionContext.value.controllerContext.value.controller;
      && (controller.Null? ==> r == Throws(ArgumentNull("actionContext.ControllerContext.Controller")))
      && (controller.NonNull? ==> r == GetUserName(controller) && r.Ok?)
  {
    match actionContext
    case Null => Throws(NullReference)
    case NonNull(a) =>
      match a.controllerContext
      case Null => Throws(NullReference)
      case NonNull(cc) =>
        if cc.controller.Null? then Throws(ArgumentNull("actionContext.ControllerContext.Controller"))
        else GetUserName(cc.controller)
  }
}
